=== FILE: README.md ===
# devbalance-pro activity engine, in Dafny

A model of the activity-tracking engine of devbalance-pro, an Electron desktop app that records
which application (and which website) is in the foreground and reports daily, weekly and monthly
totals. The model covers:

- **Classifier** (`src/monitor.js`): `getAppName`, `sanitizeTitle` and `extractDomain`. Together
  they turn one sample of the window probe into an application label, a cleaned title and an
  optional domain.
- **Monitor** (`src/monitor.js`): the session accumulator as a state machine.
  - `start`, the body of the one-second tick, `stop`, `saveCurrentSession` (here `Flush`) and
    `getElapsedTime`.
  - The clock and the probe are parameters, and a run is a list of start, stop and tick events.
- **Store** (`src/database.js`): the day files as a map from file name to content.
  - Operations: `saveSession`, `getDataByDate`, `getAvailableDates` and `clearOldData`.
  - "Today", the current instant and the retention cutoff are parameters. So are the order
    `readdirSync` lists the files in and the set of files `unlinkSync` cannot delete.
- **Stats** (`src/database.js`): the fold `aggregateStats`, and `getSummary`.
- **Report** (`src/renderer.js`): `formatTimeShort`, `formatTimer`, `cleanId`, the Pomodoro
  starting value and countdown, and the file-name lookup of `getAppIcon`.
- **Rollup** (`src/renderer.js`): the loops of `loadWeeklyView` and `loadMonthlyView` over
  per-day statistics, and the monthly top ten.
- **Validate** (`src/preload.js`): the argument checks of the bridge's `getStatsByDate` and
  `clearOldData`.

Four helper modules hold the JavaScript semantics the code relies on:

- `Basics`: `Option`, `Result` and truthiness.
- `Text`: `includes`, `indexOf`, `split(sep)[0]`, `replace` with a string pattern, ASCII
  `toLowerCase`, and string `<` with the `sort().reverse()` order.
- `Decimal`: `toString`, `padStart` and `parseInt`.
- `Sums`: the sum of the values of a map.

Every property is stated against an independent reference definition:

- Each `aggregateStats` entry is compared with sums over the sessions of its application
  (`AppTime`, `DomainTime`, …).
- The weekly and monthly loops are compared with the same sums over the sessions of all their
  days (`SessionsOf`).
- Each formatter has a reader and a round-trip lemma.
- The date check has a pattern matcher, proved equal to the shape predicate.

## Model

| member | source | states |
|---|---|---|
| Classifier.GetAppName | src/monitor.js:118-127 | No window or no owner gives `Desconhecido`; an owner without a name is an error (the tick then does nothing). Otherwise the first table fragment found in the lower-cased owner name gives its product label. When none is found, the label is the whole last segment of the lower-cased name with `.exe` removed once: a tail with no `/` or `\`, preceded by one unless it is all of the name. It is never a product label |
| Classifier.IdeaBeatsCodeAndChrome | src/monitor.js:122-124 | An owner name containing `idea` is IntelliJ IDEA whatever else it contains |
| Classifier.CodeBeatsChrome | src/monitor.js:123-124 | An owner name containing `code` and not `idea` is Visual Studio Code, even if it contains `chrome` |
| Classifier.FallbackIsPlain | src/monitor.js:126 | The fallback label is that whole last segment and has no upper-case letter, so it can never equal a product label or `Desconhecido` |
| Classifier.SanitizeTitle | src/monitor.js:111-116 | An empty or absent title gives `Sem título`. A title with ` – ` gives the text before its first occurrence (no occurrence starts earlier, even one overlapping the cut), and this wins over ` - `. Otherwise a title with ` - ` gives the text before its first occurrence, in the same sense. Neither separator branch is truncated. Otherwise the title with drive paths removed is kept whole up to 150 characters, and longer ones are cut to exactly their first 150 |
| Classifier.StripDrivePaths | src/monitor.js:115 | Removing `X:\…\` paths never lengthens the title and leaves the kept characters in their order (a subsequence). A title without `:\` is unchanged |
| Classifier.StripDrivePrefix | src/monitor.js:115 | A title that starts with `L:\x\`, for a letter `L` and a non-empty `x` without `\` or line breaks, loses exactly that prefix: the rest is then cleaned on its own |
| Classifier.PlainTitleKept | src/monitor.js:115 | A title without separators or drive paths comes back whole, or as its first 150 characters |
| Classifier.ExtractDomain | src/monitor.js:88-109 | An empty or absent title gives no domain. Otherwise the first known-site key found in the lower-cased title gives its domain. When no key is found, the result is whatever the pattern fallback returns for the lower-cased title |
| Monitor.Flush | src/monitor.js:73-86 | A session is saved exactly when the tracked app is non-empty, the start time is non-zero and at least 3000 ms have passed. The saved record keeps the tracked app, title and domain, with the floored whole seconds as duration (so more than 2) and the current instant as timestamp |
| Monitor.ElapsedTime | src/monitor.js:129-132 | 0 without a start time; otherwise the floored whole seconds since the start |
| Monitor.Tick | src/monitor.js:30-56 | When monitoring is off or the sample is null, nothing changes and no callback fires. A changed app or domain flushes the old session and opens a new one at the current instant. A title-only change keeps all four tracked fields and saves nothing. The callback receives the tracked labels and the elapsed time |
| Monitor.Start | src/monitor.js:14-28 | A no-op while monitoring. Stays idle when the probe library cannot be loaded. Otherwise monitoring starts, keeping the tracked session |
| Monitor.Stop | src/monitor.js:65-71 | A no-op when idle. Otherwise it turns monitoring off and flushes exactly once, and the tracked session is kept |
| Monitor.TitleChurnKeepsSession | src/monitor.js:39-46 | Any number of ticks that keep the app and the domain leave the state unchanged and save nothing, whatever their titles |
| Monitor.StopRestartResaves | src/monitor.js:65-71 | After a stop that saved a session and a restart, the next boundary tick saves the same session again, at least as long as before |
| Monitor.StopRestartRun | src/monitor.js:65-71 | The run start, tick(w1), stop, start, tick(w2) saves two sessions of w1's application: one up to the stop and one up to the second tick, both measured from the first start |
| Monitor.StopAndReset | src/monitor.js:65-71 | Stop with the tracked session cleared: the same flush, and afterwards nothing is tracked |
| Monitor.CorrectedStopRestartRun | src/monitor.js:65-71 | With `StopAndReset`, the same five events save w1's session once, up to the stop |
| Monitor.RunKeepsQuiet | src/monitor.js:65-71 | With `StopAndReset`, every run from an idle state with no tracked session keeps "idle implies nothing tracked" |
| Monitor.CorrectedRestartSavesNothing | src/monitor.js:14-28 | With `StopAndReset`, the first tick after a stop and a restart saves nothing |
| Store.FileName | src/database.js:21-23 | The day file of a date is the date followed by `.json` |
| Store.FileNameInjective | src/database.js:21-23 | Different dates have different files |
| Store.DateOfFileName | src/database.js:117 | Removing `.json` from a day file gives back its date when the date does not itself contain `.json` |
| Store.GetDataByDate | src/database.js:57-69 | A missing or unreadable file reads as `{sessions: [], date}`; otherwise the stored record is returned |
| Store.SaveSession | src/database.js:33-56 | The day is `session.date`, or today when it is empty. The save fails, changing nothing, when the day file is unreadable or the write fails. On success the day's sessions gain exactly one entry at the end, the record's `date` stays what it was (the day, for a new file), and no other file changes |
| Store.Entry | src/database.js:42-48 | The appended entry keeps app, title, domain and duration, with the timestamp defaulting to now |
| Store.SaveKeepsOtherDays | src/database.js:33-56 | Saving under one day leaves what every other day reads unchanged |
| Store.GetAvailableDates | src/database.js:112-125 | The dates of exactly the `.json` files, in descending string order; each date occurs as many times as there are `.json` files standing for it (two names can give one date). Nothing when listing fails |
| Store.ClearOldData | src/database.js:126-147 | Only files whose date compares below the cutoff are deleted, and kept files are unchanged. When the listing is the directory and no unlink fails, exactly the files below the cutoff go, and the count is their number. A failed unlink returns 0, with the files deleted before it gone. Nothing changes when listing fails |
| Store.DeleteExpired | src/database.js:134-140 | The loop stops with no count exactly when a listed expired name cannot be unlinked: it is protected, already gone, or listed twice. Otherwise every listed expired file is gone, and the count plus the files left is the directory size |
| Store.ClearOldDataIdempotent | src/database.js:134-142 | After a clear that went through, a second clear with the same cutoff deletes nothing and returns 0, however the directory is listed |
| Stats.Aggregate | src/database.js:77-111 | There is one entry for each application that occurs in the sessions, and none other |
| Stats.AggregateApp | src/database.js:88-89 | An application's `totalTime` is the sum of its sessions' durations and `sessions` their number |
| Stats.AggregateLastUsed | src/database.js:84-92 | `lastUsed` is one of the application's timestamps, and none of them compares greater |
| Stats.AggregateDomain | src/database.js:93-107 | A domain entry exists exactly when the application has a session with that truthy domain. It holds their total time and their number, plus the first three distinct titles in first-seen order |
| Stats.NoDomainBeforeApp | src/database.js:93-100 | An application without sessions has no domain time or visits |
| Stats.DomainWithinApp | src/database.js:101-102 | For non-negative durations, a domain's time and visits never exceed its application's |
| Stats.AggregateSums | src/database.js:88-89 | The `totalTime`s add up to the sum of all durations, and the `sessions` counts to the number of sessions |
| Stats.AddTitleTakesDistinct | src/database.js:103-106 | Adding a title to the list is taking the first three distinct titles of the longer history |
| Stats.EditorAndBrowserDay | src/database.js:77-111 | A worked day of three sessions gives the expected two entries |
| Stats.Summarize | src/database.js:150-171 | Over the first `days` dates, the result has `daysTracked` dates and `totalSessions` sessions. `totalTime` is their duration sum, and `appUsage` holds each application's time. `totalTime` is the sum of the `appUsage` values |
| Stats.GetSummary | src/database.js:148-176 | The dates are those of exactly the `.json` files, newest first, each as often as it has files. Over the first `days` of them, `daysTracked` is the smaller of `days` and the number of day files, and `totalSessions` counts their sessions. `totalTime` is those sessions' duration sum, and `appUsage` holds each application's time; the values add up to `totalTime`. Everything is empty when listing fails |
| Stats.SummaryStep | src/database.js:157-164 | One session added to `appUsage` is the same as one session added to the per-application totals of `aggregateStats` |
| Report.FormatTimeShort | src/renderer.js:64-68 | The label reads back as the whole minutes of the duration, and it shows an hours field exactly when the duration is at least an hour. The reader takes only numbers without leading zeros, a non-zero hours field and minutes below 60 |
| Report.ReadTimeShortOnlyLabels | src/renderer.js:64-68 | Every text the reader accepts is a label: read as `m` minutes, it is the label of `60 * m` seconds. With `FormatTimeShort`, the labels and the whole minutes correspond one to one |
| Report.FormatTimeShortSameMinutes | src/renderer.js:64-68 | Two durations print alike exactly when they have the same whole minutes |
| Report.FormatTimer | src/renderer.js:70-74 | Digits, a colon, then exactly two digits, at least five characters in all. The field before the colon reads as the whole minutes and the two digits as the seconds below 60. The minutes field is two digits, or longer only without a leading zero |
| Report.ReadFormatTimer | src/renderer.js:70-74 | Reading the timer text back gives the duration. The reader takes minutes padded to two digits and no further, and two digits of seconds below 60 |
| Report.ReadTimerOnlyTimers | src/renderer.js:70-74 | Every text the timer reader accepts is the timer text of the duration it reads, so timer texts and durations correspond one to one |
| Report.FormatTimerInjective | src/renderer.js:70-74 | Different durations show different timer texts |
| Report.CleanId | src/renderer.js:272 | Only lower-case ASCII letters and digits remain, and the result is no longer than the name |
| Report.CleanIdChar | src/renderer.js:272 | A single character is lower-cased and kept exactly when it is then `[a-z0-9]` |
| Report.CleanIdIsLowerThenKeep | src/renderer.js:272 | `cleanId` is lower-casing followed by the in-order filter that keeps exactly `[a-z0-9]` |
| Report.KeepIdChars | src/renderer.js:272 | The filter keeps characters in their order (a subsequence), and only `[a-z0-9]` |
| Report.CleanIdKeeps | src/renderer.js:272 | A name made only of `[a-z0-9]` is kept as it is |
| Report.CleanIdIdempotent | src/renderer.js:272 | Cleaning twice is cleaning once |
| Report.WholeMinutesInSeconds | src/renderer.js:111 | `max(1, floor(m))*60`: at least 60, a multiple of 60, and the whole minutes of `m` when `m >= 1` |
| Report.PomodoroStart | src/renderer.js:106-127 | With no argument, 1500 s. A truthy argument wins. Otherwise the saved preference is used when truthy, and 25 minutes when it is not or the preferences are `null` (the error path). Always at least 60 and a multiple of 60 |
| Report.PomodoroWholeMinutes | src/renderer.js:111 | n minutes and n.5 minutes both start at n*60 s; half a minute starts at 60 s |
| Report.CountDown | src/renderer.js:114-122 | The countdown ticks max(start, 1) times, showing start-1, start-2, … and stopping at the first value at or below 0 |
| Report.AppIcon | src/renderer.js:223-249 | The file name of the first table key found in the lower-cased name, or none when no key is found |
| Report.EditorLabelIcon | src/renderer.js:227-249 | The Visual Studio Code label gets `vscode.png` |
| Report.IdeLabelIcon | src/renderer.js:227-249 | The IntelliJ IDEA label gets `intellij.png` |
| Report.BrowserLabelIcon | src/renderer.js:227-249 | The Google Chrome label gets `google-chrome.png` |
| Validate.ValidateDate | src/preload.js:22-27 | Only a string of the shape `YYYY-MM-DD` is forwarded, unchanged; every other value, strings or not, is refused with the date message |
| Validate.ValidateDateIsPattern | src/preload.js:23 | The check passes exactly the strings the anchored pattern `^\d{4}-\d{2}-\d{2}$` matches |
| Validate.DatePatternIsDateShape | src/preload.js:23 | The pattern matches exactly the ten-character strings with `-` at 4 and 7 and ASCII digits elsewhere |
| Validate.DateRangeUnchecked | src/preload.js:23 | Month and day are not range-checked: `2024-99-99` passes |
| Validate.ValidateDays | src/preload.js:31-37 | Passes exactly when `parseInt` reads a number of at least 1, and forwards that number. Otherwise it is refused with the days message |
| Validate.ValidateDaysDecimal | src/preload.js:32-36 | Any positive decimal passes as that number, also with leading white space, a `+`, or trailing text such as ` dias` |
| Validate.ValidateDaysNegative | src/preload.js:33-35 | A number written with `-` is refused |
| Validate.ValidateDaysZero | src/preload.js:33-35 | Zero is refused |
| Validate.ValidateDaysTruncates | src/preload.js:32 | `2.9` is forwarded as 2 |
| Decimal.ParseIntToDec | src/preload.js:32 | `parseInt` of white space, an optional sign and a decimal numeral, followed by text that does not continue it, is that number with its sign |
| Rollup.Collect | src/renderer.js:447-463 | A day that fails the date check abandons the view with the date message, and only then. Otherwise the result covers the sessions of all the days: the total is their duration sum, and each application's total is its duration sum. Each domain's total is its duration sum, kept only for domains visited. `dailyTotals` holds each day's duration sum, and the application totals add up to the total |
| Rollup.FoldTotal | src/renderer.js:447-452 | The loop's running total is the duration sum of all sessions of the days so far |
| Rollup.FoldApps | src/renderer.js:450-461 | The loop's `appAgg` is the per-application and per-domain rollup of all sessions of the days so far |
| Rollup.FoldDaily | src/renderer.js:449-462 | The loop's `dailyTotals` holds exactly the days so far, each with its own sessions' duration sum |
| Rollup.FoldDailySum | src/renderer.js:444-463 | Over distinct days, `dailyTotals` adds up to the total |
| Rollup.DayTotal | src/renderer.js:449-452 | One day's total is the sum of that day's application totals |
| Rollup.AddDayAgrees | src/renderer.js:450-461 | Adding one day's statistics into a rollup of earlier sessions gives the rollup of the earlier sessions followed by that day's |
| Rollup.MergeDomainAgrees | src/renderer.js:455-459 | Adding a day's domain entries into the running ones gives the domain totals of both together |
| Rollup.AppTimesSum | src/renderer.js:453-454 | A per-application rollup adds up to the duration sum of its sessions |
| Rollup.Weekly | src/renderer.js:441-463 | The first seven listed dates (fewer if there are fewer), collected as above |
| Rollup.MonthOf | src/renderer.js:485 | The first seven characters of today's date |
| Rollup.FilterPrefix | src/renderer.js:486 | Exactly the listed dates that start with the month, in their listed order (a subsequence), each kept as many times as it is listed, and without repeats when the list has none |
| Rollup.Monthly | src/renderer.js:483-504 | Only dates of the current month are used, in listed order and as many times as they are listed. The result holds the total, each application's total (no domains), and `dailyTotals`, each the duration sum of the matching sessions. The totals add up, and `dailyTotals` sums to the total when the listed dates have no repeats. The list shown is the top ten |
| Rollup.TopApps | src/renderer.js:504 | At most 10 different applications (all if fewer), each with its own total, in descending order of total. No application left out has a larger total than one listed |
| Rollup.SortByTime | src/renderer.js:467 | A permutation of the entries in descending order of total; entries of different applications stay different |

## Left out

- `src/main.js` is not part of this model. It is the Electron wiring: IPC handlers, windows,
  content-security headers and login items.
- File-system calls, `JSON.parse`/`JSON.stringify` and `path.join` are replaced by a map from
  file name to content. A file that does not parse is `Unparsable`; a failed write or listing is
  a boolean parameter, and a failed `unlinkSync` is a name in the `failing` set.
- `Stats.GetSummary`: a day file holding JSON that is not a `{sessions, date}` record (`null`,
  `[]`, `{}`) is not modelled; every file that parses is a record here. The source's
  `getDataByDate` returns such a value as it is (src/database.js:64), and `getSummary` then
  fails inside `data.sessions.forEach` and returns `null` (src/database.js:172-175).
  `saveSession` returns `false` for such a file, and `getStatsByDate` throws.
- The `active-win` import, `setInterval` scheduling and overlapping ticks are not modelled.
  Ticks are a sequential list of events, and a failed import is the `loadOk` parameter of
  `Start`.
- `Monitor.Tick`: one clock reading serves the whole tick. The source reads `Date.now()`
  separately for the flush, the new start time and the elapsed time.
- Time zones (`Intl.DateTimeFormat`, America/Sao_Paulo) are not modelled. "Today", the ISO
  timestamp and the retention cutoff of `clearOldData` are plain string parameters; the days
  count of `clearOldData` only feeds that cutoff.
- `Classifier.ExtractDomain`: the generic domain regular expression of the fallback is the
  uninterpreted `guess` parameter.
- `toLowerCase` is modelled for ASCII letters only, and strings are sequences of code points
  rather than UTF-16 units. Non-ASCII case mappings, such as the Kelvin sign lower-casing to
  `k` in `cleanId`, are not covered.
- Object keys such as `__proto__` or `constructor`, which JavaScript objects inherit, are treated
  as ordinary application and domain names.
- `Validate.ValidateDays` takes the argument as a string. The coercion `parseInt` applies to a
  non-string argument is not modelled.
- `Report.PomodoroStart`: a `NaN` argument or preference is not modelled (numbers are reals).
  The widget, sounds and notifications of the timer are DOM work and are left out.
- Floating-point values are left out: the weekly average (src/renderer.js:466), percentages and
  chart heights.
- All DOM and HTML rendering is left out: charts, accordions, icon URLs and the fallback icon
  services. So is the reading of `localStorage` preferences, which is a parameter here.
- `Rollup.TopApps`: the order among applications with equal totals is not fixed. The source's
  sort is stable and keeps the insertion order of `appAgg`.
- `Rollup.Weekly`: the sorted application list of the weekly view (src/renderer.js:467) is only
  rendered, so only the rollup itself is modelled.

## Findings

| source | as written | input that shows it | evidently intended | confidence | as-written member | corrected member |
|---|---|---|---|---|---|---|
| src/monitor.js:65-71 | `stop` flushes the tracked session but leaves `currentApp` and `startTime` set, and `start` does not reset them | start, a tick on app A at t0, stop at t1 ≥ t0+3 s, start, a tick on app B at t2: A is saved at the stop and saved again at the second tick, with duration (t2-t0)/1000 covering the stopped time | stopping ends the tracked session, so a restart begins with nothing tracked and nothing is saved twice | high (not executed) | Monitor.StopRestartRun | Monitor.CorrectedStopRestartRun |

=== FILE: basics.dfy ===
/** Small failure-carrying datatypes shared by every module of the model. */
module Basics {

  /** A value that may be absent: JavaScript's `null`/`undefined` or a plain value. */
  datatype Option<+T> = None | Some(value: T) {
    function GetOr(default: T): T {
      match this
      case Some(v) => v
      case None => default
    }
  }

  /** The outcome of a call that either returns a value or throws an error with a message. */
  datatype Result<+T> = Ok(value: T) | Err(message: string)

  /** JavaScript truthiness of a possibly absent string: absent and empty are both falsy. */
  predicate Truthy(o: Option<string>) {
    o.Some? && o.value != ""
  }

  /** The `a || b` idiom on strings: the first operand when it is truthy, otherwise the fallback. */
  function OrElse(o: Option<string>, fallback: string): (r: string)
    ensures Truthy(o) ==> r == o.value
    ensures !Truthy(o) ==> r == fallback
  {
    if o.Some? && o.value != "" then o.value else fallback
  }
}

=== FILE: classifier.dfy ===
/**
 * The session classifier of the activity monitor: from one sample of the foreground-window
 * probe it derives the application label, the cleaned window title and the website domain
 * (src/monitor.js, `getAppName`, `sanitizeTitle`, `extractDomain`).
 */
module Classifier {
  import opened Basics
  import opened Text

  /** The `owner` object of a probe sample; its `name` may be absent. */
  datatype Owner = Owner(name: Option<string>)

  /** One sample of the window probe: its `owner` object and its window title, each possibly absent. */
  datatype Window = Window(owner: Option<Owner>, title: Option<string>)

  const Unknown := "Desconhecido"
  const NoTitle := "Sem título"

  /** Title separators, the en dash one first: text after them is extra context. */
  const EnDashSeparator := " – "
  const HyphenSeparator := " - "

  /** `substring(0, 150)` on titles without a separator. */
  const TitleLimit := 150

  /** Owner-name fragments mapped to product labels, in the order they are tried. */
  const AppTable: seq<(string, string)> := [
    ("idea", "IntelliJ IDEA"),
    ("code", "Visual Studio Code"),
    ("chrome", "Google Chrome")
  ]

  /** Title fragments mapped to website domains, in the order they are tried. */
  const KnownSites: seq<(string, string)> := [
    ("instagram", "instagram.com"),
    ("notion", "notion.so"),
    ("gemini.google", "gemini.google.com"),
    ("chatgpt", "chatgpt.com"),
    ("youtube", "youtube.com"),
    ("github", "github.com"),
    ("discord", "discord.com"),
    ("google.com", "google.com")
  ]

  predicate IsLabel(s: string) {
    exists i :: 0 <= i < |AppTable| && AppTable[i].1 == s
  }

  predicate NoUpperAscii(s: string) {
    forall k :: 0 <= k < |s| ==> !IsUpperAscii(s[k])
  }

  // ---------------------------------------------------------------------------------------
  // Application label

  /**
   * `r` is the whole last path segment of `name` once its first `.exe` is removed: a lower-case
   * tail of that text, with no `/` or `\` in it and one just before it unless it is all of it.
   */
  predicate IsFallbackLabel(name: string, r: string) {
    var e := ReplaceFirst(name, ".exe", "");
    && NoUpperAscii(r)
    && (forall k :: 0 <= k < |r| ==> !IsPathSeparator(r[k]))
    && EndsWith(e, r)
    && (|r| < |e| ==> IsPathSeparator(e[|e| - |r| - 1]))
  }

  /**
   * `getAppName(window)`: the sentinel when the window or its owner is missing; otherwise the
   * label of the first table fragment found in the lower-cased owner name; otherwise the
   * lower-cased name without its first `.exe`, cut after its last `/` or `\`. An owner object
   * without a name makes `toLowerCase` throw, which is the error case.
   */
  function GetAppName(w: Option<Window>): (r: Result<string>)
    ensures r.Err? <==> w.Some? && w.value.owner.Some? && w.value.owner.value.name.None?
    ensures r.Ok? ==> (r.value == Unknown <==> w.None? || w.value.owner.None?)
    ensures r.Ok? && w.Some? && w.value.owner.Some? ==>
      var name := Lower(w.value.owner.value.name.value);
      && (IsLabel(r.value) <==> exists i :: 0 <= i < |AppTable| && Contains(name, AppTable[i].0))
      && (forall i :: (0 <= i < |AppTable| && Contains(name, AppTable[i].0)
                       && (forall j :: 0 <= j < i ==> !Contains(name, AppTable[j].0)))
                       ==> r.value == AppTable[i].1)
      && (!IsLabel(r.value) ==> IsFallbackLabel(name, r.value))
  {
    if w.None? || w.value.owner.None? then Ok(Unknown)
    else if w.value.owner.value.name.None? then Err("Cannot read properties of undefined (reading 'toLowerCase')")
    else
      var name := Lower(w.value.owner.value.name.value);
      match LookupFirst(AppTable, name)
      case Some(product) => Ok(product)
      case None =>
        var r := LastSegment(ReplaceFirst(name, ".exe", ""));
        FallbackIsPlain(name, r);
        Ok(r)
  }

  /** The fallback label keeps the lower case of the name, so it is never a product label. */
  lemma FallbackIsPlain(name: string, r: string)
    requires NoUpperAscii(name)
    requires r == LastSegment(ReplaceFirst(name, ".exe", ""))
    ensures IsFallbackLabel(name, r) && !IsLabel(r) && r != Unknown
  {
    var e := ReplaceFirst(name, ".exe", "");
    RemoveKeepsLowerCase(name, ".exe");
    assert forall k :: 0 <= k < |r| ==> r[k] == e[|e| - |r| + k];
    LabelsAreCapitalised(r);
    assert IsUpperAscii(Unknown[0]);
  }

  lemma RemoveKeepsLowerCase(name: string, pat: string)
    requires NoUpperAscii(name)
    ensures NoUpperAscii(ReplaceFirst(name, pat, ""))
  {
    var e := ReplaceFirst(name, pat, "");
    if Contains(name, pat) {
      var i: nat :| IsAt(name, pat, i) && e == name[..i] + "" + name[i + |pat|..];
      var before, after := name[..i], name[i + |pat|..];
      assert e == before + after;
      forall k | 0 <= k < |e| ensures !IsUpperAscii(e[k]) {
        if k < |before| {
          assert e[k] == before[k];
        } else {
          assert e[k] == after[k - |before|];
        }
      }
    }
  }

  lemma LabelsAreCapitalised(r: string)
    requires NoUpperAscii(r)
    ensures !IsLabel(r)
  {
    forall i | 0 <= i < |AppTable| ensures AppTable[i].1 != r {
      assert IsUpperAscii(AppTable[i].1[0]);
    }
  }

  /**
   * An illustration of the table order that `GetAppName` states in general: an owner name
   * containing "idea" is IntelliJ, whatever else it contains.
   */
  lemma IdeaBeatsCodeAndChrome(owner: string)
    requires Contains(Lower(owner), "idea")
    ensures GetAppName(Some(Window(Some(Owner(Some(owner))), None))) == Ok("IntelliJ IDEA")
  {
  }

  /**
   * An illustration of the table order: an owner name containing "code" but not "idea" is
   * Visual Studio Code, even if it also contains "chrome".
   */
  lemma CodeBeatsChrome(owner: string)
    requires !Contains(Lower(owner), "idea") && Contains(Lower(owner), "code")
    ensures GetAppName(Some(Window(Some(Owner(Some(owner))), None))) == Ok("Visual Studio Code")
  {
  }

  // ---------------------------------------------------------------------------------------
  // Title cleaning

  predicate IsAsciiLetter(c: char) {
    'A' <= c <= 'Z' || 'a' <= c <= 'z'
  }

  /** The characters JavaScript's `.` does not match. */
  predicate IsLineTerminator(c: char) {
    c == '\n' || c == '\r' || c == '\U{2028}' || c == '\U{2029}'
  }

  /**
   * The lazy `.+?\\` part of the drive-path pattern once one character has been taken: the
   * index just past the first `\` at or after `k`, unless a line terminator comes before it.
   */
  function LazyToBackslash(s: string, k: nat): (r: Option<nat>)
    decreases |s| - k
    ensures r.Some? ==> k < r.value <= |s| && s[r.value - 1] == '\\'
    ensures r.Some? ==> forall j :: k <= j < r.value - 1 ==> s[j] != '\\' && !IsLineTerminator(s[j])
  {
    if k >= |s| then None
    else if s[k] == '\\' then Some(k + 1)
    else if IsLineTerminator(s[k]) then None
    else LazyToBackslash(s, k + 1)
  }

  /** The end of a match of `/[A-Z]:\\.+?\\/i` that starts at index `p` of `s`, if one does. */
  function DriveMatchAt(s: string, p: nat): (r: Option<nat>)
    ensures r.Some? ==> p + 5 <= r.value <= |s|
    ensures r.Some? ==> IsAsciiLetter(s[p]) && s[p + 1] == ':' && s[p + 2] == '\\' && s[r.value - 1] == '\\'
  {
    if p + 3 < |s| && IsAsciiLetter(s[p]) && s[p + 1] == ':' && s[p + 2] == '\\'
       && !IsLineTerminator(s[p + 3])
    then LazyToBackslash(s, p + 4)
    else None
  }

  /** `replace(/[A-Z]:\\.+?\\/gi, '')`: matches, found from the left, are removed one after another. */
  function StripDrivePaths(s: string): (r: string)
    decreases |s|
    ensures |r| <= |s|
    ensures IsSubsequence(r, s)
    ensures !Contains(s, ":\\") ==> r == s
  {
    if |s| == 0 then []
    else
      DriveMatchNeedsColonBackslash(s);
      match DriveMatchAt(s, 0)
      case Some(e) =>
        var r := StripDrivePaths(s[e..]);
        SubsequenceOfSuffix(r, s, 0, e);
        assert s[0..] == s;
        r
      case None =>
        var r := [s[0]] + StripDrivePaths(s[1..]);
        ContainsInTail(s, ":\\");
        assert r[1..] == StripDrivePaths(s[1..]);
        r
  }

  /** The lazy scan from `k` stops just past the first `\` when no line terminator comes earlier. */
  lemma {:induction false} LazyStopsAtBackslash(s: string, k: nat, m: nat)
    requires k <= m < |s| && s[m] == '\\'
    requires forall j :: k <= j < m ==> s[j] != '\\' && !IsLineTerminator(s[j])
    ensures LazyToBackslash(s, k) == Some(m + 1)
    decreases m - k
  {
    if k < m {
      LazyStopsAtBackslash(s, k + 1, m);
    }
  }

  /**
   * A title that starts with a drive path `L:\x\`, where the directory name `x` is not empty and
   * holds no `\` and no line terminator, loses exactly that prefix before the rest is cleaned.
   */
  lemma StripDrivePrefix(driveLetter: char, x: string, rest: string)
    requires IsAsciiLetter(driveLetter) && |x| > 0
    requires forall j :: 0 <= j < |x| ==> x[j] != '\\' && !IsLineTerminator(x[j])
    ensures StripDrivePaths([driveLetter] + (":\\" + (x + ("\\" + rest)))) == StripDrivePaths(rest)
  {
    var s := [driveLetter] + (":\\" + (x + ("\\" + rest)));
    DrivePrefixMatches(driveLetter, x, rest);
    assert StripDrivePaths(s) == StripDrivePaths(s[4 + |x|..]);
  }

  /** The match at the start of such a title ends just past the `\` after `x`. */
  lemma DrivePrefixMatches(driveLetter: char, x: string, rest: string)
    requires IsAsciiLetter(driveLetter) && |x| > 0
    requires forall j :: 0 <= j < |x| ==> x[j] != '\\' && !IsLineTerminator(x[j])
    ensures var s := [driveLetter] + (":\\" + (x + ("\\" + rest)));
      DriveMatchAt(s, 0) == Some(4 + |x|) && s[4 + |x|..] == rest
  {
    var tail := "\\" + rest;
    var u := x + tail;
    var s := [driveLetter] + (":\\" + u);
    assert s[3..] == u;
    assert s[0] == driveLetter && s[1] == ':' && s[2] == '\\' && s[3] == x[0];
    forall j | 4 <= j < 3 + |x|
      ensures s[j] != '\\' && !IsLineTerminator(s[j])
    {
      assert s[j] == u[j - 3] == x[j - 3];
    }
    assert s[3 + |x|] == u[|x|] == tail[0] == '\\';
    LazyStopsAtBackslash(s, 4, 3 + |x|);
    assert s[4 + |x|..] == u[|x| + 1..] == tail[1..] == rest;
  }

  /** Every drive-path match contains `:\`, so a title without one has no match. */
  lemma DriveMatchNeedsColonBackslash(s: string)
    ensures !Contains(s, ":\\") ==> forall q :: 0 <= q < |s| ==> DriveMatchAt(s, q).None?
  {
    forall q | 0 <= q < |s| && DriveMatchAt(s, q).Some?
      ensures Contains(s, ":\\")
    {
      assert s[q + 1..q + 3] == ":\\";
      assert IsAt(s, ":\\", q + 1);
    }
  }

  /**
   * `sanitizeTitle(title)`: the sentinel for an absent or empty title; the text before the
   * first ` – ` if there is one, else before the first ` - `; otherwise the title without
   * drive-letter paths, cut to 150 characters. Only the last case is cut.
   */
  function SanitizeTitle(title: Option<string>): (r: string)
    ensures !Truthy(title) ==> r == NoTitle
    ensures Truthy(title) && Contains(title.value, EnDashSeparator) ==>
      && |r| <= |title.value| && r == title.value[..|r|]
      && IsAt(title.value, EnDashSeparator, |r|)
      && !Contains(r, EnDashSeparator)
      && (forall j: nat :: j < |r| ==> !IsAt(title.value, EnDashSeparator, j))
    ensures Truthy(title) && !Contains(title.value, EnDashSeparator)
            && Contains(title.value, HyphenSeparator) ==>
      && |r| <= |title.value| && r == title.value[..|r|]
      && IsAt(title.value, HyphenSeparator, |r|)
      && !Contains(r, HyphenSeparator)
      && (forall j: nat :: j < |r| ==> !IsAt(title.value, HyphenSeparator, j))
    ensures Truthy(title) && !Contains(title.value, EnDashSeparator)
            && !Contains(title.value, HyphenSeparator) ==>
      var c := StripDrivePaths(title.value);
      && |r| <= TitleLimit
      && |r| <= |c| && r == c[..|r|]
      && (|c| <= TitleLimit ==> r == c)
      && (|c| > TitleLimit ==> |r| == TitleLimit)
  {
    if !Truthy(title) then NoTitle
    else
      var t := title.value;
      if Contains(t, EnDashSeparator) then Before(t, EnDashSeparator)
      else if Contains(t, HyphenSeparator) then Before(t, HyphenSeparator)
      else
        var c := StripDrivePaths(t);
        if |c| <= TitleLimit then c else c[..TitleLimit]
  }

  /** A title with no separator and no drive path is only cut to its first 150 characters. */
  lemma PlainTitleKept(t: string)
    requires t != ""
    requires !Contains(t, EnDashSeparator) && !Contains(t, HyphenSeparator) && !Contains(t, ":\\")
    ensures |t| <= TitleLimit ==> SanitizeTitle(Some(t)) == t
    ensures |t| > TitleLimit ==> SanitizeTitle(Some(t)) == t[..TitleLimit]
  {
  }

  // ---------------------------------------------------------------------------------------
  // Website domain

  /**
   * `extractDomain(title)`: nothing for an absent or empty title; the domain of the first known
   * site whose fragment occurs in the lower-cased title; otherwise whatever the generic
   * domain-shaped pattern `guess` finds in the lower-cased title.
   */
  function ExtractDomain(title: Option<string>, guess: string -> Option<string>): (r: Option<string>)
    ensures !Truthy(title) ==> r.None?
    ensures Truthy(title) ==>
      var lower := Lower(title.value);
      && (forall i :: (0 <= i < |KnownSites| && Contains(lower, KnownSites[i].0)
                       && (forall j :: 0 <= j < i ==> !Contains(lower, KnownSites[j].0)))
                       ==> r == Some(KnownSites[i].1))
      && ((forall i :: 0 <= i < |KnownSites| ==> !Contains(lower, KnownSites[i].0)) ==> r == guess(lower))
  {
    if !Truthy(title) then None
    else
      var lower := Lower(title.value);
      match LookupFirst(KnownSites, lower)
      case Some(domain) => Some(domain)
      case None => guess(lower)
  }
}

=== FILE: decimal.dfy ===
/**
 * Decimal text of naturals: `Number.prototype.toString()` for non-negative integers,
 * `padStart(width, '0')`, reading digits back, and JavaScript's `parseInt` with no radix.
 */
module Decimal {
  import opened Basics

  predicate IsDigit(c: char) {
    '0' <= c <= '9'
  }

  predicate AllDigits(s: string) {
    forall k :: 0 <= k < |s| ==> IsDigit(s[k])
  }

  function DigitChar(d: nat): (c: char)
    requires d < 10
    ensures IsDigit(c)
  {
    ('0' as int + d) as char
  }

  function DigitValue(c: char): (d: nat)
    requires IsDigit(c)
    ensures d < 10
  {
    c as int - '0' as int
  }

  /** `n.toString()` for a natural number: shortest decimal form, no leading zero. */
  function ToDec(n: nat): (r: string)
    ensures |r| > 0 && AllDigits(r)
    ensures |r| > 1 ==> r[0] != '0'
    ensures n < 10 <==> |r| == 1
  {
    if n < 10 then [DigitChar(n)] else ToDec(n / 10) + [DigitChar(n % 10)]
  }

  /** The value of a string of decimal digits; leading zeros are allowed. */
  function ParseDec(s: string): nat
    requires AllDigits(s)
  {
    if |s| == 0 then 0 else 10 * ParseDec(s[..|s| - 1]) + DigitValue(s[|s| - 1])
  }

  /** `s` is exactly how `toString()` writes its value: digits only, no leading zero. */
  predicate IsDecText(s: string) {
    AllDigits(s) && ToDec(ParseDec(s)) == s
  }

  /** Reading back the decimal text of `n` gives `n`. */
  lemma {:induction false} ParseToDec(n: nat)
    ensures ParseDec(ToDec(n)) == n
  {
    if n >= 10 {
      var s := ToDec(n);
      assert s[..|s| - 1] == ToDec(n / 10);
      ParseToDec(n / 10);
    }
  }

  /** The decimal text of `n` is in the form `toString()` writes. */
  lemma ToDecIsDecText(n: nat)
    ensures IsDecText(ToDec(n)) && ParseDec(ToDec(n)) == n
  {
    ParseToDec(n);
  }

  /** Distinct naturals have distinct decimal texts. */
  lemma ToDecInjective(a: nat, b: nat)
    requires ToDec(a) == ToDec(b)
    ensures a == b
  {
    ParseToDec(a);
    ParseToDec(b);
  }

  /** Leading zeros do not change the value read. */
  lemma {:induction false} ParseDecLeadingZero(s: string)
    requires AllDigits(s)
    ensures AllDigits("0" + s) && ParseDec("0" + s) == ParseDec(s)
    decreases |s|
  {
    if |s| > 0 {
      var t := "0" + s;
      assert t[..|t| - 1] == "0" + s[..|s| - 1];
      ParseDecLeadingZero(s[..|s| - 1]);
    }
  }

  /** `s.padStart(width, '0')` for a digit string. */
  function PadZeros(s: string, width: nat): (r: string)
    decreases width - |s|
    ensures |r| == if |s| < width then width else |s|
    ensures AllDigits(s) ==> AllDigits(r) && ParseDec(r) == ParseDec(s)
  {
    if |s| >= width then s
    else
      var r := PadZeros("0" + s, width);
      if AllDigits(s) then ParseDecLeadingZero(s); r else r
  }

  // ---------------------------------------------------------------------------------------
  // `parseInt(text)` with no radix argument.

  /** The characters `parseInt` skips at the front: the ECMAScript WhiteSpace and LineTerminator sets. */
  predicate IsJsWhiteSpace(c: char) {
    c == '\t' || c == '\n' || c == '\U{000B}' || c == '\U{000C}' || c == '\r' || c == ' '
    || c == '\U{00A0}' || c == '\U{1680}' || ('\U{2000}' <= c <= '\U{200A}')
    || c == '\U{2028}' || c == '\U{2029}' || c == '\U{202F}' || c == '\U{205F}'
    || c == '\U{3000}' || c == '\U{FEFF}'
  }

  function TrimStart(s: string): (r: string)
    ensures |r| <= |s| && r == s[|s| - |r|..]
    ensures |r| > 0 ==> !IsJsWhiteSpace(r[0])
    ensures forall k :: 0 <= k < |s| - |r| ==> IsJsWhiteSpace(s[k])
  {
    if |s| > 0 && IsJsWhiteSpace(s[0]) then TrimStart(s[1..]) else s
  }

  /** The value of `c` as a digit in base `radix` (10 or 16), if it is one. */
  function RadixDigit(c: char, radix: nat): (r: Option<nat>)
    ensures r.Some? ==> r.value < radix
    ensures radix == 10 ==> (r.Some? <==> IsDigit(c))
    ensures radix == 10 && IsDigit(c) ==> r == Some(DigitValue(c))
  {
    var v: int :=
      if '0' <= c <= '9' then c as int - '0' as int
      else if 'a' <= c <= 'z' then c as int - 'a' as int + 10
      else if 'A' <= c <= 'Z' then c as int - 'A' as int + 10
      else radix;
    if 0 <= v < radix then Some(v) else None
  }

  /** The length of the longest prefix of `s` made of base-`radix` digits. */
  function DigitRun(s: string, radix: nat): (n: nat)
    ensures n <= |s|
    ensures forall k :: 0 <= k < n ==> RadixDigit(s[k], radix).Some?
    ensures n < |s| ==> RadixDigit(s[n], radix).None?
  {
    if |s| > 0 && RadixDigit(s[0], radix).Some? then 1 + DigitRun(s[1..], radix) else 0
  }

  function HexDigitValue(c: char): nat
    requires RadixDigit(c, 16).Some?
  {
    RadixDigit(c, 16).value
  }

  /** The value of a string of hexadecimal digits. */
  function HexValue(s: string): nat
    requires forall k :: 0 <= k < |s| ==> RadixDigit(s[k], 16).Some?
  {
    if |s| == 0 then 0 else 16 * HexValue(s[..|s| - 1]) + HexDigitValue(s[|s| - 1])
  }

  /**
   * `parseInt(text)`: skip leading white space, take an optional sign, read base 16 after a
   * `0x`/`0X` prefix and base 10 otherwise, as many digits as there are; `None` stands for NaN.
   */
  function ParseInt(text: string): Option<int> {
    ParseSigned(TrimStart(text))
  }

  /** `parseInt` after the white space: an optional `+` or `-`, then the digits. */
  function ParseSigned(t: string): Option<int> {
    var negative := |t| > 0 && t[0] == '-';
    var u := if |t| > 0 && (t[0] == '-' || t[0] == '+') then t[1..] else t;
    match ParseUnsigned(u)
    case None => None
    case Some(m) => Some(if negative then 0 - m else m)
  }

  /** `parseInt` after the sign: a `0x` prefix selects base 16; no digit at all is NaN. */
  function ParseUnsigned(u: string): Option<nat> {
    if |u| >= 2 && u[0] == '0' && (u[1] == 'x' || u[1] == 'X') then
      var n := DigitRun(u[2..], 16);
      if n == 0 then None else Some(HexValue(u[2..][..n]))
    else
      var n := DigitRun(u, 10);
      if n == 0 then None else Some(ParseDec(u[..n]))
  }

  /**
   * `parseInt` reads back the decimal text of any natural, also after leading white space and
   * a `+` or `-` sign, and whatever text follows it that does not continue the number.
   */
  lemma ParseIntToDec(n: nat, ws: string, sign: string, rest: string)
    requires forall k :: 0 <= k < |ws| ==> IsJsWhiteSpace(ws[k])
    requires sign == "" || sign == "+" || sign == "-"
    requires |rest| == 0 || (!IsDigit(rest[0]) && rest[0] != 'x' && rest[0] != 'X')
    ensures ParseInt(ws + sign + ToDec(n) + rest) == Some(if sign == "-" then 0 - n else n)
  {
    ParseUnsignedToDec(n, rest);
    ParseIntDigits(ws, sign, ToDec(n), rest, n);
  }

  lemma ParseIntDigits(ws: string, sign: string, d: string, rest: string, m: nat)
    requires forall k :: 0 <= k < |ws| ==> IsJsWhiteSpace(ws[k])
    requires sign == "" || sign == "+" || sign == "-"
    requires |d| > 0 && IsDigit(d[0])
    requires ParseUnsigned(d + rest) == Some(m)
    ensures ParseInt(ws + sign + d + rest) == Some(if sign == "-" then 0 - m else m)
  {
    FirstOfSignedDigits(sign, d, rest);
    ParseIntSkipsWhiteSpace(ws, sign + d + rest);
    ConcatAssoc(ws, sign, d, rest);
    SignThenDigits(sign, d + rest, m);
  }

  lemma ConcatAssoc(a: string, b: string, c: string, d: string)
    ensures a + b + c + d == a + (b + c + d)
    ensures b + c + d == b + (c + d)
  {
  }

  lemma ParseIntSkipsWhiteSpace(ws: string, t: string)
    requires forall k :: 0 <= k < |ws| ==> IsJsWhiteSpace(ws[k])
    requires |t| > 0 && !IsJsWhiteSpace(t[0])
    ensures ParseInt(ws + t) == ParseSigned(t)
  {
    TrimWhiteSpacePrefix(ws, t);
  }

  lemma FirstOfSignedDigits(sign: string, d: string, rest: string)
    requires sign == "" || sign == "+" || sign == "-"
    requires |d| > 0 && IsDigit(d[0])
    ensures |sign + d + rest| > 0 && !IsJsWhiteSpace((sign + d + rest)[0])
  {
    if sign == "" {
      assert (sign + d + rest)[0] == d[0];
    } else {
      assert (sign + d + rest)[0] == sign[0];
    }
  }

  lemma SignThenDigits(sign: string, u: string, m: nat)
    requires sign == "" || sign == "+" || sign == "-"
    requires |u| > 0 && IsDigit(u[0])
    requires ParseUnsigned(u) == Some(m)
    ensures ParseSigned(sign + u) == Some(if sign == "-" then 0 - m else m)
  {
    var t := sign + u;
    if sign == "" {
      assert t == u;
    } else {
      assert t[0] == sign[0];
      assert t[1..] == u;
    }
  }

  lemma ParseUnsignedToDec(n: nat, rest: string)
    requires |rest| == 0 || (!IsDigit(rest[0]) && rest[0] != 'x' && rest[0] != 'X')
    ensures ParseUnsigned(ToDec(n) + rest) == Some(n)
  {
    var d := ToDec(n);
    var u := d + rest;
    assert u[..|d|] == d;
    DigitRunPrefix(d, rest);
    ParseToDec(n);
  }

  lemma {:induction false} TrimWhiteSpacePrefix(ws: string, s: string)
    requires forall k :: 0 <= k < |ws| ==> IsJsWhiteSpace(ws[k])
    requires |s| > 0 && !IsJsWhiteSpace(s[0])
    ensures TrimStart(ws + s) == s
    decreases |ws|
  {
    if |ws| > 0 {
      assert (ws + s)[1..] == ws[1..] + s;
      TrimWhiteSpacePrefix(ws[1..], s);
    } else {
      assert ws + s == s;
    }
  }

  lemma {:induction false} DigitRunPrefix(d: string, rest: string)
    requires AllDigits(d)
    requires |rest| == 0 || !IsDigit(rest[0])
    ensures DigitRun(d + rest, 10) == |d|
    decreases |d|
  {
    if |d| > 0 {
      assert (d + rest)[1..] == d[1..] + rest;
      DigitRunPrefix(d[1..], rest);
    } else {
      assert d + rest == rest;
    }
  }
}

=== FILE: monitor.dfy ===
/**
 * The activity monitor of src/monitor.js as a state machine. Once a second, while monitoring,
 * the probe reports the foreground window; the monitor classifies it and either keeps timing
 * the open session or, when the application or the domain changed, flushes the open session to
 * the store and opens a new one. The clock, the probe and the domain-guessing pattern are
 * parameters; a run is a sequence of start, stop and tick events.
 */
module Monitor {
  import opened Basics
  import opened Classifier
  import opened Store

  /** The session being timed: the labels it was opened with and the instant it began, in ms. */
  datatype Current = Current(app: string, title: string, domain: Option<string>, startMs: int)

  /** `isMonitoring`, whether the probe library is loaded, and the tracked session (`null` before the first). */
  datatype MonitorState = MonitorState(running: bool, probeLoaded: bool, cur: Option<Current>)

  /** The state the constructor leaves. */
  const Fresh := MonitorState(false, false, None)

  /** One reading of the clock: `Date.now()` and `new Date().toISOString()`. */
  datatype Clock = Clock(ms: int, iso: string)

  /** What the per-tick callback receives. */
  datatype Update = Update(app: string, title: string, elapsed: int, domain: Option<string>)

  datatype TickResult = TickResult(state: MonitorState, saved: Option<SessionInput>, update: Option<Update>)

  /** A session is flushed only once at least this many whole seconds have passed. */
  const MinSavedSeconds := 3

  /**
   * `saveCurrentSession()`: the session handed to the store, if any. Nothing is saved unless
   * there is a tracked application with a non-empty name and a non-zero start, and the whole
   * seconds elapsed since the start exceed 2; the saved duration is that number of seconds.
   */
  function Flush(cur: Option<Current>, clock: Clock): (r: Option<SessionInput>)
    ensures r.Some? <==> && cur.Some? && cur.value.app != "" && cur.value.startMs != 0
                         && clock.ms - cur.value.startMs >= MinSavedSeconds * 1000
    ensures r.Some? ==>
      && r.value.app == cur.value.app && r.value.title == cur.value.title && r.value.domain == cur.value.domain
      && r.value.duration >= MinSavedSeconds
      && r.value.duration * 1000 <= clock.ms - cur.value.startMs < (r.value.duration + 1) * 1000
      && r.value.timestamp == Some(clock.iso) && r.value.date.None?
  {
    if cur.Some? && cur.value.app != "" && cur.value.startMs != 0 then
      var duration := (clock.ms - cur.value.startMs) / 1000;
      if duration > 2 then
        Some(SessionInput(cur.value.app, cur.value.title, cur.value.domain, duration, Some(clock.iso), None))
      else None
    else None
  }

  /** `getElapsedTime()`: whole seconds since the start, or 0 when no start is recorded. */
  function ElapsedTime(cur: Option<Current>, nowMs: int): (r: int)
    ensures cur.None? || cur.value.startMs == 0 ==> r == 0
    ensures cur.Some? && cur.value.startMs != 0 ==> r * 1000 <= nowMs - cur.value.startMs < (r + 1) * 1000
  {
    if cur.None? || cur.value.startMs == 0 then 0 else (nowMs - cur.value.startMs) / 1000
  }

  /** A sample classified as `app` and `domain` closes the tracked session. */
  predicate IsBoundary(cur: Option<Current>, app: string, domain: Option<string>) {
    cur.None? || app != cur.value.app || domain != cur.value.domain
  }

  /**
   * The body of the interval callback in `start`. Nothing happens while not monitoring, for a
   * missing sample, or when classifying the sample throws. Otherwise a boundary flushes the
   * tracked session and tracks the new labels from now, and the callback gets an update.
   */
  function Tick(st: MonitorState, sample: Option<Window>, clock: Clock, guess: string -> Option<string>): (r: TickResult)
    ensures !st.running || sample.None? ==> r == TickResult(st, None, None)
    ensures r.state.running == st.running && r.state.probeLoaded == st.probeLoaded
    ensures r.update.Some? <==> st.running && sample.Some? && GetAppName(sample).Ok?
    ensures r.update.None? ==> r.state == st && r.saved.None?
    ensures r.update.Some? ==>
      var app := GetAppName(sample).value;
      var domain := ExtractDomain(sample.value.title, guess);
      && (IsBoundary(st.cur, app, domain) ==>
            && r.state.cur == Some(Current(app, SanitizeTitle(sample.value.title), domain, clock.ms))
            && r.saved == Flush(st.cur, clock)
            && r.update.value.elapsed == 0)
      && (!IsBoundary(st.cur, app, domain) ==> r.state == st && r.saved.None?)
      && r.state.cur.Some?
      && r.update.value == Update(r.state.cur.value.app, r.state.cur.value.title,
                                  ElapsedTime(r.state.cur, clock.ms), r.state.cur.value.domain)
  {
    if !st.running || sample.None? then TickResult(st, None, None)
    else
      match GetAppName(sample)
      case Err(_) => TickResult(st, None, None)
      case Ok(app) =>
        var title := SanitizeTitle(sample.value.title);
        var domain := ExtractDomain(sample.value.title, guess);
        var (cur, saved) :=
          if IsBoundary(st.cur, app, domain) then (Current(app, title, domain, clock.ms), Flush(st.cur, clock))
          else (st.cur.value, None);
        var st' := st.(cur := Some(cur));
        TickResult(st', saved, Some(Update(cur.app, cur.title, ElapsedTime(Some(cur), clock.ms), cur.domain)))
  }

  /**
   * `start(callback)`: nothing when already monitoring; the probe library is loaded on first
   * use (`loadOk` says whether that import succeeds) and a failed load leaves the monitor idle.
   * The tracked session is left as it is.
   */
  function Start(st: MonitorState, loadOk: bool): (r: MonitorState)
    ensures st.running ==> r == st
    ensures !st.running && !st.probeLoaded && !loadOk ==> r == st
    ensures !st.running && (st.probeLoaded || loadOk) ==> r.running && r.probeLoaded
    ensures r.cur == st.cur
  {
    if st.running then st
    else if !st.probeLoaded && !loadOk then st
    else st.(running := true, probeLoaded := true)
  }

  /**
   * `stop()` as written: nothing when idle; otherwise monitoring ends and the tracked session
   * is flushed once, but it stays tracked, start instant included.
   */
  function Stop(st: MonitorState, clock: Clock): (r: (MonitorState, Option<SessionInput>))
    ensures !st.running ==> r == (st, None)
    ensures st.running ==> !r.0.running && r.0.probeLoaded == st.probeLoaded && r.1 == Flush(st.cur, clock)
    ensures r.0.cur == st.cur
  {
    if !st.running then (st, None) else (st.(running := false), Flush(st.cur, clock))
  }

  /** `stop()` as evidently intended: the same flush, after which nothing is tracked any more. */
  function StopAndReset(st: MonitorState, clock: Clock): (r: (MonitorState, Option<SessionInput>))
    ensures !st.running ==> r == (st, None)
    ensures st.running ==> !r.0.running && r.0.probeLoaded == st.probeLoaded && r.1 == Flush(st.cur, clock)
    ensures st.running ==> r.0.cur.None?
  {
    if !st.running then (st, None) else (st.(running := false, cur := None), Flush(st.cur, clock))
  }

  // ---------------------------------------------------------------------------------------
  // Runs

  datatype Event =
    | StartEvent(loadOk: bool)
    | StopEvent(clock: Clock)
    | TickEvent(sample: Option<Window>, clock: Clock)

  function Saved(s: Option<SessionInput>): seq<SessionInput> {
    if s.Some? then [s.value] else []
  }

  /** One event; `reset` selects the corrected stop. */
  function Step(st: MonitorState, ev: Event, guess: string -> Option<string>, reset: bool): (MonitorState, seq<SessionInput>) {
    match ev
    case StartEvent(loadOk) => (Start(st, loadOk), [])
    case StopEvent(clock) =>
      var (st', s) := if reset then StopAndReset(st, clock) else Stop(st, clock);
      (st', Saved(s))
    case TickEvent(sample, clock) =>
      var r := Tick(st, sample, clock, guess);
      (r.state, Saved(r.saved))
  }

  /** The state after a sequence of events and the sessions flushed on the way, in order. */
  function RunWith(st: MonitorState, evs: seq<Event>, guess: string -> Option<string>, reset: bool): (MonitorState, seq<SessionInput>)
    decreases |evs|
  {
    if |evs| == 0 then (st, [])
    else
      var first := Step(st, evs[0], guess, reset);
      var rest := RunWith(first.0, evs[1..], guess, reset);
      (rest.0, first.1 + rest.1)
  }

  /** A run of the monitor as written. */
  function RunAsWritten(st: MonitorState, evs: seq<Event>, guess: string -> Option<string>): (MonitorState, seq<SessionInput>) {
    RunWith(st, evs, guess, false)
  }

  /** A run of the monitor with the corrected stop. */
  function Run(st: MonitorState, evs: seq<Event>, guess: string -> Option<string>): (MonitorState, seq<SessionInput>) {
    RunWith(st, evs, guess, true)
  }

  // ---------------------------------------------------------------------------------------
  // Properties

  /** A sample that keeps the tracked application and domain, whatever its title. */
  predicate SameLabels(cur: Current, ev: Event, guess: string -> Option<string>) {
    && ev.TickEvent? && ev.sample.Some?
    && GetAppName(ev.sample) == Ok(cur.app)
    && ExtractDomain(ev.sample.value.title, guess) == cur.domain
  }

  /**
   * Title churn does not fragment sessions: ticks that keep the application and the domain
   * leave the tracked session, start instant included, as it is and flush nothing.
   */
  lemma {:induction false} TitleChurnKeepsSession(st: MonitorState, evs: seq<Event>, guess: string -> Option<string>, reset: bool)
    requires st.running && st.cur.Some?
    requires forall i :: 0 <= i < |evs| ==> SameLabels(st.cur.value, evs[i], guess)
    ensures RunWith(st, evs, guess, reset) == (st, [])
    decreases |evs|
  {
    if |evs| > 0 {
      var ev := evs[0];
      assert SameLabels(st.cur.value, ev, guess);
      assert !IsBoundary(st.cur, st.cur.value.app, st.cur.value.domain);
      assert Step(st, ev, guess, reset) == (st, []);
      assert forall i :: 0 <= i < |evs[1..]| ==> evs[1..][i] == evs[i + 1];
      TitleChurnKeepsSession(st, evs[1..], guess, reset);
      assert [] + RunWith(st, evs[1..], guess, reset).1 == [];
    }
  }

  /**
   * With the stop as written, a stop followed by a restart keeps the stopped session tracked:
   * the first sample of another application flushes it a second time, with a duration that
   * again counts from its original start, the stopped interval included.
   */
  lemma StopRestartResaves(st: MonitorState, c1: Clock, c2: Clock, w: Window, guess: string -> Option<string>)
    requires st.running && st.cur.Some? && st.cur.value.app != "" && st.cur.value.startMs != 0
    requires c1.ms - st.cur.value.startMs >= MinSavedSeconds * 1000 && c2.ms >= c1.ms
    requires GetAppName(Some(w)).Ok? && GetAppName(Some(w)).value != st.cur.value.app
    ensures var (s1, first) := Stop(st, c1);
      var r := Tick(Start(s1, true), Some(w), c2, guess);
      && first.Some? && r.saved.Some?
      && r.saved.value.app == first.value.app
      && r.saved.value.title == first.value.title
      && r.saved.value.domain == first.value.domain
      && r.saved.value.duration >= first.value.duration
  {
    var (s1, first) := Stop(st, c1);
    var r := Tick(Start(s1, true), Some(w), c2, guess);
    assert IsBoundary(st.cur, GetAppName(Some(w)).value, ExtractDomain(w.title, guess));
    var d1 := first.value.duration;
    var d2 := r.saved.value.duration;
    assert d1 * 1000 <= c2.ms - st.cur.value.startMs;
    assert d1 < d2 + 1 by {
      assert d1 * 1000 < (d2 + 1) * 1000;
    }
  }

  /** The single steps of the stop-and-restart run, each on the state the previous one left. */
  lemma StopRestartSteps(w1: Window, w2: Window, c0: Clock, c1: Clock, c2: Clock, guess: string -> Option<string>)
    requires GetAppName(Some(w1)).Ok? && GetAppName(Some(w2)).Ok?
    requires GetAppName(Some(w1)).value != "" && GetAppName(Some(w1)).value != GetAppName(Some(w2)).value
    requires c0.ms != 0 && c1.ms - c0.ms >= MinSavedSeconds * 1000 && c2.ms >= c1.ms
    ensures var t1 := Tick(Start(Fresh, true), Some(w1), c0, guess);
      var f2 := Stop(t1.state, c1).1;
      var t2 := Tick(Start(Stop(t1.state, c1).0, true), Some(w2), c2, guess);
      && t1.saved.None?
      && f2.Some? && f2.value.app == GetAppName(Some(w1)).value && f2.value.duration == (c1.ms - c0.ms) / 1000
      && t2.saved.Some? && t2.saved.value.app == GetAppName(Some(w1)).value
      && t2.saved.value.duration == (c2.ms - c0.ms) / 1000
  {
    var t1 := Tick(Start(Fresh, true), Some(w1), c0, guess);
    assert t1.saved.None? && t1.state.cur.Some? && t1.state.cur.value.startMs == c0.ms;
    assert t1.state.cur.value.app == GetAppName(Some(w1)).value;
  }

  /**
   * The same as a run from the constructor's state: start, a sample of one application, stop
   * at least 3 s later, start, a sample of another. Both the stop and the last sample flush
   * the first application, and the second time the duration runs from its original start.
   */
  lemma StopRestartRun(w1: Window, w2: Window, c0: Clock, c1: Clock, c2: Clock, guess: string -> Option<string>)
    requires GetAppName(Some(w1)).Ok? && GetAppName(Some(w2)).Ok?
    requires GetAppName(Some(w1)).value != "" && GetAppName(Some(w1)).value != GetAppName(Some(w2)).value
    requires c0.ms != 0 && c1.ms - c0.ms >= MinSavedSeconds * 1000 && c2.ms >= c1.ms
    ensures var evs := [StartEvent(true), TickEvent(Some(w1), c0), StopEvent(c1), StartEvent(true), TickEvent(Some(w2), c2)];
      var saved := RunAsWritten(Fresh, evs, guess).1;
      && |saved| == 2
      && saved[0].app == GetAppName(Some(w1)).value && saved[0].duration == (c1.ms - c0.ms) / 1000
      && saved[1].app == GetAppName(Some(w1)).value && saved[1].duration == (c2.ms - c0.ms) / 1000
  {
    var e0, e1, e2, e3, e4 := StartEvent(true), TickEvent(Some(w1), c0), StopEvent(c1), StartEvent(true), TickEvent(Some(w2), c2);
    var evs := [e0, e1, e2, e3, e4];
    var s1 := Start(Fresh, true);
    var t1 := Tick(s1, Some(w1), c0, guess);
    var (s2, f2) := Stop(t1.state, c1);
    var s3 := Start(s2, true);
    var t2 := Tick(s3, Some(w2), c2, guess);
    StopRestartSteps(w1, w2, c0, c1, c2, guess);
    var l4 := [e4] + [];
    var l3 := [e3] + l4;
    var l2 := [e2] + l3;
    var l1 := [e1] + l2;
    var saved := [f2.value, t2.saved.value];
    RunTickLast(s3, Some(w2), c2, guess, false);
    RunStart(s2, true, l4, guess, false);
    RunStopAsWritten(t1.state, c1, l3, guess);
    RunTick(s1, Some(w1), c0, l2, guess, false);
    RunStart(Fresh, true, l1, guess, false);
    FiveEvents(e0, e1, e2, e3, e4);
    assert [f2.value] + [t2.saved.value] == saved;
  }

  /** The same run with the corrected stop flushes the first application once only. */
  lemma CorrectedStopRestartRun(w1: Window, w2: Window, c0: Clock, c1: Clock, c2: Clock, guess: string -> Option<string>)
    requires GetAppName(Some(w1)).Ok? && GetAppName(Some(w2)).Ok?
    requires GetAppName(Some(w1)).value != "" && GetAppName(Some(w1)).value != GetAppName(Some(w2)).value
    requires c0.ms != 0 && c1.ms - c0.ms >= MinSavedSeconds * 1000 && c2.ms >= c1.ms
    ensures var evs := [StartEvent(true), TickEvent(Some(w1), c0), StopEvent(c1), StartEvent(true), TickEvent(Some(w2), c2)];
      var saved := Run(Fresh, evs, guess).1;
      && |saved| == 1
      && saved[0].app == GetAppName(Some(w1)).value && saved[0].duration == (c1.ms - c0.ms) / 1000
  {
    var e0, e1, e2, e3, e4 := StartEvent(true), TickEvent(Some(w1), c0), StopEvent(c1), StartEvent(true), TickEvent(Some(w2), c2);
    var evs := [e0, e1, e2, e3, e4];
    var s1 := Start(Fresh, true);
    var t1 := Tick(s1, Some(w1), c0, guess);
    assert t1.saved.None? && t1.state.cur.Some? && t1.state.cur.value.startMs == c0.ms;
    var (s2, f2) := StopAndReset(t1.state, c1);
    assert f2.Some? && f2.value.duration == (c1.ms - c0.ms) / 1000;
    var s3 := Start(s2, true);
    var t2 := Tick(s3, Some(w2), c2, guess);
    assert t2.saved.None?;
    var l4 := [e4] + [];
    var l3 := [e3] + l4;
    var l2 := [e2] + l3;
    var l1 := [e1] + l2;
    RunTickLast(s3, Some(w2), c2, guess, true);
    RunStart(s2, true, l4, guess, true);
    RunStopCorrected(t1.state, c1, l3, guess);
    RunTick(s1, Some(w1), c0, l2, guess, true);
    RunStart(Fresh, true, l1, guess, true);
    FiveEvents(e0, e1, e2, e3, e4);
    assert [f2.value] + [] == [f2.value];
  }

  lemma RunTickLast(st: MonitorState, sample: Option<Window>, clock: Clock, guess: string -> Option<string>, reset: bool)
    ensures var t := Tick(st, sample, clock, guess);
      RunWith(st, [TickEvent(sample, clock)] + [], guess, reset) == (t.state, Saved(t.saved))
  {
    RunCons(st, TickEvent(sample, clock), [], guess, reset);
    var t := Tick(st, sample, clock, guess);
    assert RunWith(t.state, [], guess, reset) == (t.state, []);
    assert Saved(t.saved) + [] == Saved(t.saved);
  }

  lemma RunTick(st: MonitorState, sample: Option<Window>, clock: Clock, evs: seq<Event>, guess: string -> Option<string>, reset: bool)
    ensures var t := Tick(st, sample, clock, guess);
      var rest := RunWith(t.state, evs, guess, reset);
      RunWith(st, [TickEvent(sample, clock)] + evs, guess, reset) == (rest.0, Saved(t.saved) + rest.1)
  {
    RunCons(st, TickEvent(sample, clock), evs, guess, reset);
  }

  lemma RunStart(st: MonitorState, loadOk: bool, evs: seq<Event>, guess: string -> Option<string>, reset: bool)
    ensures RunWith(st, [StartEvent(loadOk)] + evs, guess, reset) == RunWith(Start(st, loadOk), evs, guess, reset)
  {
    RunCons(st, StartEvent(loadOk), evs, guess, reset);
    var rest := RunWith(Start(st, loadOk), evs, guess, reset);
    assert [] + rest.1 == rest.1;
  }

  lemma RunStopAsWritten(st: MonitorState, clock: Clock, evs: seq<Event>, guess: string -> Option<string>)
    ensures var (st', s) := Stop(st, clock);
      var rest := RunWith(st', evs, guess, false);
      RunWith(st, [StopEvent(clock)] + evs, guess, false) == (rest.0, Saved(s) + rest.1)
  {
    RunCons(st, StopEvent(clock), evs, guess, false);
  }

  lemma RunStopCorrected(st: MonitorState, clock: Clock, evs: seq<Event>, guess: string -> Option<string>)
    ensures var (st', s) := StopAndReset(st, clock);
      var rest := RunWith(st', evs, guess, true);
      RunWith(st, [StopEvent(clock)] + evs, guess, true) == (rest.0, Saved(s) + rest.1)
  {
    RunCons(st, StopEvent(clock), evs, guess, true);
  }

  lemma FiveEvents(e0: Event, e1: Event, e2: Event, e3: Event, e4: Event)
    ensures [e0, e1, e2, e3, e4] == [e0] + ([e1] + ([e2] + ([e3] + ([e4] + []))))
  {
  }

  /** Running a non-empty sequence is one step followed by the rest. */
  lemma RunCons(st: MonitorState, ev: Event, evs: seq<Event>, guess: string -> Option<string>, reset: bool)
    ensures var first := Step(st, ev, guess, reset);
      var rest := RunWith(first.0, evs, guess, reset);
      RunWith(st, [ev] + evs, guess, reset) == (rest.0, first.1 + rest.1)
  {
    assert ([ev] + evs)[1..] == evs;
  }

  /** A state in which nothing is tracked unless the monitor is running. */
  predicate Quiet(st: MonitorState) {
    !st.running ==> st.cur.None?
  }

  /** With the corrected stop, an idle monitor never tracks a session. */
  lemma {:induction false} RunKeepsQuiet(st: MonitorState, evs: seq<Event>, guess: string -> Option<string>)
    requires Quiet(st)
    ensures Quiet(Run(st, evs, guess).0)
    decreases |evs|
  {
    if |evs| > 0 {
      var (st1, _) := Step(st, evs[0], guess, true);
      assert Quiet(st1);
      RunKeepsQuiet(st1, evs[1..], guess);
    }
  }

  /**
   * With the corrected stop, a restart never flushes the stopped session again: the first
   * tick after stop and start saves nothing, whatever the sample and the clock.
   */
  lemma CorrectedRestartSavesNothing(st: MonitorState, c1: Clock, c2: Clock, sample: Option<Window>,
                                     loadOk: bool, guess: string -> Option<string>)
    requires Quiet(st)
    ensures var (s1, _) := StopAndReset(st, c1);
      Tick(Start(s1, loadOk), sample, c2, guess).saved.None?
  {
  }
}

=== FILE: report.dfy ===
/**
 * The helpers of the report page (src/renderer.js): the two time formats, the element-id
 * cleaner, the first value of the Pomodoro countdown and its ticking, and the choice of an
 * icon file for an application label.
 */
module Report {
  import opened Basics
  import opened Text
  import opened Decimal

  // ---------------------------------------------------------------------------------------
  // `formatTimeShort(seconds)`: `"<h>h <m>m"`, or `"<m>m"` under an hour.

  /**
   * The label reads back (`ReadTimeShort`) as the whole minutes of `seconds`, and it shows an
   * hours field exactly from one hour on.
   */
  function FormatTimeShort(seconds: nat): (r: string)
    ensures ReadTimeShort(r) == Some(seconds / 60)
    ensures seconds >= 3600 <==> 'h' in r
  {
    var hours := seconds / 3600;
    var mins := (seconds % 3600) / 60;
    if hours > 0 then
      WholeMinutesSplit(seconds);
      ReadHoursLabel(hours, mins, seconds / 60);
      HoursLabelShowsHours(hours, mins);
      ToDec(hours) + ("h " + ToDec(mins) + "m")
    else
      MinutesLabelFacts(seconds);
      ToDec(mins) + "m"
  }

  /** The whole minutes are the whole hours times 60 plus the minutes left over. */
  lemma WholeMinutesSplit(s: nat)
    ensures s / 60 == (s / 3600) * 60 + (s % 3600) / 60
    ensures (s % 3600) / 60 < 60
  {
    HoursAndMinutes(s);
  }

  /** Under an hour, the label of minutes only reads back as the whole minutes. */
  lemma MinutesLabelFacts(seconds: nat)
    requires seconds < 3600
    ensures var text := ToDec((seconds % 3600) / 60) + "m";
      ReadTimeShort(text) == Some(seconds / 60) && 'h' !in text
  {
    assert seconds % 3600 == seconds;
    var m := seconds / 60;
    ReadMinutesLabel(m);
    MinutesLabelHasNoHours(m);
  }

  /**
   * Reads the whole minutes back from a short time label. Only the labels `formatTimeShort`
   * writes are read: numbers without leading zeros, an hours field only when it is not zero,
   * and minutes below 60.
   */
  function ReadTimeShort(r: string): Option<nat> {
    var n := DigitRun(r, 10);
    if n == 0 || !IsDecText(r[..n]) then None else ReadUnits(ParseDec(r[..n]), r[n..])
  }

  /** What follows the leading number `lead`: `"m"`, or `"h "`, a number of minutes and `"m"`. */
  function ReadUnits(lead: nat, rest: string): Option<nat> {
    if |rest| == 1 && rest[0] == 'm' then
      if lead < 60 then Some(lead) else None
    else if |rest| >= 2 && rest[0] == 'h' && rest[1] == ' ' && lead > 0 then
      var t := rest[2..];
      var k := DigitRun(t, 10);
      if k > 0 && |t| == k + 1 && t[k] == 'm' && IsDecText(t[..k]) && ParseDec(t[..k]) < 60 then
        Some(lead * 60 + ParseDec(t[..k]))
      else None
    else None
  }

  /**
   * The reader accepts nothing but labels: a text it reads as `m` minutes is the label
   * `formatTimeShort` writes for `60 * m` seconds.
   */
  lemma ReadTimeShortOnlyLabels(r: string)
    requires ReadTimeShort(r).Some?
    ensures r == FormatTimeShort(60 * ReadTimeShort(r).value)
  {
    var lead, rest := ReadLead(r);
    var v := ReadTimeShort(r).value;
    if |rest| == 1 && rest[0] == 'm' {
      assert rest == "m" && lead < 60 && v == lead;
      MinutesLabelOf(lead);
      assert FormatTimeShort(60 * v) == ToDec(lead) + rest;
    } else {
      var mm := HoursFields(lead, rest);
      assert v == lead * 60 + mm;
      HoursLabelOf(lead, mm, v);
      assert FormatTimeShort(60 * v) == ToDec(lead) + rest;
    }
  }

  /** A text the reader accepts is the decimal text of its leading number, then the rest. */
  lemma ReadLead(r: string) returns (lead: nat, rest: string)
    requires ReadTimeShort(r).Some?
    ensures r == ToDec(lead) + rest
    ensures ReadTimeShort(r) == ReadUnits(lead, rest)
  {
    var n := DigitRun(r, 10);
    lead, rest := ParseDec(r[..n]), r[n..];
    assert r[..n] == ToDec(lead) && r == r[..n] + r[n..];
  }

  /** The rest of an hours-and-minutes label that `ReadUnits` accepts, and its minutes field. */
  lemma HoursFields(lead: nat, rest: string) returns (mm: nat)
    requires ReadUnits(lead, rest).Some?
    requires !(|rest| == 1 && rest[0] == 'm')
    ensures lead > 0 && mm < 60
    ensures rest == "h " + ToDec(mm) + "m"
    ensures ReadUnits(lead, rest) == Some(lead * 60 + mm)
  {
    var t := rest[2..];
    var k := DigitRun(t, 10);
    mm := ParseDec(t[..k]);
    assert t[..k] == ToDec(mm) && t[k..] == "m";
    assert t == t[..k] + t[k..];
    assert rest == rest[..2] + t;
  }

  /** Under an hour, the label of `60 * m` seconds is the minutes label of `m`. */
  lemma MinutesLabelOf(m: nat)
    requires m < 60
    ensures FormatTimeShort(60 * m) == ToDec(m) + "m"
  {
    HoursMinutesOf(60 * m, 0, m, 0);
  }

  /** The label of `60 * total` seconds, `total` being `h` hours (not zero) and `m` minutes. */
  lemma HoursLabelOf(h: nat, m: nat, total: nat)
    requires h > 0 && m < 60
    requires total == h * 60 + m
    ensures FormatTimeShort(60 * total) == ToDec(h) + ("h " + ToDec(m) + "m")
  {
    HoursMinutesOf(60 * total, h, m, 0);
  }

  /** The hours and minutes fields of `3600 * h + 60 * m + r0` seconds, with `m` and `r0` below 60. */
  lemma HoursMinutesOf(s: nat, h: nat, m: nat, r0: nat)
    requires m < 60 && r0 < 60
    requires s == 3600 * h + 60 * m + r0
    ensures s / 3600 == h && (s % 3600) / 60 == m
  {
    assert 0 <= 60 * m + r0 < 3600;
    assert s / 3600 == h && s % 3600 == 60 * m + r0;
    assert (60 * m + r0) / 60 == m;
  }

  /** Splitting off whole hours and then whole minutes is splitting off whole minutes. */
  lemma HoursAndMinutes(s: nat)
    ensures s / 3600 == (s / 60) / 60
    ensures (s % 3600) / 60 == (s / 60) % 60
  {
    var q, r0 := s / 60, s % 60;
    var h, m := q / 60, q % 60;
    assert s == 3600 * h + (60 * m + r0);
    assert 0 <= 60 * m + r0 < 3600;
    assert s / 3600 == h && s % 3600 == 60 * m + r0;
    assert (60 * m + r0) / 60 == m;
  }

  /** A digit string read from the front of a longer text, up to a non-digit. */
  lemma ReadsLeadingNumber(n: nat, rest: string)
    requires |rest| > 0 && !IsDigit(rest[0])
    ensures var r := ToDec(n) + rest;
      DigitRun(r, 10) == |ToDec(n)| && r[..|ToDec(n)|] == ToDec(n) && r[|ToDec(n)|..] == rest
      && ParseDec(ToDec(n)) == n
  {
    DigitRunPrefix(ToDec(n), rest);
    ParseToDec(n);
    var r := ToDec(n) + rest;
    assert r[..|ToDec(n)|] == ToDec(n);
    assert r[|ToDec(n)|..] == rest;
  }

  /** The hours of a label are read as a number and the rest is read by `ReadUnits`. */
  lemma ReadLeadingHours(h: nat, ms: string)
    ensures var tail := "h " + ms + "m";
      ReadTimeShort(ToDec(h) + tail) == ReadUnits(h, tail)
  {
    var hs, tail := ToDec(h), "h " + ms + "m";
    var r := hs + tail;
    DigitRunPrefix(hs, tail);
    assert r[..|hs|] == hs;
    assert r[|hs|..] == tail;
    ToDecIsDecText(h);
  }

  /** Minutes below 60 written after a non-zero number of hours add to the hours in minutes. */
  lemma ReadMinutesAfterHours(lead: nat, m: nat, total: nat)
    requires lead > 0 && m < 60
    requires total == lead * 60 + m
    ensures ReadUnits(lead, "h " + ToDec(m) + "m") == Some(total)
  {
    var ms := ToDec(m);
    var t := ("h " + ms + "m")[2..];
    assert t == ms + "m";
    DigitRunPrefix(ms, "m");
    assert t[..|ms|] == ms;
    ToDecIsDecText(m);
  }

  /** A label of non-zero hours and minutes below 60 reads back as the minutes in all. */
  lemma ReadHoursLabel(h: nat, m: nat, total: nat)
    requires h > 0 && m < 60
    requires total == h * 60 + m
    ensures ReadTimeShort(ToDec(h) + ("h " + ToDec(m) + "m")) == Some(total)
  {
    ReadLeadingHours(h, ToDec(m));
    ReadMinutesAfterHours(h, m, total);
  }

  /** A label of minutes only, below 60, reads back as those minutes. */
  lemma ReadMinutesLabel(m: nat)
    requires m < 60
    ensures ReadTimeShort(ToDec(m) + "m") == Some(m)
  {
    ReadsLeadingNumber(m, "m");
    ToDecIsDecText(m);
  }

  lemma HoursLabelShowsHours(h: nat, m: nat)
    ensures 'h' in ToDec(h) + ("h " + ToDec(m) + "m")
  {
    assert (ToDec(h) + ("h " + ToDec(m) + "m"))[|ToDec(h)|] == 'h';
  }

  lemma MinutesLabelHasNoHours(m: nat)
    ensures 'h' !in ToDec(m) + "m"
  {
    var r := ToDec(m) + "m";
    forall k | 0 <= k < |r| ensures r[k] != 'h' {
      if k < |ToDec(m)| {
        assert IsDigit(ToDec(m)[k]);
      }
    }
  }

  /** Two durations get the same short label exactly when they have the same whole minutes. */
  lemma FormatTimeShortSameMinutes(s: nat, t: nat)
    ensures FormatTimeShort(s) == FormatTimeShort(t) <==> s / 60 == t / 60
  {
    HoursAndMinutes(s);
    HoursAndMinutes(t);
  }

  // ---------------------------------------------------------------------------------------
  // `formatTimer(seconds)`: `"mm:ss"`, each field padded to two digits.

  function FormatTimer(seconds: nat): (r: string)
    ensures |r| >= 5 && r[|r| - 3] == ':'
    ensures AllDigits(r[..|r| - 3]) && AllDigits(r[|r| - 2..])
    ensures ParseDec(r[..|r| - 3]) == seconds / 60 && ParseDec(r[|r| - 2..]) == seconds % 60
    ensures |r| == 5 || r[0] != '0'
  {
    var mins := PadZeros(ToDec(seconds / 60), 2);
    var secs := PadZeros(ToDec(seconds % 60), 2);
    TwoDigitsAtMost(seconds % 60);
    ParseToDec(seconds / 60);
    ParseToDec(seconds % 60);
    assert (mins + (":" + secs))[..|mins|] == mins;
    assert (mins + (":" + secs))[|mins| + 1..] == secs;
    mins + (":" + secs)
  }

  lemma TwoDigitsAtMost(n: nat)
    requires n < 100
    ensures |ToDec(n)| <= 2
  {
    if n >= 10 {
      assert ToDec(n) == ToDec(n / 10) + [DigitChar(n % 10)];
    }
  }

  /**
   * Reads `"<minutes>:<seconds>"` back as a number of seconds. Only the texts `formatTimer`
   * writes are read: minutes padded to two digits and no further, two digits of seconds below 60.
   */
  function ReadTimer(r: string): Option<nat> {
    var n := DigitRun(r, 10);
    if n > 0 && IsPaddedField(r[..n]) then ReadSeconds(ParseDec(r[..n]), r[n..]) else None
  }

  /** `s` is how `toString().padStart(2, '0')` writes its value. */
  predicate IsPaddedField(s: string) {
    AllDigits(s) && s == PadZeros(ToDec(ParseDec(s)), 2)
  }

  /** What follows `lead` minutes: a colon and two digits of seconds, below 60. */
  function ReadSeconds(lead: nat, rest: string): Option<nat> {
    if |rest| == 3 && rest[0] == ':' && AllDigits(rest[1..]) && ParseDec(rest[1..]) < 60 then
      Some(lead * 60 + ParseDec(rest[1..]))
    else None
  }

  /** The padded text of `n` is a padded field worth `n`. */
  lemma PaddedFieldOf(n: nat)
    ensures IsPaddedField(PadZeros(ToDec(n), 2)) && ParseDec(PadZeros(ToDec(n), 2)) == n
  {
    ParseToDec(n);
  }

  /** The minutes field is read as a number and the rest is read by `ReadSeconds`. */
  lemma ReadTimerMinutes(m: nat, tail: string)
    requires |tail| > 0 && tail[0] == ':'
    ensures ReadTimer(PadZeros(ToDec(m), 2) + tail) == ReadSeconds(m, tail)
  {
    var mins := PadZeros(ToDec(m), 2);
    var r := mins + tail;
    PaddedFieldOf(m);
    DigitRunPrefix(mins, tail);
    assert r[..|mins|] == mins;
    assert r[|mins|..] == tail;
  }

  /** A padded seconds field after the minutes adds those seconds. */
  lemma ReadPaddedSeconds(lead: nat, sec: nat)
    requires sec < 60
    ensures ReadSeconds(lead, ":" + PadZeros(ToDec(sec), 2)) == Some(lead * 60 + sec)
  {
    var secs := PadZeros(ToDec(sec), 2);
    TwoDigitsAtMost(sec);
    ParseToDec(sec);
    assert (":" + secs)[1..] == secs;
  }

  /** The timer text reads back as the number of seconds it shows. */
  lemma ReadFormatTimer(s: nat)
    ensures ReadTimer(FormatTimer(s)) == Some(s)
  {
    var mins := PadZeros(ToDec(s / 60), 2);
    var secs := PadZeros(ToDec(s % 60), 2);
    assert FormatTimer(s) == mins + (":" + secs);
    ReadTimerMinutes(s / 60, ":" + secs);
    ReadPaddedSeconds(s / 60, s % 60);
    assert ReadTimer(FormatTimer(s)) == Some((s / 60) * 60 + s % 60);
    assert (s / 60) * 60 + s % 60 == s;
  }

  /** Distinct durations show distinct timer texts. */
  lemma FormatTimerInjective(s: nat, t: nat)
    requires FormatTimer(s) == FormatTimer(t)
    ensures s == t
  {
    ReadFormatTimer(s);
    ReadFormatTimer(t);
  }

  /**
   * The reader accepts nothing but timer texts: a text it reads as `s` seconds is the text
   * `formatTimer` writes for `s`.
   */
  lemma ReadTimerOnlyTimers(r: string)
    requires ReadTimer(r).Some?
    ensures r == FormatTimer(ReadTimer(r).value)
  {
    var lead, rest := ReadTimerLead(r);
    var v := ReadTimer(r).value;
    var sec := SecondsField(lead, rest);
    assert v == lead * 60 + sec;
    TimerTextOf(lead, sec, v);
    assert FormatTimer(v) == PadZeros(ToDec(lead), 2) + rest;
  }

  /** A text the timer reader accepts is a padded minutes field, then the rest. */
  lemma ReadTimerLead(r: string) returns (lead: nat, rest: string)
    requires ReadTimer(r).Some?
    ensures r == PadZeros(ToDec(lead), 2) + rest
    ensures ReadTimer(r) == ReadSeconds(lead, rest)
  {
    var n := DigitRun(r, 10);
    lead, rest := ParseDec(r[..n]), r[n..];
    assert r[..n] == PadZeros(ToDec(lead), 2) && r == r[..n] + r[n..];
  }

  /** The rest accepted by `ReadSeconds` is a colon and the padded seconds. */
  lemma SecondsField(lead: nat, rest: string) returns (sec: nat)
    requires ReadSeconds(lead, rest).Some?
    ensures sec < 60 && rest == ":" + PadZeros(ToDec(sec), 2)
    ensures ReadSeconds(lead, rest) == Some(lead * 60 + sec)
  {
    sec := ParseDec(rest[1..]);
    TwoDigitField(rest[1..]);
    assert rest == [':'] + rest[1..];
  }

  /** Two decimal digits are the padded text of their value. */
  lemma TwoDigitField(s: string)
    requires |s| == 2 && AllDigits(s)
    ensures s == PadZeros(ToDec(ParseDec(s)), 2)
  {
    var hi, lo := DigitValue(s[0]), DigitValue(s[1]);
    var v := ParseDec(s);
    assert s[..1] == [s[0]] && s[..1][..0] == [];
    assert ParseDec(s[..1]) == hi;
    assert v == 10 * hi + lo;
    assert DigitChar(hi) == s[0] && DigitChar(lo) == s[1];
    if hi == 0 {
      assert ToDec(v) == [s[1]];
      assert PadZeros([s[1]], 2) == PadZeros("0" + [s[1]], 2);
      assert "0" + [s[1]] == s;
    } else {
      assert v / 10 == hi && v % 10 == lo;
      assert ToDec(v) == ToDec(hi) + [DigitChar(lo)];
      assert ToDec(v) == s;
    }
  }

  /** The timer text of `lead * 60 + sec` seconds, `sec` below 60. */
  lemma TimerTextOf(lead: nat, sec: nat, v: nat)
    requires sec < 60 && v == lead * 60 + sec
    ensures FormatTimer(v) == PadZeros(ToDec(lead), 2) + (":" + PadZeros(ToDec(sec), 2))
  {
    assert v / 60 == lead && v % 60 == sec;
  }

  // ---------------------------------------------------------------------------------------
  // `cleanId(name)`: lower-case, then drop everything but `a`-`z` and `0`-`9`.

  predicate IsIdChar(c: char) {
    'a' <= c <= 'z' || '0' <= c <= '9'
  }

  function CleanId(name: string): (r: string)
    ensures |r| <= |name|
    ensures forall k :: 0 <= k < |r| ==> IsIdChar(r[k])
  {
    if |name| == 0 then ""
    else
      var c := LowerChar(name[|name| - 1]);
      CleanId(name[..|name| - 1]) + (if IsIdChar(c) then [c] else [])
  }

  /** Cleaning a text piece by piece is cleaning it whole. */
  lemma {:induction false} CleanIdAppend(a: string, b: string)
    ensures CleanId(a + b) == CleanId(a) + CleanId(b)
    decreases |b|
  {
    if |b| == 0 {
      assert a + b == a;
    } else {
      var b' := b[..|b| - 1];
      assert (a + b)[..|a + b| - 1] == a + b';
      CleanIdAppend(a, b');
    }
  }

  /** One character: lower-cased, and kept exactly when it is then an ASCII letter or digit. */
  lemma CleanIdChar(c: char)
    ensures CleanId([c]) == if IsIdChar(LowerChar(c)) then [LowerChar(c)] else []
  {
    assert [c][..0] == [];
  }

  /**
   * The characters `/[^a-z0-9]/g` keeps, in order: a reference filter read from the front, with
   * no lower-casing of its own.
   */
  function KeepIdChars(s: string): (r: string)
    ensures |r| <= |s| && IsSubsequence(r, s)
    ensures forall k :: 0 <= k < |r| ==> IsIdChar(r[k])
  {
    if |s| == 0 then []
    else
      var rest := KeepIdChars(s[1..]);
      if IsIdChar(s[0]) then
        var r := [s[0]] + rest;
        assert r[1..] == rest;
        r
      else rest
  }

  /** `cleanId` is `toLowerCase()` followed by deleting every character outside `[a-z0-9]`. */
  lemma {:induction false} CleanIdIsLowerThenKeep(name: string)
    ensures CleanId(name) == KeepIdChars(Lower(name))
    decreases |name|
  {
    if |name| > 0 {
      var rest := name[1..];
      assert name == [name[0]] + rest;
      CleanIdAppend([name[0]], rest);
      CleanIdChar(name[0]);
      CleanIdIsLowerThenKeep(rest);
      var low := Lower(name);
      assert low[0] == LowerChar(name[0]);
      assert low[1..] == Lower(rest);
    }
  }

  /** A text made of id characters only is its own cleaned form. */
  lemma {:induction false} CleanIdKeeps(s: string)
    requires forall k :: 0 <= k < |s| ==> IsIdChar(s[k])
    ensures CleanId(s) == s
    decreases |s|
  {
    if |s| > 0 {
      CleanIdKeeps(s[..|s| - 1]);
      assert s == s[..|s| - 1] + [s[|s| - 1]];
    }
  }

  lemma CleanIdIdempotent(name: string)
    ensures CleanId(CleanId(name)) == CleanId(name)
  {
    CleanIdKeeps(CleanId(name));
  }

  // ---------------------------------------------------------------------------------------
  // The Pomodoro countdown.

  /** A JavaScript argument that is a number, `null`, or not passed at all. */
  datatype NumberArg = Missing | Null | Number(x: real)

  /** The saved preferences: a parsed object, or `null` when `"null"` was stored. */
  datatype Prefs = PrefsNull | PrefsObject(pomodoroDuration: NumberArg)

  const DefaultMinutes: real := 25.0

  predicate IsTruthy(a: NumberArg) {
    a.Number? && a.x != 0.0
  }

  /** `a || b` on numbers. */
  function Or(a: NumberArg, b: NumberArg): (r: NumberArg)
    ensures IsTruthy(a) ==> r == a
    ensures !IsTruthy(a) ==> r == b
  {
    if IsTruthy(a) then a else b
  }

  /** `Math.max(1, Math.floor(minutes)) * 60`. */
  function WholeMinutesInSeconds(minutes: real): (r: int)
    ensures r >= 60 && r % 60 == 0
    ensures minutes >= 1.0 ==> (r / 60) as real <= minutes < (r / 60 + 1) as real
    ensures minutes < 2.0 ==> r == 60
  {
    var m := minutes.Floor;
    (if m > 1 then m else 1) * 60
  }

  /**
   * `startPomodoro(minutes)`: the first value of `pomRemaining`. An argument not passed is 25
   * (the parameter's default); otherwise a falsy argument gives way to the saved duration and
   * then to 25. With `null` stored as preferences, reading the saved duration throws and the
   * fallback uses the argument or 25.
   */
  function PomodoroStart(minutes: NumberArg, prefs: Prefs): (r: int)
    ensures r >= 60 && r % 60 == 0
    ensures minutes.Missing? ==> r == 25 * 60
    ensures IsTruthy(minutes) ==> r == WholeMinutesInSeconds(minutes.x)
    ensures !minutes.Missing? && !IsTruthy(minutes) && prefs.PrefsObject? && IsTruthy(prefs.pomodoroDuration)
            ==> r == WholeMinutesInSeconds(prefs.pomodoroDuration.x)
    ensures !minutes.Missing? && !IsTruthy(minutes) && (prefs.PrefsNull? || !IsTruthy(prefs.pomodoroDuration))
            ==> r == 25 * 60
  {
    var arg := if minutes.Missing? then Number(DefaultMinutes) else minutes;
    var duration :=
      if prefs.PrefsNull? then Or(arg, Number(DefaultMinutes))
      else Or(arg, Or(prefs.pomodoroDuration, Number(DefaultMinutes)));
    assert (25.0 as real).Floor == 25;
    WholeMinutesInSeconds(duration.x)
  }

  /** A whole number of minutes is that many minutes; a fraction of a minute rounds down, but never below one. */
  lemma PomodoroWholeMinutes(n: nat, prefs: Prefs)
    requires n >= 1
    ensures PomodoroStart(Number(n as real), prefs) == n * 60
    ensures PomodoroStart(Number(n as real + 0.5), prefs) == n * 60
    ensures PomodoroStart(Number(0.5), prefs) == 60
  {
    assert (n as real).Floor == n;
    assert (n as real + 0.5).Floor == n;
  }

  /**
   * The interval of the countdown: each tick decrements `pomRemaining` and the countdown
   * finishes at the first tick that leaves it at or below 0. `shown` are the values displayed.
   */
  method CountDown(start: int) returns (ticks: nat, shown: seq<int>)
    ensures ticks == if start > 1 then start else 1
    ensures |shown| == ticks
    ensures forall i :: 0 <= i < ticks ==> shown[i] == start - 1 - i
    ensures shown[ticks - 1] <= 0 && forall i :: 0 <= i < ticks - 1 ==> shown[i] > 0
  {
    var remaining := start - 1;
    ticks := 1;
    shown := [remaining];
    while remaining > 0
      invariant ticks >= 1 && remaining == start - ticks
      invariant ticks == 1 || remaining >= 0
      invariant |shown| == ticks
      invariant forall i :: 0 <= i < ticks ==> shown[i] == start - 1 - i
      invariant forall i :: 0 <= i < ticks - 1 ==> shown[i] > 0
      decreases remaining
    {
      remaining := remaining - 1;
      ticks := ticks + 1;
      shown := shown + [remaining];
    }
  }

  // ---------------------------------------------------------------------------------------
  // `getAppIcon(appName)`: the icon file of the first table key inside the lower-cased label.

  const IconTable: seq<(string, string)> := [
    ("code", "vscode.png"),
    ("visual studio code", "vscode.png"),
    ("intellij", "intellij.png"),
    ("idea", "intellij.png"),
    ("chrome", "google-chrome.png"),
    ("spotify", "spotify.png"),
    ("discord", "discord.png"),
    ("instagram", "instagram.png"),
    ("notion", "notion.png"),
    ("powershell", "terminal.png"),
    ("electron", "electron.png"),
    ("notepad", "notepad.png"),
    ("edge", "microsoft-edge.png")
  ]

  function AppIcon(app: string): (r: Option<string>)
    ensures r.Some? <==> exists j :: 0 <= j < |IconTable| && Contains(Lower(app), IconTable[j].0)
    ensures forall i :: (0 <= i < |IconTable| && Contains(Lower(app), IconTable[i].0)
                         && (forall j :: 0 <= j < i ==> !Contains(Lower(app), IconTable[j].0)))
                         ==> r == Some(IconTable[i].1)
  {
    LookupFirst(IconTable, Lower(app))
  }

  /** A key with a character the text lacks does not occur in it. */
  lemma AbsentCharNotContained(s: string, pat: string, c: char)
    requires c in pat && c !in s
    ensures !Contains(s, pat)
  {
    var k :| 0 <= k < |pat| && pat[k] == c;
    forall i: nat ensures !IsAt(s, pat, i) {
      if i + |pat| <= |s| {
        assert s[i..i + |pat|][k] == s[i + k];
        assert s[i + k] in s;
      }
    }
  }

  /**
   * Illustrations of `AppIcon`'s first-match rule on the three product labels of the
   * classifier: each gets its own icon.
   */
  lemma EditorLabelIcon()
    ensures AppIcon("Visual Studio Code") == Some("vscode.png")
  {
    var vs := "visual studio code";
    assert Lower("Visual Studio Code") == vs;
    assert |vs| == 18 && vs[14..18] == "code";
    assert IsAt(vs, "code", 14);
  }

  lemma IdeLabelIcon()
    ensures AppIcon("IntelliJ IDEA") == Some("intellij.png")
  {
    var ij := "intellij idea";
    LowerIde();
    assert IconTable[2] == ("intellij", "intellij.png");
    assert IsAt(ij, "intellij", 0);
    assert Contains(ij, IconTable[2].0);
    IdeMissesEarlierKeys();
    FirstRowAt(IconTable, ij, 2);
  }

  lemma IdeMissesEarlierKeys()
    ensures forall j :: 0 <= j < 2 ==> !Contains("intellij idea", IconTable[j].0)
  {
    var ij := "intellij idea";
    assert forall k :: 0 <= k < |ij| ==> ij[k] != 'c' && ij[k] != 'v';
    assert IconTable[0].0[0] == 'c' && IconTable[1].0[0] == 'v';
    AbsentCharNotContained(ij, IconTable[0].0, 'c');
    AbsentCharNotContained(ij, IconTable[1].0, 'v');
  }

  lemma BrowserLabelIcon()
    ensures AppIcon("Google Chrome") == Some("google-chrome.png")
  {
    var gc := "google chrome";
    LowerBrowser();
    assert IconTable[4] == ("chrome", "google-chrome.png");
    assert IsAt(gc, "chrome", 7);
    assert Contains(gc, IconTable[4].0);
    BrowserMissesEarlierKeys();
    FirstRowAt(IconTable, gc, 4);
  }

  lemma BrowserMissesEarlierKeys()
    ensures forall j :: 0 <= j < 4 ==> !Contains("google chrome", IconTable[j].0)
  {
    forall j | 0 <= j < 4 ensures !Contains("google chrome", IconTable[j].0) {
      if j == 0 {
        AbsentCharNotContained("google chrome", IconTable[j].0, 'd');
      } else if j == 1 {
        AbsentCharNotContained("google chrome", IconTable[j].0, 'v');
      } else {
        AbsentCharNotContained("google chrome", IconTable[j].0, 'i');
      }
    }
  }

  lemma LowerIde()
    ensures Lower("IntelliJ IDEA") == "intellij idea"
  {
  }

  lemma LowerBrowser()
    ensures Lower("Google Chrome") == "google chrome"
  {
  }

  lemma FirstRowAt(table: seq<(string, string)>, text: string, i: nat)
    requires i < |table| && Contains(text, table[i].0)
    requires forall j :: 0 <= j < i ==> !Contains(text, table[j].0)
    ensures LookupFirst(table, text) == Some(table[i].1)
  {
  }
}

=== FILE: rollup.dfy ===
/**
 * The weekly and monthly views of the report page (src/renderer.js, `loadWeeklyView` and
 * `loadMonthlyView`): the per-day statistics of a range of days, each requested through the
 * date check of the bridge, are folded into a total, a per-application total with its domain
 * breakdown, and a total per day; the monthly view also lists its ten largest applications.
 */
module Rollup {
  import opened Basics
  import opened Text
  import opened Sums
  import opened Store
  import opened Stats
  import opened Validate

  /** `appAgg[app]`: the period's time of one application and of each of its domains. */
  datatype AppTotals = AppTotals(totalTime: int, domains: map<string, int>)

  /** What one view computes: `totalWeekTime`/`totalTime`, `appAgg` and `dailyTotals`. */
  datatype Period = Period(total: int, apps: map<string, AppTotals>, dailyTotals: map<string, int>)

  /** Adds one application's domain times of a day into the running ones. */
  function MergeDomains(acc: map<string, int>, doms: map<string, DomainStats>): (r: map<string, int>)
    ensures forall d :: d in r <==> d in acc || d in doms
  {
    map d | d in acc.Keys + doms.Keys ::
      (if d in acc then acc[d] else 0) + (if d in doms then doms[d].totalTime else 0)
  }

  /** The `forEach` over one day's statistics, adding each application into `appAgg`. */
  function AddDay(apps: map<string, AppTotals>, stats: map<string, AppStats>): (r: map<string, AppTotals>)
    ensures forall a :: a in r <==> a in apps || a in stats
    ensures forall a :: a in r && a !in stats ==> r[a] == apps[a]
  {
    map a | a in apps.Keys + stats.Keys ::
      if a in stats then
        var prev := if a in apps then apps[a] else AppTotals(0, map[]);
        AppTotals(prev.totalTime + stats[a].totalTime, MergeDomains(prev.domains, stats[a].domains))
      else apps[a]
  }

  // ---------------------------------------------------------------------------------------
  // Reference definitions: what the aggregate of a period should hold.

  /** A domain's period time is the time of the application's sessions on it. */
  ghost predicate DomainAgrees(doms: map<string, int>, all: seq<Session>, a: string, d: string) {
    && (d in doms <==> DomainVisits(all, a, d) > 0)
    && (d in doms ==> doms[d] == DomainTime(all, a, d))
  }

  /** `apps` is the per-application rollup of the sessions `all`. */
  ghost predicate AppsAgree(apps: map<string, AppTotals>, all: seq<Session>) {
    && (forall a :: a in apps <==> HasApp(all, a))
    && (forall a :: a in apps ==> apps[a].totalTime == AppTime(all, a))
    && (forall a, d :: a in apps ==> DomainAgrees(apps[a].domains, all, a, d))
  }

  function AppTimes(apps: map<string, AppTotals>): map<string, int> {
    map a | a in apps :: apps[a].totalTime
  }

  // ---------------------------------------------------------------------------------------
  // The reference sums split over a concatenation.

  lemma {:induction false} TotalDurationAppend(x: seq<Session>, y: seq<Session>)
    ensures TotalDuration(x + y) == TotalDuration(x) + TotalDuration(y)
    decreases |y|
  {
    if |y| == 0 {
      assert x + y == x;
    } else {
      assert (x + y)[..|x + y| - 1] == x + y[..|y| - 1];
      TotalDurationAppend(x, y[..|y| - 1]);
    }
  }

  lemma {:induction false} AppTimeAppend(x: seq<Session>, y: seq<Session>, a: string)
    ensures AppTime(x + y, a) == AppTime(x, a) + AppTime(y, a)
    decreases |y|
  {
    if |y| == 0 {
      assert x + y == x;
    } else {
      assert (x + y)[..|x + y| - 1] == x + y[..|y| - 1];
      AppTimeAppend(x, y[..|y| - 1], a);
    }
  }

  lemma {:induction false} DomainAppend(x: seq<Session>, y: seq<Session>, a: string, d: string)
    ensures DomainTime(x + y, a, d) == DomainTime(x, a, d) + DomainTime(y, a, d)
    ensures DomainVisits(x + y, a, d) == DomainVisits(x, a, d) + DomainVisits(y, a, d)
    decreases |y|
  {
    if |y| == 0 {
      assert x + y == x;
    } else {
      assert (x + y)[..|x + y| - 1] == x + y[..|y| - 1];
      DomainAppend(x, y[..|y| - 1], a, d);
    }
  }

  lemma HasAppAppend(x: seq<Session>, y: seq<Session>, a: string)
    ensures HasApp(x + y, a) <==> HasApp(x, a) || HasApp(y, a)
  {
    if HasApp(x + y, a) {
      var i :| 0 <= i < |x + y| && (x + y)[i].app == a;
      if i < |x| {
        assert x[i] == (x + y)[i];
      } else {
        assert y[i - |x|] == (x + y)[i];
      }
    }
    if HasApp(x, a) {
      var i :| 0 <= i < |x| && x[i].app == a;
      assert (x + y)[i] == x[i];
    }
    if HasApp(y, a) {
      var i :| 0 <= i < |y| && y[i].app == a;
      assert (x + y)[|x| + i] == y[i];
    }
  }

  // ---------------------------------------------------------------------------------------
  // One day added into the period.

  /** What one day's statistics say about the sessions of that day. */
  lemma DayFacts(day: seq<Session>, a: string, d: string)
    ensures var st := Aggregate(day);
      && (a in st ==> st[a].totalTime == AppTime(day, a) && DomainsMatch(st[a].domains, day, a, d))
      && (a !in st ==> AppTime(day, a) == 0 && DomainVisits(day, a, d) == 0 && DomainTime(day, a, d) == 0)
  {
    AggregateApp(day, a);
    if a in Aggregate(day) {
      AggregateDomain(day, a, d);
    } else {
      NoDomainBeforeApp(day, a, d);
      VisitsAndTitles(day, a, d);
    }
  }

  /** Adding a day's domain entries into matching running ones matches the joined sessions. */
  lemma MergeDomainAgrees(acc: map<string, int>, doms: map<string, DomainStats>,
                          prev: seq<Session>, day: seq<Session>, a: string, d: string)
    requires DomainAgrees(acc, prev, a, d)
    requires DomainsMatch(doms, day, a, d)
    ensures DomainAgrees(MergeDomains(acc, doms), prev + day, a, d)
  {
    DomainAppend(prev, day, a, d);
    VisitsAndTitles(prev, a, d);
    VisitsAndTitles(day, a, d);
  }

  /** An application absent from the running rollup has no sessions, hence no domain time, so far. */
  lemma AbsentAppAgrees(prev: seq<Session>, a: string, d: string)
    requires !HasApp(prev, a)
    ensures AppTime(prev, a) == 0
    ensures DomainAgrees(map[], prev, a, d)
  {
    AggregateApp(prev, a);
    NoDomainBeforeApp(prev, a, d);
  }

  /** The per-application rollup of `prev`, with one day added, is the rollup of `prev + day`. */
  lemma AddDayAgrees(apps: map<string, AppTotals>, prev: seq<Session>, day: seq<Session>)
    requires AppsAgree(apps, prev)
    ensures AppsAgree(AddDay(apps, Aggregate(day)), prev + day)
  {
    var st := Aggregate(day);
    var r := AddDay(apps, st);
    forall a ensures a in r <==> HasApp(prev + day, a) {
      HasAppAppend(prev, day, a);
    }
    forall a | a in r ensures r[a].totalTime == AppTime(prev + day, a) {
      AddDayApp(apps, prev, day, a, "");
    }
    forall a, d | a in r ensures DomainAgrees(r[a].domains, prev + day, a, d) {
      AddDayApp(apps, prev, day, a, d);
    }
  }

  lemma AddDayApp(apps: map<string, AppTotals>, prev: seq<Session>, day: seq<Session>, a: string, d: string)
    requires AppsAgree(apps, prev)
    requires a in AddDay(apps, Aggregate(day))
    ensures var e := AddDay(apps, Aggregate(day))[a];
      e.totalTime == AppTime(prev + day, a) && DomainAgrees(e.domains, prev + day, a, d)
  {
    var st := Aggregate(day);
    AppTimeAppend(prev, day, a);
    DomainAppend(prev, day, a, d);
    DayFacts(day, a, d);
    if a in apps {
      assert DomainAgrees(apps[a].domains, prev, a, d);
    } else {
      AbsentAppAgrees(prev, a, d);
    }
    if a in st {
      var prevDoms := if a in apps then apps[a].domains else map[];
      MergeDomainAgrees(prevDoms, st[a].domains, prev, day, a, d);
    }
  }

  /** A per-application rollup adds up to the total duration of its sessions. */
  lemma AppTimesSum(apps: map<string, AppTotals>, all: seq<Session>)
    requires AppsAgree(apps, all)
    ensures SumValues(AppTimes(apps)) == TotalDuration(all)
  {
    var st := Aggregate(all);
    forall a | a in st ensures st[a].totalTime == AppTime(all, a) {
      AggregateApp(all, a);
    }
    assert AppTimes(apps) == Totals(st);
    AggregateSums(all);
  }

  // ---------------------------------------------------------------------------------------
  // The loops.

  /** The sum of the applications' `totalTime` in one day's statistics. */
  method DayTotal(stats: map<string, AppStats>) returns (t: int)
    ensures t == SumValues(Totals(stats))
  {
    t := 0;
    var left := stats.Keys;
    DoneSum(stats, left);
    while left != {}
      invariant left <= stats.Keys
      invariant t == SumValues(Totals(stats) - left)
      decreases |left|
    {
      var a :| a in left;
      DoneOneMore(stats, left, a);
      t := t + stats[a].totalTime;
      left := left - {a};
    }
    DoneSum(stats, left);
  }

  /**
   * The sum over the applications already added (all but `left`): none at the start, all at
   * the end.
   */
  lemma DoneSum(stats: map<string, AppStats>, left: set<string>)
    requires left <= stats.Keys
    ensures left == stats.Keys ==> SumValues(Totals(stats) - left) == 0
    ensures left == {} ==> SumValues(Totals(stats) - left) == SumValues(Totals(stats))
  {
    if left == stats.Keys {
      assert Totals(stats) - left == map[];
    }
    if left == {} {
      assert Totals(stats) - left == Totals(stats);
    }
  }

  lemma DoneOneMore(stats: map<string, AppStats>, left: set<string>, a: string)
    requires left <= stats.Keys && a in left
    ensures SumValues(Totals(stats) - (left - {a})) == SumValues(Totals(stats) - left) + stats[a].totalTime
  {
    var done := Totals(stats) - left;
    assert Totals(stats) - (left - {a}) == done[a := stats[a].totalTime];
    SumValuesUpdate(done, a, stats[a].totalTime);
  }

  /** The keys of `m` are the listed days. */
  ghost predicate KeysAre(m: map<string, int>, days: seq<string>) {
    forall d :: d in m <==> d in days
  }

  /** The total duration of the sessions recorded for `date`. */
  function DayDuration(dir: Dir, date: string): int {
    TotalDuration(GetDataByDate(dir, date).sessions)
  }

  /** What the loop has built after the listed days: the period of their sessions. */
  ghost predicate Collected(dir: Dir, days: seq<string>, total: int, apps: map<string, AppTotals>, daily: map<string, int>) {
    && total == TotalDuration(SessionsOf(dir, days))
    && AppsAgree(apps, SessionsOf(dir, days))
    && KeysAre(daily, days)
    && (forall d :: d in daily ==> daily[d] == DayDuration(dir, d))
    && (NoRepeats(days) ==> SumValues(daily) == total)
  }

  /** The sessions of the listed days followed by one more day. */
  lemma SessionsOfSnoc(dir: Dir, days: seq<string>, day: string)
    ensures SessionsOf(dir, days + [day]) == SessionsOf(dir, days) + GetDataByDate(dir, day).sessions
  {
    assert (days + [day])[..|days|] == days;
  }

  lemma StepTotal(dir: Dir, days: seq<string>, day: string, total: int, dayTotal: int)
    requires total == TotalDuration(SessionsOf(dir, days))
    requires dayTotal == SumValues(Totals(GetStatsByDate(dir, day)))
    ensures total + dayTotal == TotalDuration(SessionsOf(dir, days + [day]))
  {
    var sessions := GetDataByDate(dir, day).sessions;
    SessionsOfSnoc(dir, days, day);
    TotalDurationAppend(SessionsOf(dir, days), sessions);
    AggregateSums(sessions);
  }

  lemma StepApps(dir: Dir, days: seq<string>, day: string, apps: map<string, AppTotals>)
    requires AppsAgree(apps, SessionsOf(dir, days))
    ensures AppsAgree(AddDay(apps, GetStatsByDate(dir, day)), SessionsOf(dir, days + [day]))
  {
    SessionsOfSnoc(dir, days, day);
    AddDayAgrees(apps, SessionsOf(dir, days), GetDataByDate(dir, day).sessions);
  }

  /** Recording one more day keys the daily map by the days listed so far and that day. */
  lemma StepKeys(daily: map<string, int>, days: seq<string>, day: string, dayTotal: int)
    requires KeysAre(daily, days)
    ensures KeysAre(daily[day := dayTotal], days + [day])
  {
    forall d ensures d in days + [day] <==> d in days || d == day {
    }
  }

  lemma StepDaily(dir: Dir, days: seq<string>, day: string, daily: map<string, int>, dayTotal: int)
    requires KeysAre(daily, days)
    requires forall d :: d in daily ==> daily[d] == DayDuration(dir, d)
    requires dayTotal == SumValues(Totals(GetStatsByDate(dir, day)))
    ensures KeysAre(daily[day := dayTotal], days + [day])
    ensures forall d :: d in daily[day := dayTotal] ==> daily[day := dayTotal][d] == DayDuration(dir, d)
  {
    AggregateSums(GetDataByDate(dir, day).sessions);
    assert dayTotal == DayDuration(dir, day);
    StepKeys(daily, days, day, dayTotal);
  }

  lemma StepDailySum(days: seq<string>, day: string, daily: map<string, int>, total: int, dayTotal: int)
    requires KeysAre(daily, days)
    requires NoRepeats(days) ==> SumValues(daily) == total
    ensures NoRepeats(days + [day]) ==> SumValues(daily[day := dayTotal]) == total + dayTotal
  {
    if NoRepeats(days + [day]) {
      assert NoRepeats(days) by {
        forall i, j | 0 <= i < j < |days| ensures days[i] != days[j] {
          assert (days + [day])[i] == days[i] && (days + [day])[j] == days[j];
        }
      }
      assert day !in days by {
        forall i | 0 <= i < |days| ensures days[i] != day {
          assert (days + [day])[i] == days[i] && (days + [day])[|days|] == day;
        }
      }
      SumValuesUpdate(daily, day, dayTotal);
    }
  }

  /** One pass of the loop body: the day's total into the running total and `dailyTotals`, its applications into `appAgg`. */
  ghost function AddDayTo(p: Period, dir: Dir, day: string): Period {
    var stats := GetStatsByDate(dir, day);
    var dayTotal := SumValues(Totals(stats));
    Period(p.total + dayTotal, AddDay(p.apps, stats), p.dailyTotals[day := dayTotal])
  }

  /** The period the loop builds over the listed days, all of which passed the check. */
  ghost function Fold(dir: Dir, days: seq<string>): Period {
    if |days| == 0 then Period(0, map[], map[])
    else AddDayTo(Fold(dir, days[..|days| - 1]), dir, days[|days| - 1])
  }

  /** The loop body, once the day has passed the check. */
  method AddDayInto(p: Period, dir: Dir, day: string) returns (q: Period)
    ensures q == AddDayTo(p, dir, day)
  {
    var stats := GetStatsByDate(dir, day);
    var dayTotal := DayTotal(stats);
    q := Period(p.total + dayTotal, AddDay(p.apps, stats), p.dailyTotals[day := dayTotal]);
  }

  /** The day the loop adds last, and the days before it. */
  lemma SplitLast(days: seq<string>)
    requires |days| > 0
    ensures days[..|days| - 1] + [days[|days| - 1]] == days
  {
  }

  /** The loop's total is the total duration of the days' sessions. */
  lemma {:induction false} FoldTotal(dir: Dir, days: seq<string>)
    ensures Fold(dir, days).total == TotalDuration(SessionsOf(dir, days))
    decreases |days|
  {
    if |days| > 0 {
      var init, day := days[..|days| - 1], days[|days| - 1];
      FoldTotal(dir, init);
      SplitLast(days);
      StepTotal(dir, init, day, Fold(dir, init).total, SumValues(Totals(GetStatsByDate(dir, day))));
    }
  }

  /** The loop's `appAgg` is the per-application rollup of the days' sessions. */
  lemma {:induction false} FoldApps(dir: Dir, days: seq<string>)
    ensures AppsAgree(Fold(dir, days).apps, SessionsOf(dir, days))
    decreases |days|
  {
    if |days| > 0 {
      var init, day := days[..|days| - 1], days[|days| - 1];
      FoldApps(dir, init);
      SplitLast(days);
      StepApps(dir, init, day, Fold(dir, init).apps);
    }
  }

  /** The loop's `dailyTotals` holds each listed day with the total duration of that day's sessions. */
  lemma {:induction false} FoldDaily(dir: Dir, days: seq<string>)
    ensures KeysAre(Fold(dir, days).dailyTotals, days)
    ensures forall d :: d in Fold(dir, days).dailyTotals ==> Fold(dir, days).dailyTotals[d] == DayDuration(dir, d)
    decreases |days|
  {
    if |days| > 0 {
      var init, day := days[..|days| - 1], days[|days| - 1];
      FoldDaily(dir, init);
      SplitLast(days);
      StepDaily(dir, init, day, Fold(dir, init).dailyTotals, SumValues(Totals(GetStatsByDate(dir, day))));
    }
  }

  /** Over distinct days, `dailyTotals` adds up to the loop's total. */
  lemma {:induction false} FoldDailySum(dir: Dir, days: seq<string>)
    ensures NoRepeats(days) ==> SumValues(Fold(dir, days).dailyTotals) == Fold(dir, days).total
    decreases |days|
  {
    if |days| > 0 {
      var init, day := days[..|days| - 1], days[|days| - 1];
      FoldDailySum(dir, init);
      FoldDaily(dir, init);
      SplitLast(days);
      var p := Fold(dir, init);
      StepDailySum(init, day, p.dailyTotals, p.total, SumValues(Totals(GetStatsByDate(dir, day))));
    }
  }

  /** The loop's period is the period of the days' sessions. */
  lemma FoldCollected(dir: Dir, days: seq<string>)
    ensures var p := Fold(dir, days); Collected(dir, days, p.total, p.apps, p.dailyTotals)
  {
    FoldTotal(dir, days);
    FoldApps(dir, days);
    FoldDaily(dir, days);
    FoldDailySum(dir, days);
  }

  /** The applications' totals of a collected period add up to its total. */
  lemma CollectedSum(dir: Dir, days: seq<string>, total: int, apps: map<string, AppTotals>, daily: map<string, int>)
    requires Collected(dir, days, total, apps, daily)
    ensures total == SumValues(AppTimes(apps))
  {
    AppTimesSum(apps, SessionsOf(dir, days));
  }

  /** Every listed day is of date shape, day by day in the loop's order. */
  ghost predicate AllDates(days: seq<string>) {
    |days| == 0 || (AllDates(days[..|days| - 1]) && IsDateShape(days[|days| - 1]))
  }

  lemma {:induction false} AllDatesEach(days: seq<string>)
    requires AllDates(days)
    ensures forall j :: 0 <= j < |days| ==> IsDateShape(days[j])
    decreases |days|
  {
    if |days| > 0 {
      AllDatesEach(days[..|days| - 1]);
      forall j | 0 <= j < |days| ensures IsDateShape(days[j]) {
        if j < |days| - 1 {
          assert days[..|days| - 1][j] == days[j];
        }
      }
    }
  }

  /**
   * The body shared by both views: each day is requested through the date check, which throws
   * for a day that is not of date shape and so abandons the view; otherwise the day's
   * statistics are added into the period.
   */
  method Collect(dir: Dir, days: seq<string>) returns (r: Result<Period>)
    ensures r.Err? <==> exists i :: 0 <= i < |days| && !IsDateShape(days[i])
    ensures r.Err? ==> r.message == DateError
    ensures r.Ok? ==> Collected(dir, days, r.value.total, r.value.apps, r.value.dailyTotals)
    ensures r.Ok? ==> r.value.total == SumValues(AppTimes(r.value.apps))
  {
    var p := Period(0, map[], map[]);
    var i := 0;
    while i < |days|
      invariant 0 <= i <= |days|
      invariant AllDates(days[..i])
      invariant p == Fold(dir, days[..i])
    {
      var checked := ValidateDate(Text(days[i]));
      if checked.Err? {
        return Err(checked.message);
      }
      p := AddDayInto(p, dir, days[i]);
      assert days[..i + 1][..i] == days[..i];
      i := i + 1;
    }
    assert days[..i] == days;
    AllDatesEach(days);
    FoldCollected(dir, days);
    CollectedSum(dir, days, p.total, p.apps, p.dailyTotals);
    r := Ok(p);
  }

  // ---------------------------------------------------------------------------------------
  // The two views.

  /** `loadWeeklyView`: the first seven listed dates (the most recent ones, the list being descending). */
  method Weekly(dir: Dir, dates: seq<string>) returns (days: seq<string>, r: Result<Period>)
    ensures |days| == if |dates| < 7 then |dates| else 7
    ensures days == dates[..|days|]
    ensures r.Err? <==> exists i :: 0 <= i < |days| && !IsDateShape(days[i])
    ensures r.Ok? ==> Collected(dir, days, r.value.total, r.value.apps, r.value.dailyTotals)
    ensures r.Ok? ==> r.value.total == SumValues(AppTimes(r.value.apps))
  {
    days := SliceTo(dates, 7);
    r := Collect(dir, days);
  }

  /** `formatDateForStorage(new Date()).slice(0, 7)`: the `YYYY-MM` of today. */
  function MonthOf(today: string): (m: string)
    ensures |m| <= 7 && StartsWith(today, m)
    ensures |today| >= 7 ==> |m| == 7
  {
    if |today| < 7 then today else today[..7]
  }

  /** `dates.filter(d => d.startsWith(month))`, in the listed order. */
  function FilterPrefix(dates: seq<string>, month: string): (r: seq<string>)
    ensures forall d :: d in r <==> d in dates && StartsWith(d, month)
    ensures |r| <= |dates| && IsSubsequence(r, dates)
    ensures NoRepeats(dates) ==> NoRepeats(r)
    ensures forall x :: multiset(r)[x] == if StartsWith(x, month) then multiset(dates)[x] else 0
  {
    if |dates| == 0 then []
    else
      var d := dates[0];
      var rest := FilterPrefix(dates[1..], month);
      HeadAndTail(dates);
      if StartsWith(d, month) then
        var r := [d] + rest;
        assert r[1..] == rest;
        assert multiset(r) == multiset{d} + multiset(rest);
        r
      else rest
  }

  /** The ten largest applications shown by the monthly view. */
  const TopCount := 10

  /**
   * What the monthly view computes: its `appAgg` keeps only each application's `totalTime`,
   * without the domain breakdown of the weekly view.
   */
  datatype Month = Month(total: int, appTotals: map<string, int>, dailyTotals: map<string, int>)

  /**
   * `loadMonthlyView`: the listed dates of today's month, their period, and its ten largest
   * applications. The period is the weekly one with the domain times dropped, which is what
   * the monthly loop builds.
   */
  method Monthly(dir: Dir, dates: seq<string>, today: string) returns (days: seq<string>, r: Result<Month>, top: seq<(string, int)>)
    ensures forall d :: d in days <==> d in dates && StartsWith(d, MonthOf(today))
    ensures IsSubsequence(days, dates) && (NoRepeats(dates) ==> NoRepeats(days))
    ensures forall d :: multiset(days)[d] == if StartsWith(d, MonthOf(today)) then multiset(dates)[d] else 0
    ensures r.Err? <==> exists i :: 0 <= i < |days| && !IsDateShape(days[i])
    ensures r.Err? ==> r.message == DateError && top == []
    ensures r.Ok? ==> var all := SessionsOf(dir, days);
      && r.value.total == TotalDuration(all)
      && (forall a :: a in r.value.appTotals <==> HasApp(all, a))
      && (forall a :: a in r.value.appTotals ==> r.value.appTotals[a] == AppTime(all, a))
      && r.value.total == SumValues(r.value.appTotals)
      && KeysAre(r.value.dailyTotals, days)
      && (forall d :: d in r.value.dailyTotals ==> r.value.dailyTotals[d] == DayDuration(dir, d))
      && (NoRepeats(days) ==> r.value.total == SumValues(r.value.dailyTotals))
    ensures r.Ok? ==> IsTop(top, r.value.appTotals, TopCount)
  {
    days := FilterPrefix(dates, MonthOf(today));
    var period := Collect(dir, days);
    if period.Err? {
      return days, Err(period.message), [];
    }
    var p := period.value;
    r := Ok(Month(p.total, AppTimes(p.apps), p.dailyTotals));
    top := TopApps(r.value.appTotals, TopCount);
  }

  // ---------------------------------------------------------------------------------------
  // `Object.entries(appAgg).sort((a, b) => b[1].totalTime - a[1].totalTime).slice(0, 10)`

  predicate SortedByTime(s: seq<(string, int)>) {
    forall i, j :: 0 <= i < j < |s| ==> s[i].1 >= s[j].1
  }

  /** No application is listed twice. */
  predicate DistinctNames(s: seq<(string, int)>) {
    forall i, j :: 0 <= i < j < |s| ==> s[i].0 != s[j].0
  }

  /**
   * `top` lists `min(n, |totals|)` different applications with their totals, largest first,
   * and no application left out has a larger total than one listed.
   */
  predicate IsTop(top: seq<(string, int)>, totals: map<string, int>, n: nat) {
    && |top| == (if |totals| < n then |totals| else n)
    && SortedByTime(top)
    && DistinctNames(top)
    && (forall i :: 0 <= i < |top| ==> top[i].0 in totals && top[i].1 == totals[top[i].0])
    && (forall a :: a in totals && (forall i :: 0 <= i < |top| ==> top[i].0 != a) ==>
          forall i :: 0 <= i < |top| ==> top[i].1 >= totals[a])
  }

  function InsertByTime(x: (string, int), s: seq<(string, int)>): (r: seq<(string, int)>)
    requires SortedByTime(s)
    ensures SortedByTime(r)
    ensures multiset(r) == multiset(s) + multiset{x}
    ensures |r| == |s| + 1
    ensures DistinctNames(s) && (forall k :: 0 <= k < |s| ==> s[k].0 != x.0) ==> DistinctNames(r)
  {
    if |s| == 0 then [x]
    else if x.1 >= s[0].1 then
      ConsDistinct(x, s);
      [x] + s
    else
      TailDistinct(s, x);
      var rest := InsertByTime(x, s[1..]);
      assert s == [s[0]] + s[1..];
      HeadBeatsRest(s, x, rest);
      HeadNotInRest(s, x, rest);
      ConsDistinct(s[0], rest);
      [s[0]] + rest
  }

  /** Putting an application not yet listed in front keeps the names different. */
  lemma ConsDistinct(h: (string, int), t: seq<(string, int)>)
    ensures DistinctNames(t) && (forall k :: 0 <= k < |t| ==> t[k].0 != h.0) ==> DistinctNames([h] + t)
  {
    if DistinctNames(t) && (forall k :: 0 <= k < |t| ==> t[k].0 != h.0) {
      forall i, j | 0 <= i < j < |t| + 1 ensures ([h] + t)[i].0 != ([h] + t)[j].0 {
        assert ([h] + t)[j] == t[j - 1];
        if i > 0 {
          assert ([h] + t)[i] == t[i - 1];
        }
      }
    }
  }

  /** The tail of a list of different applications, none of them `x`, is one too. */
  lemma TailDistinct(s: seq<(string, int)>, x: (string, int))
    requires |s| > 0
    ensures DistinctNames(s) && (forall k :: 0 <= k < |s| ==> s[k].0 != x.0) ==>
      DistinctNames(s[1..]) && forall k :: 0 <= k < |s[1..]| ==> s[1..][k].0 != x.0
  {
  }

  /** Inserting a new application behind the head of a list of different ones does not repeat the head. */
  lemma HeadNotInRest(s: seq<(string, int)>, x: (string, int), rest: seq<(string, int)>)
    requires |s| > 0
    requires multiset(rest) == multiset(s[1..]) + multiset{x}
    ensures DistinctNames(s) && s[0].0 != x.0 ==> forall j :: 0 <= j < |rest| ==> rest[j].0 != s[0].0
  {
    forall j | 0 <= j < |rest| && DistinctNames(s) && s[0].0 != x.0 ensures rest[j].0 != s[0].0 {
      assert rest[j] in multiset(rest);
      if rest[j] != x {
        assert rest[j] in multiset(s[1..]);
        var k :| 0 <= k < |s[1..]| && s[1..][k] == rest[j];
        assert s[k + 1] == rest[j];
      }
    }
  }

  lemma HeadBeatsRest(s: seq<(string, int)>, x: (string, int), rest: seq<(string, int)>)
    requires SortedByTime(s) && |s| > 0 && s[0].1 >= x.1
    requires multiset(rest) == multiset(s[1..]) + multiset{x}
    ensures forall j :: 0 <= j < |rest| ==> s[0].1 >= rest[j].1
  {
    forall j | 0 <= j < |rest| ensures s[0].1 >= rest[j].1 {
      assert rest[j] in multiset(rest);
      if rest[j] != x {
        assert rest[j] in multiset(s[1..]);
        var k :| 0 <= k < |s[1..]| && s[1..][k] == rest[j];
        assert s[k + 1] == rest[j];
      }
    }
  }

  /** The entries of `s`, largest total first (an insertion sort). */
  function SortByTime(s: seq<(string, int)>): (r: seq<(string, int)>)
    ensures SortedByTime(r)
    ensures multiset(r) == multiset(s)
    ensures |r| == |s|
    ensures DistinctNames(s) ==> DistinctNames(r)
  {
    if |s| == 0 then []
    else
      var init := SortByTime(s[..|s| - 1]);
      var last := s[|s| - 1];
      assert s == s[..|s| - 1] + [last];
      assert multiset(s) == multiset(s[..|s| - 1]) + multiset{last};
      LastNotAmongSorted(s, init);
      InsertByTime(last, init)
  }

  /** A rearrangement of all but the last entry of a list of different applications misses the last one. */
  lemma LastNotAmongSorted(s: seq<(string, int)>, init: seq<(string, int)>)
    requires |s| > 0 && multiset(init) == multiset(s[..|s| - 1])
    ensures DistinctNames(s) ==> forall k :: 0 <= k < |init| ==> init[k].0 != s[|s| - 1].0
  {
    forall k | 0 <= k < |init| && DistinctNames(s) ensures init[k].0 != s[|s| - 1].0 {
      assert init[k] in multiset(s[..|s| - 1]);
      var i :| 0 <= i < |s| - 1 && s[..|s| - 1][i] == init[k];
      assert s[i] == init[k];
    }
  }

  /** An entry behind the first `m` of a sorted list is no larger than any of them. */
  lemma BehindIsNotLarger(sorted: seq<(string, int)>, m: nat, e: (string, int))
    requires SortedByTime(sorted) && m <= |sorted|
    requires e in sorted
    requires forall i :: 0 <= i < m ==> sorted[i].0 != e.0
    ensures forall i :: 0 <= i < m ==> sorted[i].1 >= e.1
  {
    var k :| 0 <= k < |sorted| && sorted[k] == e;
    assert k >= m;
  }

  /** An application missing from a prefix of the sorted entries has no larger total than those in it. */
  lemma PrefixNotLarger(totals: map<string, int>, sorted: seq<(string, int)>, m: nat)
    requires SortedByTime(sorted) && m <= |sorted|
    requires forall a :: a in totals ==> (a, totals[a]) in sorted
    ensures var top := sorted[..m];
      forall a :: a in totals && (forall i :: 0 <= i < |top| ==> top[i].0 != a) ==>
        forall i :: 0 <= i < |top| ==> top[i].1 >= totals[a]
  {
    var top := sorted[..m];
    forall a | a in totals && (forall i :: 0 <= i < |top| ==> top[i].0 != a)
      ensures forall i :: 0 <= i < |top| ==> top[i].1 >= totals[a]
    {
      assert forall i :: 0 <= i < m ==> sorted[i].0 != a by {
        forall i | 0 <= i < m ensures sorted[i].0 != a {
          assert top[i] == sorted[i];
        }
      }
      BehindIsNotLarger(sorted, m, (a, totals[a]));
    }
  }

  /** A prefix of a sorted list of different applications is one too. */
  lemma PrefixKeepsOrder(sorted: seq<(string, int)>, m: nat)
    requires m <= |sorted| && SortedByTime(sorted) && DistinctNames(sorted)
    ensures SortedByTime(sorted[..m]) && DistinctNames(sorted[..m])
  {
    assert forall i :: 0 <= i < m ==> sorted[..m][i] == sorted[i];
  }

  /** Every entry of `totals`, once, sorted and cut, is its top `n`. */
  lemma TopOfSorted(totals: map<string, int>, sorted: seq<(string, int)>, n: nat)
    requires SortedByTime(sorted) && |sorted| == |totals|
    requires forall k :: 0 <= k < |sorted| ==> sorted[k].0 in totals && sorted[k].1 == totals[sorted[k].0]
    requires forall a :: a in totals ==> (a, totals[a]) in sorted
    requires DistinctNames(sorted)
    ensures IsTop(sorted[..if |sorted| < n then |sorted| else n], totals, n)
  {
    var m := if |sorted| < n then |sorted| else n;
    PrefixNotLarger(totals, sorted, m);
    PrefixKeepsOrder(sorted, m);
  }

  /** The entries of `totals`, largest first, cut to the first `n`. */
  method TopApps(totals: map<string, int>, n: nat) returns (top: seq<(string, int)>)
    ensures IsTop(top, totals, n)
  {
    var names := Enumerate(totals.Keys);
    var entries := seq(|names|, i requires 0 <= i < |names| => (names[i], totals[names[i]]));
    var sorted := SortByTime(entries);
    assert DistinctNames(entries);
    forall k | 0 <= k < |sorted| ensures sorted[k].0 in totals && sorted[k].1 == totals[sorted[k].0] {
      assert sorted[k] in multiset(entries);
    }
    forall a | a in totals ensures (a, totals[a]) in sorted {
      var j :| 0 <= j < |names| && names[j] == a;
      assert entries[j] == (a, totals[a]);
      assert (a, totals[a]) in multiset(sorted);
    }
    TopOfSorted(totals, sorted, n);
    top := sorted[..if |sorted| < n then |sorted| else n];
  }
}

=== FILE: stats.dfy ===
/**
 * `aggregateStats` of src/database.js: the per-application rollup of a day's sessions, with a
 * per-domain breakdown, and `getSummary`, the multi-day tally over the most recent day files.
 */
module Stats {
  import opened Basics
  import opened Text
  import opened Sums
  import opened Store

  /** The most titles a domain entry keeps. */
  const TitleCap := 3

  datatype DomainStats = DomainStats(totalTime: int, visits: nat, titles: seq<string>)

  datatype AppStats = AppStats(totalTime: int, sessions: nat, lastUsed: string, domains: map<string, DomainStats>)

  type Stats = map<string, AppStats>

  // ---------------------------------------------------------------------------------------
  // The fold, one session at a time.

  /** A title joins the list while the list is short and does not already hold it. */
  function AddTitle(titles: seq<string>, t: string): seq<string> {
    if |titles| < TitleCap && t !in titles then titles + [t] else titles
  }

  /** The domain part of one session: only a truthy domain creates or updates an entry. */
  function AddDomain(doms: map<string, DomainStats>, s: Session): map<string, DomainStats> {
    if Truthy(s.domain) then
      var d := s.domain.value;
      var e := if d in doms then doms[d] else DomainStats(0, 0, []);
      doms[d := DomainStats(e.totalTime + s.duration, e.visits + 1, AddTitle(e.titles, s.title))]
    else doms
  }

  /**
   * One step of `sessions.forEach`: a first session of an application opens its entry with
   * its own timestamp as `lastUsed`; a later timestamp that compares greater replaces it.
   */
  function AddSession(stats: Stats, s: Session): Stats {
    var e := if s.app in stats then stats[s.app] else AppStats(0, 0, s.timestamp, map[]);
    var last := if Less(e.lastUsed, s.timestamp) then s.timestamp else e.lastUsed;
    stats[s.app := AppStats(e.totalTime + s.duration, e.sessions + 1, last, AddDomain(e.domains, s))]
  }

  /** Some session of `ss` belongs to application `a`. */
  predicate HasApp(ss: seq<Session>, a: string) {
    exists i :: 0 <= i < |ss| && ss[i].app == a
  }

  lemma HasAppSnoc(ss: seq<Session>, a: string)
    requires |ss| > 0
    ensures HasApp(ss, a) <==> HasApp(ss[..|ss| - 1], a) || ss[|ss| - 1].app == a
  {
    var init := ss[..|ss| - 1];
    if HasApp(ss, a) {
      var i :| 0 <= i < |ss| && ss[i].app == a;
      if i < |init| {
        assert init[i] == ss[i];
      }
    }
    if HasApp(init, a) {
      var i :| 0 <= i < |init| && init[i].app == a;
      assert ss[i] == init[i];
    }
  }

  /** `aggregateStats(sessions)`: one entry for each application that occurs in the sessions. */
  function Aggregate(ss: seq<Session>): (r: Stats)
    ensures forall a :: a in r <==> HasApp(ss, a)
  {
    if |ss| == 0 then map[]
    else
      assert forall a :: HasApp(ss, a) <==> HasApp(ss[..|ss| - 1], a) || ss[|ss| - 1].app == a by {
        forall a ensures HasApp(ss, a) <==> HasApp(ss[..|ss| - 1], a) || ss[|ss| - 1].app == a {
          HasAppSnoc(ss, a);
        }
      }
      AddSession(Aggregate(ss[..|ss| - 1]), ss[|ss| - 1])
  }

  /** `getStatsByDate(date)`: the rollup of whatever `getDataByDate` reads for that day. */
  function GetStatsByDate(dir: Dir, date: string): Stats {
    Aggregate(GetDataByDate(dir, date).sessions)
  }

  // ---------------------------------------------------------------------------------------
  // Reference definitions, one question at a time.

  /** The sum of all durations. */
  function TotalDuration(ss: seq<Session>): int {
    if |ss| == 0 then 0 else TotalDuration(ss[..|ss| - 1]) + ss[|ss| - 1].duration
  }

  /** The sum of the durations of the sessions of application `a`. */
  function AppTime(ss: seq<Session>, a: string): int {
    if |ss| == 0 then 0
    else AppTime(ss[..|ss| - 1], a) + (if ss[|ss| - 1].app == a then ss[|ss| - 1].duration else 0)
  }

  /** The number of sessions of application `a`. */
  function AppCount(ss: seq<Session>, a: string): nat {
    if |ss| == 0 then 0
    else AppCount(ss[..|ss| - 1], a) + (if ss[|ss| - 1].app == a then 1 else 0)
  }

  /** A session of application `a` that carries the truthy domain `d`. */
  predicate OnDomain(s: Session, a: string, d: string) {
    s.app == a && Truthy(s.domain) && s.domain.value == d
  }

  function DomainTime(ss: seq<Session>, a: string, d: string): int {
    if |ss| == 0 then 0
    else DomainTime(ss[..|ss| - 1], a, d) + (if OnDomain(ss[|ss| - 1], a, d) then ss[|ss| - 1].duration else 0)
  }

  function DomainVisits(ss: seq<Session>, a: string, d: string): nat {
    if |ss| == 0 then 0
    else DomainVisits(ss[..|ss| - 1], a, d) + (if OnDomain(ss[|ss| - 1], a, d) then 1 else 0)
  }

  /** The titles of the sessions of `a` on `d`, in session order, repeats included. */
  function DomainTitles(ss: seq<Session>, a: string, d: string): seq<string> {
    if |ss| == 0 then []
    else DomainTitles(ss[..|ss| - 1], a, d) + (if OnDomain(ss[|ss| - 1], a, d) then [ss[|ss| - 1].title] else [])
  }

  /** The first occurrence of every element, in order of first appearance. */
  function Distinct(xs: seq<string>): (r: seq<string>)
    ensures forall x :: x in r <==> x in xs
    ensures forall i, j :: 0 <= i < j < |r| ==> r[i] != r[j]
  {
    if |xs| == 0 then []
    else
      var d := Distinct(xs[..|xs| - 1]);
      assert forall x :: x in xs <==> x in xs[..|xs| - 1] || x == xs[|xs| - 1] by {
        assert xs == xs[..|xs| - 1] + [xs[|xs| - 1]];
      }
      if xs[|xs| - 1] in d then d else d + [xs[|xs| - 1]]
  }

  function Take(xs: seq<string>, n: nat): (r: seq<string>)
    ensures |r| <= n && |r| <= |xs| && r == xs[..|r|]
    ensures |xs| <= n ==> r == xs
  {
    if |xs| <= n then xs else xs[..n]
  }

  // ---------------------------------------------------------------------------------------
  // What the rollup holds.

  /** Each application's `totalTime` and `sessions` are its duration sum and its session count. */
  lemma {:induction false} AggregateApp(ss: seq<Session>, a: string)
    ensures a in Aggregate(ss) ==>
      Aggregate(ss)[a].totalTime == AppTime(ss, a) && Aggregate(ss)[a].sessions == AppCount(ss, a)
    ensures a !in Aggregate(ss) ==> AppTime(ss, a) == 0 && AppCount(ss, a) == 0
    decreases |ss|
  {
    if |ss| > 0 {
      AggregateApp(ss[..|ss| - 1], a);
    }
  }

  /** `lu` is one of the timestamps of application `a`, and none of them compares greater. */
  predicate IsLatest(ss: seq<Session>, a: string, lu: string) {
    && (exists i :: 0 <= i < |ss| && ss[i].app == a && ss[i].timestamp == lu)
    && (forall i :: 0 <= i < |ss| && ss[i].app == a ==> AtLeast(lu, ss[i].timestamp))
  }

  lemma LatestOther(ss: seq<Session>, a: string, lu: string)
    requires |ss| > 0 && ss[|ss| - 1].app != a
    requires IsLatest(ss[..|ss| - 1], a, lu)
    ensures IsLatest(ss, a, lu)
  {
    var init := ss[..|ss| - 1];
    var j :| 0 <= j < |init| && init[j].app == a && init[j].timestamp == lu;
    assert ss[j] == init[j];
    forall i | 0 <= i < |ss| && ss[i].app == a ensures AtLeast(lu, ss[i].timestamp) {
      assert i < |init|;
      assert ss[i] == init[i];
    }
  }

  lemma LatestFirst(ss: seq<Session>, a: string)
    requires |ss| > 0 && ss[|ss| - 1].app == a
    requires !HasApp(ss[..|ss| - 1], a)
    ensures IsLatest(ss, a, ss[|ss| - 1].timestamp)
  {
    var init := ss[..|ss| - 1];
    LessIrreflexive(ss[|ss| - 1].timestamp);
    assert forall i :: 0 <= i < |init| ==> ss[i] == init[i] && init[i].app != a;
    forall i | 0 <= i < |ss| && ss[i].app == a ensures AtLeast(ss[|ss| - 1].timestamp, ss[i].timestamp) {
      assert i == |ss| - 1;
    }
  }

  lemma LatestGrow(ss: seq<Session>, a: string, prev: string)
    requires |ss| > 0 && ss[|ss| - 1].app == a
    requires IsLatest(ss[..|ss| - 1], a, prev)
    ensures var t := ss[|ss| - 1].timestamp;
      IsLatest(ss, a, if Less(prev, t) then t else prev)
  {
    var init := ss[..|ss| - 1];
    var t := ss[|ss| - 1].timestamp;
    LessIrreflexive(t);
    if Less(prev, t) {
      LessAsymmetric(prev, t);
      forall i | 0 <= i < |ss| && ss[i].app == a ensures AtLeast(t, ss[i].timestamp) {
        if i < |init| {
          assert init[i] == ss[i];
          AtLeastTransitive(t, prev, ss[i].timestamp);
        }
      }
    } else {
      var j :| 0 <= j < |init| && init[j].app == a && init[j].timestamp == prev;
      assert ss[j] == init[j];
      forall i | 0 <= i < |ss| && ss[i].app == a ensures AtLeast(prev, ss[i].timestamp) {
        if i < |init| {
          assert init[i] == ss[i];
        }
      }
    }
  }

  /** Each application's `lastUsed` is one of its timestamps, and no timestamp of it compares greater. */
  lemma {:induction false} AggregateLastUsed(ss: seq<Session>, a: string)
    requires a in Aggregate(ss)
    ensures exists i :: 0 <= i < |ss| && ss[i].app == a && ss[i].timestamp == Aggregate(ss)[a].lastUsed
    ensures forall i :: 0 <= i < |ss| && ss[i].app == a ==> AtLeast(Aggregate(ss)[a].lastUsed, ss[i].timestamp)
    decreases |ss|
  {
    var init := ss[..|ss| - 1];
    var s := ss[|ss| - 1];
    var st := Aggregate(init);
    assert Aggregate(ss) == AddSession(st, s);
    if s.app != a {
      AggregateLastUsed(init, a);
      LatestOther(ss, a, st[a].lastUsed);
    } else if a !in st {
      LatestFirst(ss, a);
    } else {
      AggregateLastUsed(init, a);
      LatestGrow(ss, a, st[a].lastUsed);
    }
    assert IsLatest(ss, a, Aggregate(ss)[a].lastUsed);
  }

  /** A title list that is the capped distinct prefix stays so when one more title arrives. */
  lemma AddTitleTakesDistinct(xs: seq<string>, t: string)
    ensures AddTitle(Take(Distinct(xs), TitleCap), t) == Take(Distinct(xs + [t]), TitleCap)
  {
    assert (xs + [t])[..|xs + [t]| - 1] == xs;
    var d := Distinct(xs);
    var d' := Distinct(xs + [t]);
    if |d| < TitleCap {
      assert Take(d, TitleCap) == d;
    } else {
      assert d'[..TitleCap] == d[..TitleCap];
    }
  }

  /**
   * The domain entries of one application agree with the sessions on domain `d`: an entry
   * exists exactly when a session of the application carries `d`; its `totalTime` and
   * `visits` sum over those sessions, and its titles are the first three distinct titles in
   * order of first appearance.
   */
  predicate DomainsMatch(doms: map<string, DomainStats>, ss: seq<Session>, a: string, d: string) {
    && (d in doms <==> DomainVisits(ss, a, d) > 0)
    && (d in doms ==>
          doms[d] == DomainStats(DomainTime(ss, a, d), DomainVisits(ss, a, d),
                                 Take(Distinct(DomainTitles(ss, a, d)), TitleCap)))
  }

  /** Visits and titles of a domain go together, and no visit means no time. */
  lemma {:induction false} VisitsAndTitles(ss: seq<Session>, a: string, d: string)
    ensures |DomainTitles(ss, a, d)| == DomainVisits(ss, a, d)
    ensures DomainVisits(ss, a, d) == 0 ==> DomainTime(ss, a, d) == 0
    decreases |ss|
  {
    if |ss| > 0 {
      VisitsAndTitles(ss[..|ss| - 1], a, d);
    }
  }

  /** A session of another application leaves the domain references of `a` where they were. */
  lemma DomainsMatchOther(doms: map<string, DomainStats>, ss: seq<Session>, a: string, d: string)
    requires |ss| > 0 && ss[|ss| - 1].app != a
    requires DomainsMatch(doms, ss[..|ss| - 1], a, d)
    ensures DomainsMatch(doms, ss, a, d)
  {
    var init := ss[..|ss| - 1];
    assert DomainTitles(ss, a, d) == DomainTitles(init, a, d) + [];
    assert DomainTitles(init, a, d) + [] == DomainTitles(init, a, d);
  }

  /** The entry a domain starts from, read off the references of the earlier sessions. */
  lemma EntryBefore(doms: map<string, DomainStats>, ss: seq<Session>, a: string, d: string)
    requires DomainsMatch(doms, ss, a, d)
    ensures (if d in doms then doms[d] else DomainStats(0, 0, []))
            == DomainStats(DomainTime(ss, a, d), DomainVisits(ss, a, d),
                           Take(Distinct(DomainTitles(ss, a, d)), TitleCap))
  {
    VisitsAndTitles(ss, a, d);
    if d !in doms {
      assert DomainTitles(ss, a, d) == [];
    }
  }

  lemma UnfoldDomainRefs(ss: seq<Session>, a: string, d: string)
    requires |ss| > 0
    ensures var init := ss[..|ss| - 1];
      var s := ss[|ss| - 1];
      && DomainTime(ss, a, d) == DomainTime(init, a, d) + (if OnDomain(s, a, d) then s.duration else 0)
      && DomainVisits(ss, a, d) == DomainVisits(init, a, d) + (if OnDomain(s, a, d) then 1 else 0)
      && DomainTitles(ss, a, d) == DomainTitles(init, a, d) + (if OnDomain(s, a, d) then [s.title] else [])
  {
  }

  /** One session of `a` moves its domain entries along with the references. */
  lemma DomainsMatchStep(doms: map<string, DomainStats>, ss: seq<Session>, a: string, d: string)
    requires |ss| > 0 && ss[|ss| - 1].app == a
    requires DomainsMatch(doms, ss[..|ss| - 1], a, d)
    ensures DomainsMatch(AddDomain(doms, ss[|ss| - 1]), ss, a, d)
  {
    var init := ss[..|ss| - 1];
    var s := ss[|ss| - 1];
    UnfoldDomainRefs(ss, a, d);
    if OnDomain(s, a, d) {
      DomainsMatchOn(doms, init, s, a, d);
    } else {
      var titles := DomainTitles(init, a, d);
      assert titles + [] == titles;
      assert d in AddDomain(doms, s) <==> d in doms;
      assert d in doms ==> AddDomain(doms, s)[d] == doms[d];
    }
  }

  lemma DomainsMatchOn(doms: map<string, DomainStats>, init: seq<Session>, s: Session, a: string, d: string)
    requires OnDomain(s, a, d)
    requires DomainsMatch(doms, init, a, d)
    ensures var e := DomainStats(DomainTime(init, a, d) + s.duration, DomainVisits(init, a, d) + 1,
                                 Take(Distinct(DomainTitles(init, a, d) + [s.title]), TitleCap));
      d in AddDomain(doms, s) && AddDomain(doms, s)[d] == e
  {
    EntryBefore(doms, init, a, d);
    AddTitleTakesDistinct(DomainTitles(init, a, d), s.title);
  }

  /** An application with no session has no domain visits either. */
  lemma {:induction false} NoDomainBeforeApp(ss: seq<Session>, a: string, d: string)
    requires a !in Aggregate(ss)
    ensures DomainsMatch(map[], ss, a, d)
    decreases |ss|
  {
    if |ss| > 0 {
      var init := ss[..|ss| - 1];
      HasAppSnoc(ss, a);
      NoDomainBeforeApp(init, a, d);
    }
  }

  /** The domain breakdown of every application agrees with its sessions. */
  lemma {:induction false} AggregateDomain(ss: seq<Session>, a: string, d: string)
    requires a in Aggregate(ss)
    ensures DomainsMatch(Aggregate(ss)[a].domains, ss, a, d)
    decreases |ss|
  {
    var init := ss[..|ss| - 1];
    var s := ss[|ss| - 1];
    var st := Aggregate(init);
    assert Aggregate(ss) == AddSession(st, s);
    var prevDoms: map<string, DomainStats> := if a in st then st[a].domains else map[];
    if a in st {
      AggregateDomain(init, a, d);
    } else {
      NoDomainBeforeApp(init, a, d);
    }
    if s.app == a {
      assert Aggregate(ss)[a].domains == AddDomain(prevDoms, s);
      DomainsMatchStep(prevDoms, ss, a, d);
    } else {
      assert Aggregate(ss)[a].domains == prevDoms;
      DomainsMatchOther(prevDoms, ss, a, d);
    }
  }

  /** With no negative duration, a domain's time is part of its application's time. */
  lemma {:induction false} DomainWithinApp(ss: seq<Session>, a: string, d: string)
    requires forall i :: 0 <= i < |ss| ==> ss[i].duration >= 0
    ensures DomainTime(ss, a, d) <= AppTime(ss, a)
    ensures DomainVisits(ss, a, d) <= AppCount(ss, a)
    decreases |ss|
  {
    if |ss| > 0 {
      DomainWithinApp(ss[..|ss| - 1], a, d);
    }
  }

  // ---------------------------------------------------------------------------------------
  // Global sums over the rollup.

  function Totals(stats: Stats): map<string, int> {
    map a | a in stats :: stats[a].totalTime
  }

  function Counts(stats: Stats): map<string, int> {
    map a | a in stats :: stats[a].sessions as int
  }

  lemma TotalsStep(st: Stats, s: Session)
    ensures Totals(AddSession(st, s))
            == Totals(st)[s.app := (if s.app in st then st[s.app].totalTime else 0) + s.duration]
  {
  }

  lemma CountsStep(st: Stats, s: Session)
    ensures Counts(AddSession(st, s))
            == Counts(st)[s.app := (if s.app in st then st[s.app].sessions as int else 0) + 1]
  {
  }

  /** One session adds its duration to the sum of the totals and one to the sum of the counts. */
  lemma SumsStep(st: Stats, s: Session)
    ensures SumValues(Totals(AddSession(st, s))) == SumValues(Totals(st)) + s.duration
    ensures SumValues(Counts(AddSession(st, s))) == SumValues(Counts(st)) + 1
  {
    var t := Totals(st);
    var c := Counts(st);
    TotalsStep(st, s);
    CountsStep(st, s);
    SumValuesUpdate(t, s.app, (if s.app in st then st[s.app].totalTime else 0) + s.duration);
    SumValuesUpdate(c, s.app, (if s.app in st then st[s.app].sessions as int else 0) + 1);
  }

  /** The application totals add up to all durations, and the counts to the number of sessions. */
  lemma {:induction false} AggregateSums(ss: seq<Session>)
    ensures SumValues(Totals(Aggregate(ss))) == TotalDuration(ss)
    ensures SumValues(Counts(Aggregate(ss))) == |ss|
    decreases |ss|
  {
    if |ss| == 0 {
      assert Totals(Aggregate(ss)) == map[];
      assert Counts(Aggregate(ss)) == map[];
    } else {
      var init := ss[..|ss| - 1];
      var s := ss[|ss| - 1];
      AggregateSums(init);
      assert Aggregate(ss) == AddSession(Aggregate(init), s);
      SumsStep(Aggregate(init), s);
    }
  }

  /** The first session of the one-day example opens the editor's entry. */
  lemma EditorFirst()
    ensures Aggregate([Session("Editor", "a", None, 120, "t1")]) == map["Editor" := AppStats(120, 1, "t1", map[])]
  {
    var s1 := Session("Editor", "a", None, 120, "t1");
    assert [s1][..0] == [];
    LessIrreflexive("t1");
  }

  /** The browser session of the one-day example opens its entry with one domain. */
  lemma BrowserSecond()
    ensures Aggregate([Session("Editor", "a", None, 120, "t1"), Session("Browser", "b", Some("video.example"), 60, "t2")])
      == map["Editor" := AppStats(120, 1, "t1", map[]),
             "Browser" := AppStats(60, 1, "t2", map["video.example" := DomainStats(60, 1, ["b"])])]
  {
    var s1 := Session("Editor", "a", None, 120, "t1");
    var s2 := Session("Browser", "b", Some("video.example"), 60, "t2");
    assert [s1, s2][..1] == [s1];
    EditorFirst();
    assert AddTitle([], "b") == ["b"];
    assert AddDomain(map[], s2) == map["video.example" := DomainStats(60, 1, ["b"])];
    LessIrreflexive("t2");
  }

  /**
   * An illustration of `Aggregate`'s contract on one day: two editor sessions and one browser
   * session on a video site.
   */
  lemma EditorAndBrowserDay()
    ensures var agg := Aggregate([
        Session("Editor", "a", None, 120, "t1"),
        Session("Browser", "b", Some("video.example"), 60, "t2"),
        Session("Editor", "c", None, 30, "t3")]);
      && agg.Keys == {"Editor", "Browser"}
      && agg["Editor"] == AppStats(150, 2, "t3", map[])
      && agg["Browser"] == AppStats(60, 1, "t2", map["video.example" := DomainStats(60, 1, ["b"])])
  {
    var s1 := Session("Editor", "a", None, 120, "t1");
    var s2 := Session("Browser", "b", Some("video.example"), 60, "t2");
    var s3 := Session("Editor", "c", None, 30, "t3");
    var ss := [s1, s2, s3];
    assert ss[..2] == [s1, s2];
    BrowserSecond();
    assert Less("t1", "t3");
  }

  // ---------------------------------------------------------------------------------------
  // `getSummary(days)`

  datatype Summary = Summary(totalTime: int, totalSessions: nat, appUsage: map<string, int>, daysTracked: nat)

  /** JavaScript `xs.slice(0, n)`: a negative `n` counts from the end. */
  function SliceTo(xs: seq<string>, n: int): (r: seq<string>)
    ensures |r| <= |xs| && r == xs[..|r|]
    ensures n >= 0 ==> |r| == if n < |xs| then n else |xs|
    ensures n < 0 ==> |r| == if |xs| + n > 0 then |xs| + n else 0
  {
    if n >= 0 then (if n < |xs| then xs[..n] else xs)
    else if |xs| + n > 0 then xs[..|xs| + n] else []
  }

  /** The sessions of the given days, day after day, as `getDataByDate` reads them. */
  function SessionsOf(dir: Dir, dates: seq<string>): seq<Session> {
    if |dates| == 0 then []
    else SessionsOf(dir, dates[..|dates| - 1]) + GetDataByDate(dir, dates[|dates| - 1]).sessions
  }

  /**
   * The loop of `getSummary` over the listed dates: over the first `days` of them, the sum of
   * all durations, the number of sessions and the time per application.
   */
  method Summarize(dir: Dir, dates: seq<string>, days: int) returns (r: Summary)
    ensures var recent := SliceTo(dates, days);
      var all := SessionsOf(dir, recent);
      && r.daysTracked == |recent|
      && r.totalSessions == |all|
      && r.totalTime == TotalDuration(all)
      && (forall a :: a in r.appUsage <==> HasApp(all, a))
      && (forall a :: a in r.appUsage ==> r.appUsage[a] == AppTime(all, a))
    ensures r.totalTime == SumValues(r.appUsage)
  {
    var recent := SliceTo(dates, days);
    var all := SessionsOf(dir, recent);
    var total := 0;
    var usage: map<string, int> := map[];
    var k := 0;
    while k < |all|
      invariant 0 <= k <= |all|
      invariant total == TotalDuration(all[..k])
      invariant usage == Totals(Aggregate(all[..k]))
    {
      SummaryStep(all, k);
      usage := AddUsage(usage, all[k]);
      total := total + all[k].duration;
      k := k + 1;
    }
    assert all[..k] == all;
    AggregateSums(all);
    forall a | a in usage ensures usage[a] == AppTime(all, a) {
      AggregateApp(all, a);
    }
    r := Summary(total, |all|, usage, |recent|);
  }

  /**
   * One session of the `getSummary` loop: an application whose running time is missing or 0
   * starts at 0, then the duration is added.
   */
  function AddUsage(usage: map<string, int>, s: Session): map<string, int> {
    var base := if s.app !in usage || usage[s.app] == 0 then usage[s.app := 0] else usage;
    base[s.app := base[s.app] + s.duration]
  }

  /** The `getSummary` loop keeps the same per-application times as `aggregateStats`. */
  lemma AddUsageTotals(st: Stats, s: Session)
    ensures AddUsage(Totals(st), s) == Totals(AddSession(st, s))
  {
    TotalsStep(st, s);
  }

  lemma SummaryStep(all: seq<Session>, k: nat)
    requires k < |all|
    ensures AddUsage(Totals(Aggregate(all[..k])), all[k]) == Totals(Aggregate(all[..k + 1]))
    ensures TotalDuration(all[..k + 1]) == TotalDuration(all[..k]) + all[k].duration
  {
    assert all[..k + 1][..k] == all[..k];
    AddUsageTotals(Aggregate(all[..k]), all[k]);
  }

  /**
   * `getSummary(days)`: `Summarize` over what `getAvailableDates` lists. It tracks
   * `min(days, number of day files)` days, and nothing at all when the directory cannot be listed.
   */
  method GetSummary(dir: Dir, days: int, listOk: bool) returns (dates: seq<string>, r: Summary)
    ensures !listOk ==> dates == []
    ensures SortedDesc(dates)
    ensures listOk ==> |dates| == |JsonFiles(dir)|
    ensures listOk ==> forall d :: d in dates <==> exists f :: f in dir && EndsWith(f, Suffix) && DateOf(f) == d
    ensures listOk ==> forall d :: multiset(dates)[d] == |FilesOfDate(dir, d)|
    ensures var recent := SliceTo(dates, days);
      var all := SessionsOf(dir, recent);
      && r.daysTracked == |recent|
      && r.totalSessions == |all|
      && r.totalTime == TotalDuration(all)
      && (forall a :: a in r.appUsage <==> HasApp(all, a))
      && (forall a :: a in r.appUsage ==> r.appUsage[a] == AppTime(all, a))
    ensures listOk && days >= 0 ==>
      r.daysTracked == if days < |JsonFiles(dir)| then days else |JsonFiles(dir)|
    ensures !listOk ==> r == Summary(0, 0, map[], 0)
    ensures r.totalTime == SumValues(r.appUsage)
  {
    dates := GetAvailableDates(dir, listOk);
    r := Summarize(dir, dates, days);
    if !listOk {
      assert SessionsOf(dir, SliceTo(dates, days)) == [];
      assert r.appUsage == map[];
    }
  }
}

=== FILE: store.dfy ===
/**
 * The day-record store of src/database.js. The data directory is a map from file names to
 * their contents; a day's sessions live in the file named after the day (`<date>.json`).
 * A file whose text is not JSON is `Unparsable`; every file that parses holds a day record.
 */
module Store {
  import opened Basics
  import opened Text

  /** One recorded session: what the monitor hands over, with its timestamp filled in. */
  datatype Session = Session(app: string, title: string, domain: Option<string>, duration: int, timestamp: string)

  /** The content of one day file: `{ sessions, date }`. */
  datatype DayRecord = DayRecord(sessions: seq<Session>, date: string)

  datatype FileContent = Parsed(record: DayRecord) | Unparsable

  type Dir = map<string, FileContent>

  /** The argument of `saveSession`: `timestamp` and `date` may be absent or empty. */
  datatype SessionInput = SessionInput(
    app: string, title: string, domain: Option<string>, duration: int,
    timestamp: Option<string>, date: Option<string>)

  const Suffix := ".json"

  /** `getFilePath(date)`, without the directory part. */
  function FileName(date: string): (f: string)
    ensures EndsWith(f, Suffix) && StartsWith(f, date) && |f| == |date| + |Suffix|
  {
    date + Suffix
  }

  lemma FileNameInjective(a: string, b: string)
    requires FileName(a) == FileName(b)
    ensures a == b
  {
    assert a == FileName(a)[..|a|];
  }

  /** `file.replace('.json', '')`: the date a file name stands for. */
  function DateOf(f: string): string {
    ReplaceFirst(f, Suffix, "")
  }

  /**
   * A date with no `.json` inside it is read back from its file name: `.json` cannot start
   * inside the date and run into the suffix, because `.` occurs only at its start.
   */
  lemma DateOfFileName(date: string)
    requires !Contains(date, Suffix)
    ensures DateOf(FileName(date)) == date
  {
    var f := FileName(date);
    assert IsAt(f, Suffix, |date|);
    forall j: nat | j < |date| ensures !IsAt(f, Suffix, j) {
      if j + |Suffix| <= |date| {
        if IsAt(f, Suffix, j) {
          assert date[j..j + |Suffix|] == f[j..j + |Suffix|];
          assert IsAt(date, Suffix, j);
        }
      } else {
        assert f[|date|] == '.';
        assert f[j..j + |Suffix|][|date| - j] == f[|date|];
        assert Suffix[|date| - j] != '.';
      }
    }
    assert f[..|date|] == date;
  }

  /** `getDataByDate(date)`: the stored record, or an empty one when the file is missing or unreadable. */
  function GetDataByDate(dir: Dir, date: string): (r: DayRecord)
    ensures FileName(date) !in dir ==> r == DayRecord([], date)
    ensures FileName(date) in dir && dir[FileName(date)].Unparsable? ==> r == DayRecord([], date)
    ensures FileName(date) in dir && dir[FileName(date)].Parsed? ==> r == dir[FileName(date)].record
  {
    var f := FileName(date);
    if f in dir && dir[f].Parsed? then dir[f].record else DayRecord([], date)
  }

  /** The session `saveSession` appends for `input`, stamped `nowIso` when it has no timestamp. */
  function Entry(input: SessionInput, nowIso: string): (s: Session)
    ensures s.app == input.app && s.title == input.title && s.domain == input.domain
    ensures s.duration == input.duration
    ensures s.timestamp == OrElse(input.timestamp, nowIso)
  {
    Session(input.app, input.title, input.domain, input.duration, OrElse(input.timestamp, nowIso))
  }

  /** The day `saveSession` files `input` under: its own date, or today when it has none. */
  function DayOf(input: SessionInput, today: string): string {
    OrElse(input.date, today)
  }

  /**
   * `saveSession(input)`: read the day's file (a new record when there is none), append the
   * entry, write the file back. It reports `false` and changes nothing when the file does not
   * parse or the write fails (`writeOk`).
   */
  function SaveSession(dir: Dir, input: SessionInput, today: string, nowIso: string, writeOk: bool): (r: (Dir, bool))
    ensures var day := DayOf(input, today);
      r.1 <==> writeOk && !(FileName(day) in dir && dir[FileName(day)].Unparsable?)
    ensures !r.1 ==> r.0 == dir
    ensures var day := DayOf(input, today);
      r.1 ==> && FileName(day) in r.0 && r.0[FileName(day)].Parsed?
              && GetDataByDate(r.0, day).sessions
                 == GetDataByDate(dir, day).sessions + [Entry(input, nowIso)]
              && GetDataByDate(r.0, day).date == GetDataByDate(dir, day).date
    ensures forall f :: f != FileName(DayOf(input, today)) ==>
      (f in r.0 <==> f in dir) && (f in dir ==> r.0[f] == dir[f])
  {
    var day := DayOf(input, today);
    var f := FileName(day);
    if f in dir && dir[f].Unparsable? then (dir, false)
    else
      var data := if f in dir then dir[f].record else DayRecord([], day);
      var data' := data.(sessions := data.sessions + [Entry(input, nowIso)]);
      if writeOk then (dir[f := Parsed(data')], true) else (dir, false)
  }

  /** Saving under one day leaves what every other day reads unchanged. */
  lemma SaveKeepsOtherDays(dir: Dir, input: SessionInput, today: string, nowIso: string, writeOk: bool, other: string)
    requires other != DayOf(input, today)
    ensures GetDataByDate(SaveSession(dir, input, today, nowIso, writeOk).0, other) == GetDataByDate(dir, other)
  {
    if FileName(other) == FileName(DayOf(input, today)) {
      FileNameInjective(other, DayOf(input, today));
    }
  }

  // ---------------------------------------------------------------------------------------
  // Listing and retention

  /** The names `getAvailableDates` keeps: those ending in `.json`. */
  function JsonFiles(dir: Dir): (fs: set<string>)
    ensures forall f :: f in fs <==> f in dir && EndsWith(f, Suffix)
  {
    set f | f in dir && EndsWith(f, Suffix)
  }

  /** The `.json` files of `dir` whose name stands for `date`. */
  function FilesOfDate(dir: Dir, date: string): (fs: set<string>)
    ensures forall f :: f in fs <==> f in dir && EndsWith(f, Suffix) && DateOf(f) == date
  {
    set f | f in dir && EndsWith(f, Suffix) && DateOf(f) == date
  }

  /** The date of every file of `files`, in the same order. */
  function DatesOf(files: seq<string>): (ds: seq<string>)
    ensures |ds| == |files|
    ensures forall i :: 0 <= i < |files| ==> ds[i] == DateOf(files[i])
  {
    seq(|files|, i requires 0 <= i < |files| => DateOf(files[i]))
  }

  /** The files of `files` that stand for `date`. */
  function ListedForDate(files: seq<string>, date: string): (fs: set<string>)
    ensures forall f :: f in fs <==> f in files && DateOf(f) == date
  {
    set f | f in files && DateOf(f) == date
  }

  lemma ListedForDateSnoc(init: seq<string>, last: string, date: string)
    ensures ListedForDate(init + [last], date)
         == ListedForDate(init, date) + (if DateOf(last) == date then {last} else {})
  {
  }

  lemma DatesOfSnoc(init: seq<string>, last: string)
    ensures DatesOf(init + [last]) == DatesOf(init) + [DateOf(last)]
  {
  }

  /** Listing different files, a date occurs once per file that stands for it. */
  lemma {:induction false} DatesOfCount(files: seq<string>, date: string)
    requires NoRepeats(files)
    ensures multiset(DatesOf(files))[date] == |ListedForDate(files, date)|
  {
    if |files| > 0 {
      var init, last := files[..|files| - 1], files[|files| - 1];
      assert files == init + [last];
      assert NoRepeats(init);
      assert last !in init;
      DatesOfCount(init, date);
      DatesOfSnoc(init, last);
      ListedForDateSnoc(init, last, date);
    }
  }

  /** The names of a set in some order, each once. */
  method Enumerate(names: set<string>) returns (s: seq<string>)
    ensures |s| == |names|
    ensures forall f :: f in s <==> f in names
    ensures forall i, j :: 0 <= i < j < |s| ==> s[i] != s[j]
  {
    s := [];
    var left := names;
    while left != {}
      invariant left !! set f | f in s
      invariant left + (set f | f in s) == names
      invariant |s| + |left| == |names|
      invariant forall i, j :: 0 <= i < j < |s| ==> s[i] != s[j]
      decreases |left|
    {
      var f :| f in left;
      assert f !in s;
      s := s + [f];
      left := left - {f};
    }
    assert forall f :: f in s <==> f in names;
  }

  /**
   * `getAvailableDates()`: the `.json` names with `.json` removed, in descending string order
   * (`sort()` then `reverse()`); nothing when the directory cannot be listed (`listOk`).
   */
  method GetAvailableDates(dir: Dir, listOk: bool) returns (dates: seq<string>)
    ensures !listOk ==> dates == []
    ensures SortedDesc(dates)
    ensures listOk ==> |dates| == |JsonFiles(dir)|
    ensures listOk ==> forall d :: d in dates <==> exists f :: f in dir && EndsWith(f, Suffix) && DateOf(f) == d
    ensures listOk ==> forall d :: multiset(dates)[d] == |FilesOfDate(dir, d)|
  {
    if !listOk {
      return [];
    }
    var files := Enumerate(JsonFiles(dir));
    var ds := DatesOf(files);
    dates := SortDesc(ds);
    ListingDates(dir, files);
    forall d ensures d in dates <==> d in ds {
      assert d in dates <==> d in multiset(ds);
    }
  }

  /** The dates of a listing of the `.json` files of `dir`: one per file, so each as often as it has files. */
  lemma ListingDates(dir: Dir, files: seq<string>)
    requires NoRepeats(files)
    requires forall f :: f in files <==> f in JsonFiles(dir)
    ensures forall d :: d in DatesOf(files) <==> exists f :: f in dir && EndsWith(f, Suffix) && DateOf(f) == d
    ensures forall d :: multiset(DatesOf(files))[d] == |FilesOfDate(dir, d)|
  {
    var ds := DatesOf(files);
    forall d ensures d in ds <==> exists f :: f in dir && EndsWith(f, Suffix) && DateOf(f) == d {
      if d in ds {
        var i :| 0 <= i < |ds| && ds[i] == d;
        assert files[i] in JsonFiles(dir);
      }
      if exists f :: f in dir && EndsWith(f, Suffix) && DateOf(f) == d {
        var f :| f in dir && EndsWith(f, Suffix) && DateOf(f) == d;
        assert f in files;
        var i :| 0 <= i < |files| && files[i] == f;
        assert ds[i] == d;
      }
    }
    forall d ensures multiset(ds)[d] == |FilesOfDate(dir, d)| {
      DatesOfCount(files, d);
      assert ListedForDate(files, d) == FilesOfDate(dir, d);
    }
  }

  /** The names `clearOldData` deletes: every file whose date compares below the cutoff. */
  function Expired(dir: Dir, cutoff: string): (fs: set<string>)
    ensures forall f :: f in fs <==> f in dir && Less(DateOf(f), cutoff)
  {
    set f | f in dir && Less(DateOf(f), cutoff)
  }

  /**
   * The `forEach` of `clearOldData` over the listed names `files`: each name whose date compares
   * below the cutoff is unlinked and counted. `unlinkSync` throws for a name in `failing` (a
   * file the process may not delete) and for a name no longer in the directory; the throw ends
   * the loop with the files deleted so far gone, and no count (`None`).
   */
  function DeleteExpired(dir: Dir, files: seq<string>, cutoff: string, failing: set<string>): (r: (Dir, Option<nat>))
    ensures forall f :: f in r.0 ==> f in dir && r.0[f] == dir[f]
    ensures forall f :: f in dir && f !in r.0 ==> f in files && Less(DateOf(f), cutoff)
    ensures r.1.Some? ==> r.1.value + |r.0| == |dir|
    ensures r.1.Some? ==> forall k :: 0 <= k < |files| && Less(DateOf(files[k]), cutoff) ==> files[k] !in r.0
    ensures r.1.None? <==> FailsSomewhere(dir, files, cutoff, failing)
  {
    if |files| == 0 then (dir, Some(0))
    else
      var f := files[0];
      ExpiredFailureShift(dir, files, cutoff, failing);
      assert files == [f] + files[1..];
      if !Less(DateOf(f), cutoff) then DeleteExpired(dir, files[1..], cutoff, failing)
      else if f in failing || f !in dir then (dir, None)
      else
        var (d, n) := DeleteExpired(dir - {f}, files[1..], cutoff, failing);
        (d, if n.Some? then Some(n.value + 1) else None)
  }

  /**
   * The listed name at index `k` is expired and makes `unlinkSync` throw: it is in `failing`,
   * missing from the directory, or listed before.
   */
  predicate FailsAt(dir: Dir, files: seq<string>, cutoff: string, failing: set<string>, k: int) {
    && 0 <= k < |files| && Less(DateOf(files[k]), cutoff)
    && (files[k] in failing || files[k] !in dir || files[k] in files[..k])
  }

  /** Some listed expired name makes `unlinkSync` throw. */
  predicate FailsSomewhere(dir: Dir, files: seq<string>, cutoff: string, failing: set<string>) {
    exists k :: 0 <= k < |files| && FailsAt(dir, files, cutoff, failing, k)
  }

  /**
   * Past the head, a failure at `k + 1` is one at `k` of the tail, in the directory without the
   * head when the head was expired and deleted.
   */
  lemma FailsAtTail(dir: Dir, files: seq<string>, cutoff: string, failing: set<string>, k: nat)
    requires k + 1 < |files|
    ensures var f, tail := files[0], files[1..];
      var left := if Less(DateOf(f), cutoff) then dir - {f} else dir;
      (Less(DateOf(f), cutoff) ==> f in dir && f !in failing) ==>
        (FailsAt(dir, files, cutoff, failing, k + 1) <==> FailsAt(left, tail, cutoff, failing, k))
  {
    var f, tail := files[0], files[1..];
    assert files[k + 1] == tail[k];
    assert files[..k + 1] == [f] + tail[..k];
  }

  /** How a failure in `files` splits into one at its head and one in its tail. */
  lemma ExpiredFailureShift(dir: Dir, files: seq<string>, cutoff: string, failing: set<string>)
    requires |files| > 0
    ensures var f, tail := files[0], files[1..];
      FailsSomewhere(dir, files, cutoff, failing) <==>
        if !Less(DateOf(f), cutoff) then FailsSomewhere(dir, tail, cutoff, failing)
        else f in failing || f !in dir || FailsSomewhere(dir - {f}, tail, cutoff, failing)
  {
    var f, tail := files[0], files[1..];
    assert files[..0] == [];
    assert FailsAt(dir, files, cutoff, failing, 0) <==> Less(DateOf(f), cutoff) && (f in failing || f !in dir);
    if !Less(DateOf(f), cutoff) || (f in dir && f !in failing) {
      var left := if Less(DateOf(f), cutoff) then dir - {f} else dir;
      if FailsSomewhere(dir, files, cutoff, failing) {
        var k :| 0 <= k < |files| && FailsAt(dir, files, cutoff, failing, k);
        assert k > 0;
        FailsAtTail(dir, files, cutoff, failing, k - 1);
        assert FailsAt(left, tail, cutoff, failing, k - 1);
      }
      if FailsSomewhere(left, tail, cutoff, failing) {
        var k :| 0 <= k < |tail| && FailsAt(left, tail, cutoff, failing, k);
        FailsAtTail(dir, files, cutoff, failing, k);
        assert FailsAt(dir, files, cutoff, failing, k + 1);
      }
    }
  }

  /**
   * `clearOldData(days)` with the cutoff date given and the directory listed as `files`: delete
   * every listed file (of any name) whose name without its first `.json` compares below the
   * cutoff and return how many were deleted. A directory that cannot be listed (`listOk`) is
   * left alone; a failed `unlinkSync` leaves the files deleted before it gone. Both return 0.
   */
  function ClearOldData(dir: Dir, files: seq<string>, cutoff: string, listOk: bool, failing: set<string>): (r: (Dir, nat))
    ensures !listOk ==> r == (dir, 0)
    ensures forall f :: f in r.0 ==> f in dir && r.0[f] == dir[f]
    ensures forall f :: f in dir && f !in r.0 ==> Less(DateOf(f), cutoff)
    ensures r.1 > 0 ==> r.1 + |r.0| == |dir|
    ensures listOk && IsListing(files, dir) && !FailsSomewhere(dir, files, cutoff, failing) ==>
      r == (Kept(dir, cutoff), |Expired(dir, cutoff)|)
    ensures listOk && FailsSomewhere(dir, files, cutoff, failing) ==> r.1 == 0
  {
    if !listOk then (dir, 0)
    else
      var (d, n) := DeleteExpired(dir, files, cutoff, failing);
      CompleteRunKeepsRest(dir, files, cutoff, failing);
      (d, if n.Some? then n.value else 0)
  }

  /** A run over a full listing that no unlink stops leaves exactly the files it should keep. */
  lemma CompleteRunKeepsRest(dir: Dir, files: seq<string>, cutoff: string, failing: set<string>)
    ensures var (d, n) := DeleteExpired(dir, files, cutoff, failing);
      IsListing(files, dir) && n.Some? ==> d == Kept(dir, cutoff) && n.value == |Expired(dir, cutoff)|
  {
    var (d, n) := DeleteExpired(dir, files, cutoff, failing);
    if IsListing(files, dir) && n.Some? {
      var kept := Kept(dir, cutoff);
      forall f | f in dir ensures f in d <==> f in kept {
        if f in d {
          assert !Less(DateOf(f), cutoff) by {
            var k :| 0 <= k < |files| && files[k] == f;
          }
        }
      }
      SameEntries(d, kept, dir);
      KeptAndExpired(dir, cutoff);
    }
  }

  /** Two sub-maps of `dir` with the same names present are equal. */
  lemma SameEntries(a: Dir, b: Dir, dir: Dir)
    requires forall f :: f in a ==> f in dir && a[f] == dir[f]
    requires forall f :: f in b ==> f in dir && b[f] == dir[f]
    requires forall f :: f in dir ==> (f in a <==> f in b)
    ensures a == b
  {
    assert a.Keys == b.Keys;
  }

  /** `files` is what `readdirSync` returns for `dir`: each of its names once. */
  predicate IsListing(files: seq<string>, dir: Dir) {
    && NoRepeats(files)
    && (forall k :: 0 <= k < |files| ==> files[k] in dir)
    && (forall f :: f in dir ==> f in files)
  }

  /** The files `clearOldData` leaves in place. */
  function Kept(dir: Dir, cutoff: string): (kept: Dir)
    ensures forall f :: f in kept <==> f in dir && !Less(DateOf(f), cutoff)
    ensures forall f :: f in kept ==> kept[f] == dir[f]
  {
    map f | f in dir && !Less(DateOf(f), cutoff) :: dir[f]
  }

  /** Every file is either kept or deleted, never both. */
  lemma KeptAndExpired(dir: Dir, cutoff: string)
    ensures |Kept(dir, cutoff)| + |Expired(dir, cutoff)| == |dir|
  {
    var kept, gone := Kept(dir, cutoff).Keys, Expired(dir, cutoff);
    assert kept !! gone;
    assert kept + gone == dir.Keys;
  }

  /**
   * Once a clear has gone through, clearing again with the same cutoff deletes nothing, however
   * the directory is listed the second time and whichever files could not be deleted.
   */
  lemma ClearOldDataIdempotent(dir: Dir, files: seq<string>, cutoff: string, failing: set<string>,
                               again: seq<string>, failingAgain: set<string>)
    requires IsListing(files, dir) && !FailsSomewhere(dir, files, cutoff, failing)
    ensures var (d1, _) := ClearOldData(dir, files, cutoff, true, failing);
      IsListing(again, d1) ==> ClearOldData(d1, again, cutoff, true, failingAgain) == (d1, 0)
  {
    var (d1, _) := ClearOldData(dir, files, cutoff, true, failing);
    if IsListing(again, d1) {
      NothingExpiredLeft(d1, again, cutoff, failingAgain);
    }
  }

  /** A listing of a directory without expired files deletes nothing and counts nothing. */
  lemma {:induction false} NothingExpiredLeft(d: Dir, files: seq<string>, cutoff: string, failing: set<string>)
    requires forall f :: f in files ==> f in d && !Less(DateOf(f), cutoff)
    ensures DeleteExpired(d, files, cutoff, failing) == (d, Some(0))
    ensures ClearOldData(d, files, cutoff, true, failing) == (d, 0)
  {
    if |files| > 0 {
      assert files[0] in files;
      assert forall f :: f in files[1..] ==> f in files;
      NothingExpiredLeft(d, files[1..], cutoff, failing);
    }
  }
}

=== FILE: sums.dfy ===
/**
 * Sums over the values of a map, the mathematical meaning of
 * `Object.values(o).reduce((a, b) => a + b, 0)` on an object used as a dictionary.
 */
module Sums {

  lemma RemoveKeyCard<K>(m: map<K, int>, k: K)
    requires k in m
    ensures |m - {k}| == |m| - 1
  {
    assert (m - {k}).Keys == m.Keys - {k};
  }

  /** Some key of a non-empty map. */
  ghost function PickKey<K>(m: map<K, int>): (k: K)
    requires |m| > 0
    ensures k in m
  {
    var k :| k in m; k
  }

  /** The sum of the values of a map. */
  ghost function SumValues<K>(m: map<K, int>): int
    decreases |m|
  {
    if |m| == 0 then 0
    else
      var k := PickKey(m);
      RemoveKeyCard(m, k);
      m[k] + SumValues(m - {k})
  }

  /** The sum does not depend on which key is taken out first. */
  lemma {:induction false} SumValuesRemove<K>(m: map<K, int>, k: K)
    requires k in m
    ensures SumValues(m) == m[k] + SumValues(m - {k})
    decreases |m|
  {
    var j := PickKey(m);
    if j != k {
      var mj := m - {j};
      var mk := m - {k};
      RemoveKeyCard(m, j);
      RemoveKeyCard(m, k);
      SumValuesRemove(mj, k);
      assert mj - {k} == mk - {j};
      SumValuesRemove(mk, j);
    }
  }

  /** Setting the value of one key changes the sum by the difference. */
  lemma SumValuesUpdate<K>(m: map<K, int>, k: K, v: int)
    ensures SumValues(m[k := v]) == SumValues(m) - (if k in m then m[k] else 0) + v
  {
    var m' := m[k := v];
    SumValuesRemove(m', k);
    UpdateThenRemove(m, k, v);
    if k in m {
      SumValuesRemove(m, k);
    } else {
      assert m - {k} == m;
    }
  }

  lemma UpdateThenRemove<K>(m: map<K, int>, k: K, v: int)
    ensures m[k := v] - {k} == m - {k}
  {
    assert (m[k := v] - {k}).Keys == (m - {k}).Keys;
  }
}

=== FILE: text.dfy ===
/**
 * String operations the JavaScript code relies on: substring search (`includes`, `indexOf`),
 * `split(sep)[0]`, single `replace` with a string pattern, `startsWith`/`endsWith`, ASCII
 * lower-casing, and the code-unit lexicographic order of `<` on strings, with the sort that
 * `Array.prototype.sort` followed by `reverse` performs on strings.
 */
module Text {
  import opened Basics

  /** `pat` occurs in `s` starting at index `i`. */
  predicate IsAt(s: string, pat: string, i: nat) {
    i + |pat| <= |s| && s[i..i + |pat|] == pat
  }

  /** The first occurrence of `pat` in `s` at or after `from` (JavaScript `indexOf(pat, from)`). */
  function IndexFrom(s: string, pat: string, from: nat): (r: Option<nat>)
    decreases |s| - from
    ensures r.Some? ==> from <= r.value && IsAt(s, pat, r.value)
    ensures r.Some? ==> forall j: nat :: from <= j < r.value ==> !IsAt(s, pat, j)
    ensures r.None? ==> forall j: nat :: from <= j ==> !IsAt(s, pat, j)
  {
    if from + |pat| > |s| then None
    else if s[from..from + |pat|] == pat then Some(from)
    else IndexFrom(s, pat, from + 1)
  }

  /** The first occurrence of `pat` in `s` (JavaScript `indexOf`, with `None` for -1). */
  function IndexOf(s: string, pat: string): (r: Option<nat>)
    ensures r.Some? ==> IsAt(s, pat, r.value) && forall j: nat :: j < r.value ==> !IsAt(s, pat, j)
    ensures r.None? <==> forall j: nat :: !IsAt(s, pat, j)
  {
    IndexFrom(s, pat, 0)
  }

  /** JavaScript `s.includes(pat)`. */
  function Contains(s: string, pat: string): (b: bool)
    ensures b <==> exists i: nat :: IsAt(s, pat, i)
  {
    IndexOf(s, pat).Some?
  }

  /** An occurrence in the tail of `s` is an occurrence in `s`, one index later. */
  lemma ContainsInTail(s: string, pat: string)
    requires |s| > 0
    ensures Contains(s[1..], pat) ==> Contains(s, pat)
  {
    if Contains(s[1..], pat) {
      var i: nat :| IsAt(s[1..], pat, i);
      assert s[i + 1..i + 1 + |pat|] == s[1..][i..i + |pat|];
      assert IsAt(s, pat, i + 1);
    }
  }

  /**
   * A scan of an ordered lookup table of `(key, value)` rows: the index of the first row, at or
   * after `from`, whose key occurs in `text` (a `for ... of` loop with `if (text.includes(key))`).
   */
  function FirstKeyFrom(table: seq<(string, string)>, text: string, from: nat): (r: Option<nat>)
    decreases |table| - from
    ensures r.Some? ==> from <= r.value < |table| && Contains(text, table[r.value].0)
    ensures r.Some? ==> forall j :: from <= j < r.value ==> !Contains(text, table[j].0)
    ensures r.None? ==> forall j :: from <= j < |table| ==> !Contains(text, table[j].0)
  {
    if from >= |table| then None
    else if Contains(text, table[from].0) then Some(from)
    else FirstKeyFrom(table, text, from + 1)
  }

  /** The value of the first row of `table` whose key occurs in `text`. */
  function LookupFirst(table: seq<(string, string)>, text: string): (r: Option<string>)
    ensures r.Some? <==> exists j :: 0 <= j < |table| && Contains(text, table[j].0)
    ensures forall i :: (0 <= i < |table| && Contains(text, table[i].0)
                         && (forall j :: 0 <= j < i ==> !Contains(text, table[j].0)))
                         ==> r == Some(table[i].1)
  {
    match FirstKeyFrom(table, text, 0)
    case None => None
    case Some(i) =>
      assert forall i' :: (0 <= i' < |table| && Contains(text, table[i'].0)
                           && (forall j :: 0 <= j < i' ==> !Contains(text, table[j].0))) ==> i' == i by {
        forall i' | 0 <= i' < |table| && Contains(text, table[i'].0)
                    && (forall j :: 0 <= j < i' ==> !Contains(text, table[j].0))
          ensures i' == i
        {
          if i' < i {
          } else if i < i' {
          }
        }
      }
      Some(table[i].1)
  }

  /** JavaScript `s.split(sep)[0]`: the text before the first `sep`, or all of `s`. */
  function Before(s: string, sep: string): (r: string)
    requires |sep| > 0
    ensures Contains(s, sep) ==> IsAt(s, sep, |r|) && !Contains(r, sep)
    ensures forall j: nat :: j < |r| ==> !IsAt(s, sep, j)
    ensures !Contains(s, sep) ==> r == s
    ensures |r| <= |s| && r == s[..|r|]
  {
    match IndexOf(s, sep)
    case None => s
    case Some(i) =>
      assert forall j: nat :: IsAt(s[..i], sep, j) ==> IsAt(s, sep, j) && j < i by {
        forall j: nat | IsAt(s[..i], sep, j) ensures IsAt(s, sep, j) && j < i {
          assert j + |sep| <= i;
          assert s[..i][j..j + |sep|] == s[j..j + |sep|];
        }
      }
      s[..i]
  }

  /** JavaScript `s.replace(pat, rep)` with a string pattern: only the first occurrence is replaced. */
  function ReplaceFirst(s: string, pat: string, rep: string): (r: string)
    ensures !Contains(s, pat) ==> r == s
    ensures Contains(s, pat) ==> exists i: nat :: IsAt(s, pat, i) && r == s[..i] + rep + s[i + |pat|..]
  {
    match IndexOf(s, pat)
    case None => s
    case Some(i) => s[..i] + rep + s[i + |pat|..]
  }

  /** JavaScript `s.startsWith(p)`. */
  predicate StartsWith(s: string, p: string) {
    |p| <= |s| && s[..|p|] == p
  }

  /** JavaScript `s.endsWith(p)`. */
  predicate EndsWith(s: string, p: string) {
    |p| <= |s| && s[|s| - |p|..] == p
  }

  /** No element is listed twice. */
  predicate NoRepeats<T(==)>(s: seq<T>) {
    forall i, j :: 0 <= i < j < |s| ==> s[i] != s[j]
  }

  /** A non-empty sequence is its head before its tail, as a multiset and for repeats too. */
  lemma HeadAndTail<T>(s: seq<T>)
    requires |s| > 0
    ensures s == [s[0]] + s[1..]
    ensures forall x :: x in s <==> x == s[0] || x in s[1..]
    ensures multiset(s) == multiset{s[0]} + multiset(s[1..])
    ensures NoRepeats(s) ==> s[0] !in s[1..] && NoRepeats(s[1..])
  {
    assert s == [s[0]] + s[1..];
    if NoRepeats(s) {
      forall i | 0 <= i < |s[1..]| ensures s[1..][i] != s[0] {
        assert s[1..][i] == s[i + 1];
      }
    }
  }

  /** `r` is `s` with some elements deleted: each step either skips or keeps the head of `s`. */
  predicate IsSubsequence<T(==)>(r: seq<T>, s: seq<T>)
    decreases |s|
  {
    if |s| == 0 then |r| == 0
    else IsSubsequence(r, s[1..]) || (|r| > 0 && r[0] == s[0] && IsSubsequence(r[1..], s[1..]))
  }

  /** Deleting a prefix of `s` as well still leaves a subsequence of `s`. */
  lemma {:induction false} SubsequenceOfSuffix<T>(r: seq<T>, s: seq<T>, p: nat, k: nat)
    requires p <= k <= |s|
    requires IsSubsequence(r, s[k..])
    ensures IsSubsequence(r, s[p..])
    decreases k - p
  {
    if p < k {
      SubsequenceOfSuffix(r, s, p + 1, k);
      assert s[p..][1..] == s[p + 1..];
    }
  }

  predicate IsPathSeparator(c: char) {
    c == '/' || c == '\\'
  }

  /**
   * JavaScript `s.split(/[\\/]/).pop()`: the piece after the last `/` or `\`
   * (all of `s` when it has no separator).
   */
  function LastSegment(s: string): (r: string)
    ensures |r| <= |s| && r == s[|s| - |r|..]
    ensures forall k :: 0 <= k < |r| ==> !IsPathSeparator(r[k])
    ensures |r| < |s| ==> IsPathSeparator(s[|s| - |r| - 1])
  {
    if |s| == 0 then ""
    else if IsPathSeparator(s[|s| - 1]) then ""
    else LastSegment(s[..|s| - 1]) + [s[|s| - 1]]
  }

  predicate IsUpperAscii(c: char) {
    'A' <= c <= 'Z'
  }

  function LowerChar(c: char): (d: char)
    ensures !IsUpperAscii(d)
    ensures !IsUpperAscii(c) ==> d == c
  {
    if IsUpperAscii(c) then (c as int + 32) as char else c
  }

  /** `toLowerCase`, restricted to the ASCII letters. */
  function Lower(s: string): (r: string)
    ensures |r| == |s|
    ensures forall k :: 0 <= k < |s| ==> r[k] == LowerChar(s[k])
  {
    seq(|s|, k requires 0 <= k < |s| => LowerChar(s[k]))
  }

  // ---------------------------------------------------------------------------------------
  // The order of JavaScript's `<` on strings: lexicographic by character, a proper prefix first.

  predicate Less(a: string, b: string)
    decreases |a|
  {
    |b| > 0 && (|a| == 0 || a[0] < b[0] || (a[0] == b[0] && Less(a[1..], b[1..])))
  }

  /** `a >= b` in JavaScript. */
  predicate AtLeast(a: string, b: string) {
    !Less(a, b)
  }

  lemma {:induction false} LessIrreflexive(a: string)
    ensures !Less(a, a)
    decreases |a|
  {
    if |a| > 0 {
      LessIrreflexive(a[1..]);
    }
  }

  lemma {:induction false} LessTransitive(a: string, b: string, c: string)
    requires Less(a, b) && Less(b, c)
    ensures Less(a, c)
    decreases |a|
  {
    if |a| > 0 && a[0] == b[0] && b[0] == c[0] {
      LessTransitive(a[1..], b[1..], c[1..]);
    }
  }

  lemma {:induction false} LessTotal(a: string, b: string)
    ensures a == b || Less(a, b) || Less(b, a)
    decreases |a|
  {
    if |a| > 0 && |b| > 0 && a[0] == b[0] {
      LessTotal(a[1..], b[1..]);
      if a[1..] == b[1..] {
        assert a == [a[0]] + a[1..] && b == [b[0]] + b[1..];
      }
    }
  }

  lemma {:induction false} LessAsymmetric(a: string, b: string)
    requires Less(a, b)
    ensures !Less(b, a)
    decreases |a|
  {
    if |a| > 0 && a[0] == b[0] {
      LessAsymmetric(a[1..], b[1..]);
    }
  }

  /** `AtLeast` is transitive: the order used to keep the maximum of a fold. */
  lemma AtLeastTransitive(a: string, b: string, c: string)
    requires AtLeast(a, b) && AtLeast(b, c)
    ensures AtLeast(a, c)
  {
    LessTotal(a, b);
    LessTotal(b, c);
    if Less(a, c) {
      if a == b {
      } else if b == c {
      } else {
        LessTransitive(b, a, c);
      }
    }
  }

  // ---------------------------------------------------------------------------------------
  // `sort()` then `reverse()` on an array of strings: descending order.

  predicate SortedDesc(s: seq<string>) {
    forall i, j :: 0 <= i < j < |s| ==> AtLeast(s[i], s[j])
  }

  function InsertDesc(x: string, s: seq<string>): (r: seq<string>)
    requires SortedDesc(s)
    ensures SortedDesc(r)
    ensures multiset(r) == multiset(s) + multiset{x}
  {
    if |s| == 0 then [x]
    else if AtLeast(x, s[0]) then
      AtLeastAll(x, s);
      [x] + s
    else
      var rest := InsertDesc(x, s[1..]);
      assert s == [s[0]] + s[1..];
      LessTotal(x, s[0]);
      LessAsymmetric(x, s[0]);
      HeadAtLeastRest(s, x, rest);
      [s[0]] + rest
  }

  lemma AtLeastAll(x: string, s: seq<string>)
    requires SortedDesc(s) && |s| > 0 && AtLeast(x, s[0])
    ensures forall j :: 0 <= j < |s| ==> AtLeast(x, s[j])
  {
    forall j | 0 <= j < |s| ensures AtLeast(x, s[j]) {
      LessIrreflexive(s[0]);
      AtLeastTransitive(x, s[0], s[j]);
    }
  }

  lemma HeadAtLeastRest(s: seq<string>, x: string, rest: seq<string>)
    requires SortedDesc(s) && |s| > 0 && AtLeast(s[0], x)
    requires multiset(rest) == multiset(s[1..]) + multiset{x}
    ensures forall j :: 0 <= j < |rest| ==> AtLeast(s[0], rest[j])
  {
    forall j | 0 <= j < |rest| ensures AtLeast(s[0], rest[j]) {
      assert rest[j] in multiset(rest);
      if rest[j] != x {
        assert rest[j] in multiset(s[1..]);
        var k :| 0 <= k < |s[1..]| && s[1..][k] == rest[j];
        assert s[k + 1] == rest[j];
      }
    }
  }

  /** The strings of `s` in descending order (JavaScript `s.sort().reverse()`). */
  function SortDesc(s: seq<string>): (r: seq<string>)
    ensures SortedDesc(r)
    ensures multiset(r) == multiset(s)
    ensures |r| == |s|
  {
    if |s| == 0 then []
    else
      var init := SortDesc(s[..|s| - 1]);
      assert s == s[..|s| - 1] + [s[|s| - 1]];
      assert multiset(s) == multiset(s[..|s| - 1]) + multiset{s[|s| - 1]};
      InsertDesc(s[|s| - 1], init)
  }
}

=== FILE: validate.dfy ===
/**
 * The argument checks of the bridge in src/preload.js, run before a request reaches the main
 * process: a date must be a string of the shape `YYYY-MM-DD`, and a number of days must read
 * as an integer of at least 1 under `parseInt`.
 */
module Validate {
  import opened Basics
  import opened Decimal

  /** A value handed over by the page: a string, or a value of another type. */
  datatype Arg = Text(s: string) | NotText

  const DateError := "Formato de data inválido. Use YYYY-MM-DD"
  const DaysError := "Dias deve ser um número positivo"

  /** One element of an anchored pattern made of `\d` classes and literal characters. */
  datatype Atom = AnyDigit | Literal(c: char)

  /** `^\d{4}-\d{2}-\d{2}$`, atom by atom. */
  const DatePattern: seq<Atom> :=
    [AnyDigit, AnyDigit, AnyDigit, AnyDigit, Literal('-'), AnyDigit, AnyDigit, Literal('-'), AnyDigit, AnyDigit]

  predicate AtomMatches(a: Atom, c: char) {
    match a
    case AnyDigit => IsDigit(c)
    case Literal(l) => c == l
  }

  /** The whole of `s` matches the pattern (both anchors, no repetition beyond what is spelled out). */
  predicate Matches(s: string, p: seq<Atom>)
    decreases |p|
  {
    if |p| == 0 then |s| == 0
    else |s| > 0 && AtomMatches(p[0], s[0]) && Matches(s[1..], p[1..])
  }

  /** Matching an anchored pattern of single-character atoms is matching position by position. */
  lemma {:induction false} MatchesPointwise(s: string, p: seq<Atom>)
    ensures Matches(s, p) <==> |s| == |p| && forall k :: 0 <= k < |p| ==> AtomMatches(p[k], s[k])
    decreases |p|
  {
    if |p| > 0 && |s| > 0 {
      MatchesPointwise(s[1..], p[1..]);
      if |s| == |p| && AtomMatches(p[0], s[0]) && (forall k :: 0 <= k < |p[1..]| ==> AtomMatches(p[1..][k], s[1..][k])) {
        forall k | 0 <= k < |p| ensures AtomMatches(p[k], s[k]) {
          if k > 0 {
            assert AtomMatches(p[1..][k - 1], s[1..][k - 1]);
          }
        }
      }
      if |s| == |p| && forall k :: 0 <= k < |p| ==> AtomMatches(p[k], s[k]) {
        assert AtomMatches(p[0], s[0]);
        forall k | 0 <= k < |p[1..]| ensures AtomMatches(p[1..][k], s[1..][k]) {
          assert AtomMatches(p[k + 1], s[k + 1]);
        }
      }
    }
  }

  /** The shape `YYYY-MM-DD`: ten characters, dashes at 4 and 7, ASCII digits elsewhere. */
  predicate IsDateShape(s: string) {
    && |s| == 10 && s[4] == '-' && s[7] == '-'
    && forall k :: 0 <= k < 10 && k != 4 && k != 7 ==> IsDigit(s[k])
  }

  /** The pattern accepts exactly the strings of date shape. */
  lemma DatePatternIsDateShape(s: string)
    ensures Matches(s, DatePattern) <==> IsDateShape(s)
  {
    MatchesPointwise(s, DatePattern);
    if IsDateShape(s) {
      DateShapeMatches(s);
    }
    if Matches(s, DatePattern) {
      MatchedIsDateShape(s);
    }
  }

  /** A string of date shape meets every atom of the pattern. */
  lemma DateShapeMatches(s: string)
    requires IsDateShape(s)
    ensures forall k :: 0 <= k < |DatePattern| ==> AtomMatches(DatePattern[k], s[k])
  {
    forall k | 0 <= k < |DatePattern| ensures AtomMatches(DatePattern[k], s[k]) {
      if k == 4 || k == 7 {
        assert DatePattern[k] == Literal('-');
      } else {
        assert DatePattern[k] == AnyDigit;
      }
    }
  }

  /** A string meeting every atom of the pattern has the date shape. */
  lemma MatchedIsDateShape(s: string)
    requires |s| == |DatePattern|
    requires forall k :: 0 <= k < |DatePattern| ==> AtomMatches(DatePattern[k], s[k])
    ensures IsDateShape(s)
  {
    assert AtomMatches(DatePattern[4], s[4]) && AtomMatches(DatePattern[7], s[7]);
    forall k | 0 <= k < 10 && k != 4 && k != 7 ensures IsDigit(s[k]) {
      assert DatePattern[k] == AnyDigit;
      assert AtomMatches(DatePattern[k], s[k]);
    }
  }

  /**
   * `getStatsByDate(date)`'s check: the date itself when it is a string of date shape, which
   * is to say (`ValidateDateIsPattern`) a string the pattern matches.
   */
  function ValidateDate(arg: Arg): (r: Result<string>)
    ensures r.Ok? <==> arg.Text? && IsDateShape(arg.s)
    ensures r.Ok? ==> r.value == arg.s
    ensures r.Err? ==> r.message == DateError
  {
    if arg.Text? && IsDateShape(arg.s) then Ok(arg.s) else Err(DateError)
  }

  /** The check passes exactly the strings `^\d{4}-\d{2}-\d{2}$` matches, and refuses every other value. */
  lemma ValidateDateIsPattern(arg: Arg)
    ensures ValidateDate(arg).Ok? <==> arg.Text? && Matches(arg.s, DatePattern)
    ensures ValidateDate(arg).Ok? ==> ValidateDate(arg).value == arg.s
  {
    if arg.Text? {
      DatePatternIsDateShape(arg.s);
    }
  }

  /** Only the shape is checked: a month 99 and a day 99 pass. */
  lemma DateRangeUnchecked()
    ensures ValidateDate(Text("2024-99-99")) == Ok("2024-99-99")
  {
    var s := "2024-99-99";
    assert s[4] == '-' && s[7] == '-';
    assert forall k :: 0 <= k < 10 && k != 4 && k != 7 ==> IsDigit(s[k]);
  }

  /** `clearOldData(days)`'s check: the integer `parseInt` reads from `days`, when it is at least 1. */
  function ValidateDays(days: string): (r: Result<int>)
    ensures r.Ok? ==> r.value >= 1 && ParseInt(days) == Some(r.value)
    ensures r.Err? ==> r.message == DaysError && (ParseInt(days).None? || ParseInt(days).value < 1)
  {
    match ParseInt(days)
    case Some(n) => if n < 1 then Err(DaysError) else Ok(n)
    case None => Err(DaysError)
  }

  /**
   * Any positive number written in decimal passes and is forwarded as that number, also with
   * leading white space, a `+`, or trailing text that does not continue it (`"7 dias"`, `"2.9"`).
   */
  lemma ValidateDaysDecimal(n: nat, ws: string, plus: bool, rest: string)
    requires n >= 1
    requires forall k :: 0 <= k < |ws| ==> IsJsWhiteSpace(ws[k])
    requires |rest| == 0 || (!IsDigit(rest[0]) && rest[0] != 'x' && rest[0] != 'X')
    ensures ValidateDays(ws + (if plus then "+" else "") + ToDec(n) + rest) == Ok(n)
  {
    ParseIntToDec(n, ws, if plus then "+" else "", rest);
  }

  /** A number written with a `-` sign is refused. */
  lemma ValidateDaysNegative(n: nat, ws: string, rest: string)
    requires forall k :: 0 <= k < |ws| ==> IsJsWhiteSpace(ws[k])
    requires |rest| == 0 || (!IsDigit(rest[0]) && rest[0] != 'x' && rest[0] != 'X')
    ensures ValidateDays(ws + "-" + ToDec(n) + rest).Err?
  {
    ParseIntToDec(n, ws, "-", rest);
  }

  /** Zero is refused. */
  lemma ValidateDaysZero(ws: string, rest: string)
    requires forall k :: 0 <= k < |ws| ==> IsJsWhiteSpace(ws[k])
    requires |rest| == 0 || (!IsDigit(rest[0]) && rest[0] != 'x' && rest[0] != 'X')
    ensures ValidateDays(ws + "0" + rest).Err?
  {
    ParseIntToDec(0, ws, "", rest);
    assert ws + "" == ws;
    assert ToDec(0) == "0";
  }

  /** An illustration of `ValidateDays`' truncation: a fractional count is cut to its integer part before the check. */
  lemma ValidateDaysTruncates()
    ensures ValidateDays("2.9") == Ok(2)
  {
    ParseIntToDec(2, "", "", ".9");
    assert "" + "" + ToDec(2) + ".9" == "2.9";
  }
}
